=== FILE: README.md ===
# standoffbook in Dafny

A model of the client-side logic of *standoffbook*, a React catalogue and
market front end for Standoff 2 items. The web site itself is rendering.
What is modelled here is the logic under it:

- **REST client** (`src/api`):
  - the query string of the item filter;
  - how each endpoint turns a response, a failure or an abort into a value or an error message;
  - the keyed registries of in-flight requests that the statistics and item-details clients keep, where a new request under a key aborts the old one.
- **Catalogue listing pages**:
  - the static category table;
  - the sample items, including `generateSampleItems`, which tops every (category, subcategory) pair up to five items;
  - filtering, the stable sorts, client-side pagination, and the effects that reset the page.
- **Item filter page**: five dropdown selections with an applied snapshot, Apply and Cancel, the request each action sends, and the Prev/Next guards.
- **Mock session store** (`AuthContext`): sign-in by provider, logout and profile update over the in-memory `MOCK_USERS` list, with the saved-user slot.
- **Site header**: badge icons and rarity colours of search results, the dropdown, menu and search toggles, the blank-query guard, and the state reset on a result click.
- **Price chart**: the day count of each time range, the generated series, its spikes, and the x-axis tick thinning.

Everything is a pure function over immutable values. Where a source
operation changes several React state variables, the model returns the next
state (and any requests sent) as a value. Anything random, clock-dependent
or remote enters as a parameter:
- random draws: `SamplePick`, `Traits`, `Fresh`, the chart's `draw`;
- the clock: `today`, `Fresh.now`;
- network results: `FetchOutcome`, `Result`.

Modules follow the source files:

| module | models |
|---|---|
| `Outcomes` | `undefined`/`null` as `Option`, settled promises as `Result` |
| `Text` | `toString`/decimal parsing, `join`/`split`, ASCII `toLowerCase`, `trim()` emptiness |
| `Sequences` | `Array.prototype.filter` and a stable sort by an integer key |
| `Http` | what a `fetch` can do; `response.ok`; abort errors |
| `FilterApi` | `src/api/filter.ts` |
| `InFlight` | the `activeRequests` map of `src/api/statistics.ts` and `src/api/item.ts` |
| `StatisticsApi`, `ItemApi` | `getItemsStatistics`, `getItemDetails` |
| `CatalogData` | `categoryData`, the seed items and the draw lists (the two listing pages carry identical copies) |
| `Pagination` | the listing pages' page count, page slice, page buttons and reset effect |
| `CategoryPage`, `SubcategoryPage` | `src/pages/CategoryPage.tsx`, `src/pages/SubcategoryPage.tsx` |
| `FilterPanel` | `src/pages/Filter.tsx` |
| `Session` | `src/contexts/AuthContext.tsx` |
| `HeaderLogic` | `src/components/Header.tsx` (and the identical helpers in `Filter.tsx`) |
| `PriceChart` | `src/components/PriceChart.tsx` |

Some behaviour of the source, as written, is stated as lemmas rather than smoothed over:

- **Apply sends a duplicate request.** Apply from a page other than 1 sends two identical requests for page 1. One comes from `handleApply` itself; the other comes from the page effect that the reset to page 1 triggers (`FilterPanel.ApplyStart`).
- **Paging ignores Apply.** Prev/Next request pages under the *current* dropdown choices, applied or not (`FilterPanel.PagingUsesUnappliedChoice`).
- **Failed requests stay registered.** A request that fails without an abort stays registered (`InFlight.FailedRequestStaysRegistered`).
- **Sign-in never creates a user.** The "new user" branch of sign-in is unreachable from the mock list, because every provider already has a user (`Session.NeverCreatesUsers`).
- **A reload forgets profile edits.** A reload starts again from `MOCK_USERS` but restores the saved user. The edited name shows until the next edit, which starts again from the mock entry (`Session.ReloadedEditIsLost`).
- **A failed load leaves no way back but a reload.** Once an error is shown, the dropdowns and page buttons are gone until the page is reloaded (`FilterPanel.FailureHidesControls`); every failure the filter requests report has a non-empty message, so each one does this (`FilterPanel.RequestFailureHidesControls`).
- **Toggling a dropdown twice is not always a round trip.** It closes everything when another dropdown was open (`HeaderLogic.ToggleDropdownTwice`).

## Model

| member | source | states |
|---|---|---|
| `Http.NewError` | src/api/filter.ts:52 | `new Error(m)` is an `Error` carrying `m` and is never mistaken for an abort |
| `FilterApi.QueryPairs` | src/api/filter.ts:70-79 | the appended pairs are parameter names, each at most once, in append order; a parameter appears exactly when its value is truthy (present and non-zero), with that value |
| `FilterApi.DecodeQueryString` | src/api/filter.ts:70-81 | the query string reads back into exactly the appended pairs (encode/decode round trip) |
| `FilterApi.QueryStringDeterminesNormalForm` | src/api/filter.ts:73-79 | a parameter set to 0 gives the same query as an unset one, and two parameter sets give the same query string if and only if they agree once zeros are read as unset |
| `FilterApi.OrderedPairsByLookup` | src/api/filter.ts:73-79 | two pair lists in append order with the same lookups are equal, so the query is determined by which parameters it names |
| `FilterApi.StatusOfMessage` | src/api/filter.ts:93-94 | the rewrapped HTTP-error message gives back the status it was made from |
| `FilterApi.GetFilteredItems` | src/api/filter.ts:67-107 | 404 gives the empty page; any other non-2xx status gives an error from which the status can be read back; success exactly on a 404 or a 2xx with a decodable body, returning that body; "Request was aborted" exactly when an abort reaches the `catch`; any other rejection or unreadable body gives "Failed to fetch filtered items: " plus the error's message, or "An unknown error occurred" for a thrown non-error; every error message is non-empty |
| `FilterApi.GetFilterParams` | src/api/filter.ts:41-65 | every non-2xx status, 404 included, is an error carrying that status; success exactly on a 2xx with a decodable body, returning it; the abort message exactly on an abort; any other rejection or unreadable body gives "Failed to fetch filter params: " plus the error's message, or "An unknown error occurred" for a thrown non-error; every error message is non-empty |
| `InFlight.EmptyIsValid` | src/api/statistics.ts:46 | the empty registry `Empty` (no entries, no aborted controller) satisfies the registry invariant |
| `InFlight.SupersedeKeepsValid` | src/api/statistics.ts:57-60 | the guard `Supersede`, which aborts and removes the key's entry, keeps the invariant (created, distinct, unaborted registered controllers) |
| `InFlight.Issue` | src/api/statistics.ts:56-64 | after a request starts (`Supersede`, then `Register`), its key holds its own new controller; other keys are untouched; the old controller under the key is aborted; the invariant is kept, and the new controller is distinct from every registered one and not aborted |
| `InFlight.Delete` | src/api/statistics.ts:75 | deletion is by key, whichever controller is registered; it keeps the invariant |
| `InFlight.Complete` | src/api/statistics.ts:66-86 | a request whose controller was aborted rejects with an `AbortError` that `Caught` turns into "Request was cancelled", leaving the registry alone; otherwise a response deletes the key before the status is checked, a rejection leaves the registry alone, a non-2xx status gives the endpoint's failure error, other rejections are rethrown unchanged; success exactly on a 2xx with a decodable body from an unaborted request |
| `InFlight.IssueMany` | src/api/statistics.ts:56-64 | issuing `n` requests yields `n` controllers |
| `InFlight.LastIssuedWins` | src/api/statistics.ts:56-64 | of `n` requests issued under one key before any settles, the last is the registered one and not aborted, and every earlier one has been aborted |
| `InFlight.FirstIssue` | src/api/statistics.ts:63-64 | the first request under a key is the registered one and not aborted |
| `InFlight.IssueOneMore` | src/api/statistics.ts:57-64 | issuing again aborts the registered controller and keeps earlier aborts |
| `InFlight.SupersededRequestSparesNewerEntry` | src/api/statistics.ts:57-86 | when a request is superseded before it settles, its aborted fetch ends in "Request was cancelled" and the newer request's entry stays registered and unaborted |
| `InFlight.FailedRequestStaysRegistered` | src/api/statistics.ts:79-86 | a rejection that is not an abort leaves the request's own controller registered |
| `InFlight.SettledRequestLeavesNoEntry` | src/api/statistics.ts:63-75 | a lone request that receives a response leaves the registry's entries as they were |
| `InFlight.StepsUnderOtherKeysIndependent` | src/api/statistics.ts:57-75 | starting or finishing a request under one key never adds, removes or changes another key's entry |
| `StatisticsApi.ParseSortBy` | src/api/statistics.ts:42 | a string is read as a sort field only when it is that field's name |
| `StatisticsApi.SortByNames` | src/api/statistics.ts:42 | every sort field's name reads back to that field |
| `StatisticsApi.ParseSortOrder` | src/api/statistics.ts:43 | a string is read as a sort direction only when it is that direction's name |
| `StatisticsApi.ParseRequestKeyRoundTrip` | src/api/statistics.ts:54 | the request key `page-pageSize-sortBy-sortOrder` reads back into the four arguments, negative numbers included |
| `StatisticsApi.RequestKeyInjective` | src/api/statistics.ts:54 | two calls share a request key if and only if all four arguments are equal |
| `StatisticsApi.DefaultsShareKey` | src/api/statistics.ts:48-54 | after `WithDefaults`, two calls share a request key exactly when their arguments agree with omitted ones read as page 1, size 10, `per_week`, `desc`; a call without arguments and one with those four values are the same request |
| `StatisticsApi.StartStatistics` | src/api/statistics.ts:54-64 | the call's key gains its own controller; an earlier request with the same arguments is aborted; the invariant is kept |
| `StatisticsApi.FinishStatistics` | src/api/statistics.ts:66-86 | an aborted request is "Request was cancelled" and leaves the registry alone; otherwise a response removes the key, a rejection keeps it, a non-2xx status is "Failed to fetch items statistics", other rejections are rethrown; success exactly on a 2xx with a body from an unaborted request |
| `StatisticsApi.RepeatedCallCancelsEarlier` | src/api/statistics.ts:54-86 | a second call with the same arguments before the first settles makes the first end in "Request was cancelled" and leaves the second registered |
| `StatisticsApi.DistinctQueriesIndependent` | src/api/statistics.ts:54-75 | calls with different arguments never abort, replace or delete each other's entries |
| `ItemApi.ItemPath` | src/api/item.ts:80 | the path is `/api/v1/item/` followed by the slug, unencoded |
| `ItemApi.ItemPathInjective` | src/api/item.ts:80 | distinct slugs request distinct paths |
| `ItemApi.StartItemDetails` | src/api/item.ts:67-76 | the slug gains its own controller; an earlier request for the slug is aborted; other slugs are untouched; the invariant is kept |
| `ItemApi.FinishItemDetails` | src/api/item.ts:78-98 | an aborted request is "Request was cancelled" and leaves the registry alone; otherwise a response removes the slug, a rejection keeps it, a non-2xx status is "Failed to fetch item details", other rejections are rethrown; success exactly on a 2xx with a body from an unaborted request |
| `ItemApi.ReopenedItemLeavesNoEntry` | src/api/item.ts:67-98 | opening an item, letting it load and opening it again leaves no entry behind and aborts nothing |
| `CatalogData.FindCategory` | src/pages/CategoryPage.tsx:219 | `categoryData[key]` is the catalog entry with that key, or absent exactly when no entry has it |
| `CatalogData.FindCategoryIn` | src/pages/CategoryPage.tsx:219 | the same lookup in any catalog |
| `CatalogData.FindSubcategory` | src/pages/SubcategoryPage.tsx:229 | `find(sub => sub.id === id)`: a subcategory of the category with that id, or absent exactly when none has it |
| `CatalogData.FindSubIn` | src/pages/SubcategoryPage.tsx:229 | the same search in any subcategory list |
| `CatalogData.PairsOf` | src/pages/SubcategoryPage.tsx:189-190 | the nested `forEach` (one `CategoryPairs` run per category) visits only pairs whose category key belongs to the catalog, and visits every (category, subcategory) pair of it |
| `CatalogData.PairsOfDistinct` | src/pages/SubcategoryPage.tsx:189-190 | with distinct keys and distinct subcategory ids per category, the visited pairs are pairwise distinct |
| `CatalogData.CatalogKeysDistinct` | src/pages/CategoryPage.tsx:32-132 | the catalog's category keys are distinct, and so are the subcategory ids within each category |
| `CatalogData.TopKeysDistinct` | src/pages/CategoryPage.tsx:32-132 | the nine category keys are distinct |
| `CatalogData.SubIdsDistinctFrom0` | src/pages/CategoryPage.tsx:33-50 | knives and gloves have distinct subcategory ids |
| `CatalogData.SubIdsDistinctFrom2` | src/pages/CategoryPage.tsx:51-75 | weapons and stickers have distinct subcategory ids |
| `CatalogData.SubIdsDistinctFrom4` | src/pages/CategoryPage.tsx:76-97 | keychains and grenades have distinct subcategory ids |
| `CatalogData.SubIdsDistinctFrom6` | src/pages/CategoryPage.tsx:98-131 | graffiti, containers and fragments have distinct subcategory ids |
| `CatalogData.CatalogPairsDistinct` | src/pages/SubcategoryPage.tsx:189-190 | no (category, subcategory) pair of the catalog is visited twice; with `PairsOf`'s coverage, each is visited exactly once |
| `Pagination.TotalPages` | src/pages/CategoryPage.tsx:259 | `Math.ceil(n / 12) \|\| 1`: at least 1; 1 for no items; otherwise the least page count that holds `n` items |
| `Pagination.RelativeIndex` | src/pages/CategoryPage.tsx:260-263 | `slice` clamps an index into `0..len`, keeping one already in range |
| `Pagination.JsSlice` | src/pages/CategoryPage.tsx:260-263 | `slice(start, end)` is the subsequence for in-range bounds, empty when `end <= start`, and never longer than `end - start` or holding foreign elements |
| `Pagination.PageItems` | src/pages/CategoryPage.tsx:260-263 | a page has at most 12 items, all from the list, namely items `(page-1)*12 ..` of it clamped to its end |
| `Pagination.PagesUpToIsPrefix` | src/pages/CategoryPage.tsx:260-263 | pages `1..k` concatenated are the list's first `12k` items |
| `Pagination.PagesCoverAll` | src/pages/CategoryPage.tsx:259-263 | pages `1..TotalPages` concatenated give back the whole list: nothing is skipped or repeated |
| `Pagination.Click` | src/pages/CategoryPage.tsx:422-443 | Prev goes back one page but never below 1; a number button goes to its page; Next moves on one page and never past the last; a disabled button does nothing; a page in range stays in range |
| `CategoryPage.LoopCategoriesAreCatalogKeys` | src/pages/CategoryPage.tsx:192 | the loop's category list is the catalog's keys in catalog order |
| `CategoryPage.SeedItemsNumbered` | src/pages/CategoryPage.tsx:147-188 | the four seed items are numbered 1 to 4 |
| `CategoryPage.SeedItemsInCatalog` | src/pages/CategoryPage.tsx:147-188 | each seed item is filed under a catalog category and one of its subcategories |
| `CategoryPage.DrawInCatalog` | src/pages/CategoryPage.tsx:193-206 | a drawn item's subcategory belongs to the category it was filed under |
| `CategoryPage.Pushes` | src/pages/CategoryPage.tsx:191-207 | round `k` of the loop pushes the draw for id `first + k + 1` |
| `CategoryPage.AppendSamples` | src/pages/CategoryPage.tsx:191-207 | the loop appends exactly one drawn item per id after the seeds, up to id 20 |
| `CategoryPage.PushOne` | src/pages/CategoryPage.tsx:197-206 | each round extends the list by the next draw |
| `CategoryPage.SamplesWellFormed` | src/pages/CategoryPage.tsx:147-207 | the sample list is numbered from 1 and every item lies in the catalog |
| `CategoryPage.SampleItems` | src/pages/CategoryPage.tsx:147-207 | `sampleItems` has 20 items with ids 1..20, all distinct, all filed under catalog pairs |
| `CategoryPage.NumberedIdsDistinct` | src/pages/CategoryPage.tsx:191-199 | ids counting up from 1 are distinct |
| `CategoryPage.Filtered` | src/pages/CategoryPage.tsx:232-236 | the filter keeps items of the category only and, when a subcategory is active, of that subcategory only |
| `CategoryPage.FilteredIsShownItems` | src/pages/CategoryPage.tsx:232-236 | the filter keeps exactly the shown items in their original order; with a falsy subcategory only the category matters |
| `CategoryPage.Listing` | src/pages/CategoryPage.tsx:229-251 | the stored list is a permutation of the filtered items, sorted by the chosen order |
| `CategoryPage.NewestIsDescendingIds` | src/pages/CategoryPage.tsx:244-247 | under "newest" the list runs by strictly descending id |
| `CategoryPage.PriceTiesKeepOrder` | src/pages/CategoryPage.tsx:239-243 | under either price order, items of equal price keep their original relative order (the sort is stable) |
| `CategoryPage.Open` | src/pages/CategoryPage.tsx:212-256 | the first render has no subcategory, "newest", page 1 and a consistent list |
| `CategoryPage.StepKeepsConsistent` | src/pages/CategoryPage.tsx:229-256 | every event keeps the stored list in step with the dependencies (the effect `Refilter`, which changes nothing for a falsy `categoryId`) and the page in range; a dependency change resets the page to 1 (`AfterDependencies`); a page click leaves the list alone |
| `CategoryPage.Rendered` | src/pages/CategoryPage.tsx:259-275 | "Category not found" exactly for a key outside the catalog; otherwise at most 12 items, all from the stored list |
| `CategoryPage.RenderedItemsAreShown` | src/pages/CategoryPage.tsx:259-263 | a consistent view shows only sample items that the category and subcategory filter keeps |
| `CategoryPage.NavigateKeepsSubcategory` | src/pages/CategoryPage.tsx:212-236 | a change of category does not clear the active subcategory (only the "All" button does), so a category none of whose items is of that subcategory shows an empty list |
| `SubcategoryPage.Needed` | src/pages/SubcategoryPage.tsx:192-196 | a pair with `k < 5` items gets `5 - k` new ones; a pair with five or more gets none |
| `SubcategoryPage.FirstWithKey` | src/pages/SubcategoryPage.tsx:189-190 | the first visited pair with a key, absent exactly when no pair has it |
| `SubcategoryPage.CountAppend` | src/pages/SubcategoryPage.tsx:192-194 | a pair's count over two lists adds up |
| `SubcategoryPage.CountBlock` | src/pages/SubcategoryPage.tsx:198-209 | the inner loop's block (`Block`) holds `n` items of that pair and none of any other |
| `SubcategoryPage.FirstPairCount` | src/pages/SubcategoryPage.tsx:192-209 | the first pair's block lifts its count to five, or adds nothing at five or more |
| `SubcategoryPage.OtherPairUncounted` | src/pages/SubcategoryPage.tsx:198-209 | a pair's block leaves every other pair's count as it was |
| `SubcategoryPage.FillCount` | src/pages/SubcategoryPage.tsx:184-214 | after generation a visited pair with fewer than five items has exactly five; every other count is unchanged |
| `SubcategoryPage.FillExtends` | src/pages/SubcategoryPage.tsx:186 | generation only appends: the starting items remain an unchanged prefix |
| `SubcategoryPage.IdsFromAppend` | src/pages/SubcategoryPage.tsx:200 | consecutive id runs concatenate to one run |
| `SubcategoryPage.FillIds` | src/pages/SubcategoryPage.tsx:185-200 | generated ids run consecutively from the counter's start |
| `SubcategoryPage.FirstBlockKey` | src/pages/SubcategoryPage.tsx:198-209 | the items of the first pair's block are of that pair |
| `SubcategoryPage.FillOnlyUnderfull` | src/pages/SubcategoryPage.tsx:192-196 | every generated item belongs to a pair that had fewer than five items to begin with |
| `SubcategoryPage.FillFirst` | src/pages/SubcategoryPage.tsx:189-212 | one outer step appends the first pair's block and continues with the rest |
| `SubcategoryPage.FillNames` | src/pages/SubcategoryPage.tsx:201 | the `i`-th generated item of a pair is named "<subcategory name> Item <i+1>" |
| `SubcategoryPage.FillShape` | src/pages/SubcategoryPage.tsx:184-214 | topping up seeds numbered from 1: the seeds stay a prefix, new ids follow on, all ids are distinct, and every visited pair ends with at least five items |
| `SubcategoryPage.AllItemsShape` | src/pages/SubcategoryPage.tsx:184-216 | `allItems` keeps the four seeds first, numbers generated items from 5, has distinct ids, and gives every catalog pair at least five items |
| `SubcategoryPage.EverySubcategoryFilled` | src/pages/SubcategoryPage.tsx:184-216 | every subcategory of every category ends with at least five items in `allItems` |
| `SubcategoryPage.Matching` | src/pages/SubcategoryPage.tsx:244-246 | the page keeps exactly the items of both the category and the subcategory |
| `SubcategoryPage.MatchingIsCategoryPageWithSubcategory` | src/pages/SubcategoryPage.tsx:244-246 | the subcategory page's filter is the category page's filter with that subcategory active |
| `SubcategoryPage.Listing` | src/pages/SubcategoryPage.tsx:241-259 | the stored list is a permutation of the matching items, sorted by the chosen order |
| `SubcategoryPage.Open` | src/pages/SubcategoryPage.tsx:222-263 | the first render has "newest", page 1 and a consistent list |
| `SubcategoryPage.StepKeepsConsistent` | src/pages/SubcategoryPage.tsx:241-263 | every event keeps the list in step (the effect `Refilter`, which changes nothing for a falsy route parameter) and the page in range; a route or order change resets to page 1; paging leaves the list alone |
| `SubcategoryPage.Rendered` | src/pages/SubcategoryPage.tsx:266-283 | "Subcategory not found" exactly when the category or the subcategory is missing; at most 12 items from the list; the page buttons exactly when the list is not empty |
| `FilterPanel.Set` | src/pages/Filter.tsx:72-76 | a dropdown's setter changes that selection only |
| `FilterPanel.SelectionsByFields` | src/pages/Filter.tsx:72-76 | the selections are determined by their five fields |
| `FilterPanel.FindByName` | src/pages/Filter.tsx:288 | `find(o => o.name === name) \|\| null` gives an offered option of that name, or null exactly when none has it |
| `FilterPanel.FindByNameIsFirst` | src/pages/Filter.tsx:288 | the option found is the first of that name |
| `FilterPanel.ParamIndex` | src/pages/Filter.tsx:169-174 | each dropdown is sent as one of the filter endpoint's parameters |
| `FilterPanel.RequestQuery` | src/pages/Filter.tsx:169-177 | the query of `Request(s, page)` names a dropdown's parameter exactly when an option with a non-zero id is selected, and then with its id; page 0 is left out; `page_size=12` is always sent |
| `FilterPanel.InitialRequestIsUnfiltered` | src/pages/Filter.tsx:114-117 | the initial load asks for page 1 of size 12 with no filter |
| `FilterPanel.NothingBeforeOptionsLoad` | src/pages/Filter.tsx:103-138 | from the first render (`Initial`) no click or choice has an effect until the options arrive; a load (`Loaded`) with the options and the first page shows the controls on page 1 with that page's items |
| `FilterPanel.ApplyStart` | src/pages/Filter.tsx:196-218 | Apply snapshots the selections, goes to page 1, and sends requests for page 1 under them; there are two identical requests exactly when it starts from another page with the options loaded |
| `FilterPanel.ApplyButtons` | src/components/MobileFilterModal.tsx:45-141 | the modal's Apply does nothing while the modal is closed and starts Apply while it is open, even while items load; the panel's Apply (Filter.tsx:343-350) does nothing while items load and starts Apply otherwise |
| `FilterPanel.CancelRestoresApplied` | src/pages/Filter.tsx:150-158 | after Apply, `Cancel` gives back the applied selections, also after further choices made with `Select` |
| `FilterPanel.CancelIdempotent` | src/pages/Filter.tsx:150-158 | cancelling twice is cancelling once |
| `FilterPanel.StepKeepsPage` | src/pages/Filter.tsx:415-427 | the page never drops below 1; Prev (`Prev`) moves back by exactly one; Next (`Next`) moves on by one, and only while the current page ends before the total |
| `FilterPanel.StepRequests` | src/pages/Filter.tsx:161-218 | every request sent has page size 12 and a page of at least 1; a page button that sends anything sends one request (`Rerender`), for the new page under the current selections |
| `FilterPanel.PagingUsesUnappliedChoice` | src/pages/Filter.tsx:161-177 | paging after a dropdown choice that was not applied filters by that choice, while the snapshot is unchanged |
| `FilterPanel.FailureHidesControls` | src/pages/Filter.tsx:251-265 | after a failed load (`Loaded`, `Settled` or `ApplySettled` with a non-empty error) no click or choice changes or sends anything, since only the reload button is rendered; an empty message is falsy and leaves the controls shown; a load that brings options and items shows the controls |
| `FilterPanel.RequestFailureHidesControls` | src/pages/Filter.tsx:251-265 | any failure reported by `getFilterParams` or `getFilteredItems`, whether on the first load, a page change or an Apply, hides every control, because those messages are never empty |
| `Session.FindByProvider` | src/contexts/AuthContext.tsx:95 | a known user of that provider, or absent exactly when there is none |
| `Session.FindByProviderIsFirst` | src/contexts/AuthContext.tsx:95 | the user found is the first of that provider |
| `Session.Capitalized` | src/contexts/AuthContext.tsx:107 | the first character upper-cased, the rest kept |
| `Session.NewUserDisplayName` | src/contexts/AuthContext.tsx:104-112 | a user made by `NewUser` is displayed as "Steam User", "Google User" or "Telegram User" |
| `Session.SignIn` | src/contexts/AuthContext.tsx:84-126 | sign-in makes the first known user of the provider current and saves it; without one it appends a new user and signs that in; loading ends |
| `Session.IndexOfId` | src/contexts/AuthContext.tsx:148 | `findIndex`: the first position with that id, or absent exactly when no user has it |
| `Session.UpdateProfile` | src/contexts/AuthContext.tsx:136-172 | "Not authenticated" with no user, "User not found" for an id missing from the list; otherwise the stored entry is updated in place, no other entry changes, and the result becomes current and saved; success exactly in that case |
| `Session.Apply` | src/contexts/AuthContext.tsx:32-172 | a reload starts again from the mock list, drops a corrupt saved entry and restores the saved user; no other operation changes the list's length, except a sign-in through a provider with no user, which adds one |
| `Session.UpdateNeverClears` | src/contexts/AuthContext.tsx:157-161 | `Updated`, with `OrElse` and `OrElseOptional` for the two fields, can clear neither editable field, and an empty patch changes nothing |
| `Session.MockUsersCoverProviders` | src/contexts/AuthContext.tsx:32-61 | the mock list has a user for every provider |
| `Session.ApplyKeepsCoverage` | src/contexts/AuthContext.tsx:84-172 | every operation keeps a user for every provider |
| `Session.NeverCreatesUsers` | src/contexts/AuthContext.tsx:95-116 | starting from a list that covers every provider, no sequence of operations grows it: the list keeps its length, or is the mock list again after a reload |
| `Session.MockListNeverGrows` | src/contexts/AuthContext.tsx:32-116 | from the mock list, no sequence of operations changes the number of users |
| `Session.ApplyKeepsMirrored` | src/contexts/AuthContext.tsx:69-172 | every operation (`Logout`, sign-in, update, and a reload through `Boot` and `Restore`) keeps the saved slot equal to the current user |
| `Session.RestoredUnknownUserNotFound` | src/contexts/AuthContext.tsx:69-81 | a restored user whose id the in-memory list lacks cannot update the profile: "User not found" |
| `Session.UpdateAfterReloadStartsFromMock` | src/contexts/AuthContext.tsx:32-172 | after a reload the saved user is current again, and an update applies to the mock list's entry, not to the profile edited before the reload |
| `Session.ReloadedEditIsLost` | src/contexts/AuthContext.tsx:32-172 | a display name saved before a reload is shown after it, but the next edit starts from the mock entry and brings back its original name "Steam Player" |
| `HeaderLogic.ItemIcons` | src/components/Header.tsx:152-170 | at most two badges; none for a missing, empty or "Regular" name; with two, StatTrack comes second |
| `HeaderLogic.CombinedIcons` | src/components/Header.tsx:162-165 | the combined categories show the badges of their parts, in order |
| `HeaderLogic.IconsOnlyForBadgedNames` | src/components/Header.tsx:155-168 | a name gets badges exactly when it is one of the five badged names |
| `HeaderLogic.RarityColorIsTableLookup` | src/components/Header.tsx:173-192 | the `switch` is a lookup of the lower-cased name in the seven-entry table |
| `HeaderLogic.RarityColorIgnoresCase` | src/components/Header.tsx:174 | a name and its lower-case form get the same class |
| `HeaderLogic.UnlistedRarityIsTransparent` | src/components/Header.tsx:189-190 | a name whose lower-case form is not listed gets `bg-transparent` |
| `HeaderLogic.ListedRarityColor` | src/components/Header.tsx:175-188 | a listed name, in any casing, gets its own class, never the transparent one |
| `HeaderLogic.ToggleDropdownTwice` | src/components/Header.tsx:218-224 | toggling one dropdown twice with `ToggleDropdown` restores the state exactly when no other dropdown was open; from another open dropdown it ends with all closed |
| `HeaderLogic.ToggleDropdownOpensOne` | src/components/Header.tsx:218-224 | the only dropdown that can be open after a toggle is the one toggled |
| `HeaderLogic.FreshHeaderShowsNothing` | src/components/Header.tsx:199-224 | the fresh header (`InitialBar`) draws no result list, and toggling a dropdown twice there gives it back |
| `HeaderLogic.BlankQueryNotSent` | src/components/Header.tsx:249-251 | `SearchStart` never sends a query of spaces, tabs and line breaks to the search endpoint, and clears the results |
| `HeaderLogic.TypedQueryIsSearched` | src/components/Header.tsx:248-275 | a non-blank query typed with `ChangeQuery` is the one sent; once it answers the spinner is off, the typed query stays, and the results are drawn exactly when there are any |
| `HeaderLogic.ClickHidesResults` | src/components/Header.tsx:375 | after `ResultClick` no list is drawn; the next answer (`SearchDone`) draws one exactly when it is not empty |
| `HeaderLogic.TogglesAreInvolutions` | src/components/Header.tsx:210-216 | `ToggleMenu` and `ToggleSearch` twice restore the state |
| `PriceChart.DaysForListed` | src/components/PriceChart.tsx:35-56 | 7D, 1M, 3M, 6M, 1Y and All span 7, 30, 90, 180, 365 and 500 days |
| `PriceChart.DaysForUnlisted` | src/components/PriceChart.tsx:35 | any other string spans 30 days |
| `PriceChart.NoRangeIsAMonth` | src/components/PriceChart.tsx:35-42 | with no range given (`EffectiveRange`) the chart spans 30 days, the same as "1M" |
| `PriceChart.Expected` | src/components/PriceChart.tsx:61-86 | the series has `days + 1` dates and as many prices, one day apart, from `days` days ago to today |
| `PriceChart.GenerateSampleData` | src/components/PriceChart.tsx:29-87 | the count-down loop builds exactly that series: point `j` dated `days - j` days ago, priced from the `j`-th draw or the spike |
| `PriceChart.DatesAscendToToday` | src/components/PriceChart.tsx:61-67 | the dates strictly ascend and none is after today |
| `PriceChart.SpikeIndex` | src/components/PriceChart.tsx:73-79 | 1M, 3M and 6M have a spike at a point inside the series; no other range has one at any offset |
| `PriceChart.SpikeDrawnOnce` | src/components/PriceChart.tsx:73-79 | every spike offset lies within its range, so the spike is drawn, at exactly one point |
| `PriceChart.SpikeIsThePeak` | src/components/PriceChart.tsx:70-83 | with draws within 0.10 of 0, every price but the spike (`Factor`) lies within 0.10 of 2.00, and the spike is above all of them |
| `PriceChart.SkipFactor` | src/components/PriceChart.tsx:163 | `Math.ceil(n / 7)`: the least step that covers `n` ticks in seven |
| `PriceChart.NextMultiple` | src/components/PriceChart.tsx:164 | between one multiple of the step and the next no tick is labelled |
| `PriceChart.LabelledIndices` | src/components/PriceChart.tsx:161-165 | the ticks that `TickLabel` labels, in order, are exactly the step's multiples below `n`; there are at most seven, and the first tick is labelled whenever there are any |
| `Sequences.Filter` | src/pages/CategoryPage.tsx:232 | `filter` keeps exactly the elements satisfying the predicate, never more than there were |
| `Sequences.FilterAppend` | src/pages/CategoryPage.tsx:232 | filtering distributes over concatenation, so order is kept |
| `Sequences.FilterFilter` | src/pages/CategoryPage.tsx:232-236 | two filters in a row are one filter by the conjunction |
| `Sequences.SortBy` | src/pages/CategoryPage.tsx:239-249 | the sort returns a permutation of its input, ordered by the key |
| `Sequences.SortByStable` | src/pages/CategoryPage.tsx:239-249 | elements with equal keys keep their input order |
| `Sequences.SortByDistinct` | src/pages/CategoryPage.tsx:239-249 | sorting keeps distinct ids distinct |
| `Sequences.FilterDistinct` | src/pages/CategoryPage.tsx:232 | filtering keeps distinct ids distinct |
| `Text.IntToString` | src/api/filter.ts:73-79 | `String(n)`: a leading minus exactly for negative numbers, then decimal digits |
| `Text.ToLower` | src/components/Header.tsx:174 | `toLowerCase` on ASCII: every upper-case letter lowered, every other character kept, the length unchanged |
| `Text.ParseIntToString` | src/api/filter.ts:73-79 | the decimal text of an integer, as `toString` writes it, reads back to that integer |
| `Text.IntToStringInjective` | src/api/filter.ts:73-79 | distinct integers have distinct decimal texts |
| `Text.SplitJoin` | src/api/filter.ts:81 | joining parts free of the separator and splitting again gives the parts back |
| `Text.ToLowerIdempotent` | src/components/Header.tsx:174 | lower-casing twice is lower-casing once |
| `Text.TrimIsEmpty` | src/components/Header.tsx:249 | `!query.trim()` holds exactly for strings made only of whitespace |

## Left out

- Network transport (`fetch`, `axios`, JSON decoding, real `AbortController` signalling): a fetch result is an input `FetchOutcome`. The race between an abort and a resolving response is not modelled; an abort is a flag on the registry entry.
- `src/api/prices.ts` and `src/api/search.ts`: thin wrappers. Search is seen only through the header, where it never throws and a blank query is filtered first.
- Timers (the 1-second auth delays, the 500 ms search debounce): each delayed callback is modelled as the step it performs once it runs. Overlapping calls are not modelled.
- Randomness: every `Math.random` draw is an input. For the chart and the listing pages that is a draw already rounded to hundredths, an index, or the price text. Session ids and suffixes are the `Fresh` input.
- `localStorage`: a single `saved` slot, either a parsed user or a corrupt entry.
- Floating point:
  - chart prices are integers in hundredths, and the rounding of `toFixed(2)` is left out;
  - the price sorts compare an abstract order-preserving `priceRank` in place of `parseFloat`, so `NaN` prices are out of scope;
  - the y-axis labels and bounds are left out.
- Dates: day numbers stand for the chart's ISO dates and the session's `memberSince`. Time zones and formatting are left out.
- Rendering: chart libraries, DOM events, document titles, images, translations (`i18n`), and the chart's refresh, download and full-screen buttons.
- `ItemDetails`, `ItemStatistics`, `MiniChart`, `PriceHistoryChart`, `ProfilePage`, `MainPage`, `LoginModal`, `CustomSelect`, `LanguageSwitcher`, `Footer`, `Logo`, `DamageStats`, `WeaponStats` and the layouts: presentational files with no logic to state.
- The filter page's sort menu: it is never applied to the items.
- `CategoryPage.Listing`: the price orders sort by `priceRank`, so ties and order are exact only for prices that `parseFloat` reads as numbers.
- `PriceChart.SpikeIsThePeak`: bounds hold for draws already rounded to hundredths within ±0.10; the rounding of `Math.random() * 0.2 - 0.1` is not modelled.
- `CatalogData.FindCategory`: a key that names an inherited property of a JavaScript object, such as "constructor", makes `categoryData[key]` a function, and the source then crashes on its missing fields. The model reads such a key as "not found", so `CategoryPage.Rendered` and `SubcategoryPage.Rendered` show the not-found message there instead.
- `Text.IntToString`: JavaScript numbers are taken to be integers of any size. Exponent notation (`1e+21` and beyond), fractions, `NaN` and the infinities are not modelled.
- `Session.SignIn`: the `catch` branch is left out, since nothing in the `try` block can throw once storage writes are modelled as a slot.

=== FILE: catalog_data.dfy ===
/** The static catalog both listing pages embed (`categoryData`, identical in
    the two pages), their item record, and the four hand-written seed items. */
module CatalogData {
  import opened Outcomes

  datatype Subcategory = Subcategory(id: string, name: string, items: string)

  /** One entry of `categoryData`: its key, display name and subcategories. */
  datatype Category = Category(key: string, name: string, subcategories: seq<Subcategory>)

  /** `categoryData`, in insertion order (the order `Object.entries` yields). */
  const Categories: seq<Category> := [
    Category("knives", "Knives", [
        Subcategory("karambit", "Karambit", "240+"),
        Subcategory("butterfly", "Butterfly Knife", "210+"),
        Subcategory("m9-bayonet", "M9 Bayonet", "185+"),
        Subcategory("flip", "Flip Knife", "165+"),
        Subcategory("gut", "Gut Knife", "120+"),
        Subcategory("huntsman", "Huntsman Knife", "110+"),
        Subcategory("falchion", "Falchion Knife", "100+"),
        Subcategory("bowie", "Bowie Knife", "95+")
      ]),
    Category("gloves", "Gloves", [
        Subcategory("sport", "Sport Gloves", "85+"),
        Subcategory("driver", "Driver Gloves", "75+"),
        Subcategory("specialist", "Specialist Gloves", "70+"),
        Subcategory("moto", "Moto Gloves", "65+"),
        Subcategory("hand", "Hand Wraps", "50+"),
        Subcategory("bloodhound", "Bloodhound Gloves", "35+")
      ]),
    Category("weapons", "Weapons", [
        Subcategory("rifle", "Rifles", "1,850+"),
        Subcategory("pistol", "Pistols", "1,420+"),
        Subcategory("sniper", "Sniper Rifles", "950+"),
        Subcategory("smg", "SMGs", "780+"),
        Subcategory("shotgun", "Shotguns", "420+"),
        Subcategory("machinegun", "Machine Guns", "180+")
      ]),
    Category("stickers", "Stickers", [
        Subcategory("tournament", "Tournament Stickers", "850+"),
        Subcategory("team", "Team Stickers", "600+"),
        Subcategory("player", "Player Autographs", "450+"),
        Subcategory("holo", "Holo Stickers", "240+"),
        Subcategory("foil", "Foil Stickers", "160+")
      ]),
    Category("keychains", "Keychains", [
        Subcategory("weapon", "Weapon Keychains", "180+"),
        Subcategory("character", "Character Keychains", "150+"),
        Subcategory("special", "Special Edition", "120+")
      ]),
    Category("grenades", "Grenades", [
        Subcategory("smoke", "Smoke Grenades", "35+"),
        Subcategory("flashbang", "Flashbangs", "30+"),
        Subcategory("molotov", "Molotovs", "25+"),
        Subcategory("he", "HE Grenades", "20+"),
        Subcategory("decoy", "Decoy Grenades", "10+")
      ]),
    Category("graffiti", "Graffiti", [
        Subcategory("tournament", "Tournament Graffiti", "300+"),
        Subcategory("normal", "Regular Graffiti", "450+"),
        Subcategory("holo", "Holo Graffiti", "130+"),
        Subcategory("sealed", "Sealed Graffiti", "100+")
      ]),
    Category("containers", "Containers", [
        Subcategory("cases", "Weapon Cases", "140+"),
        Subcategory("souvenir", "Souvenir Packages", "85+"),
        Subcategory("sticker-capsule", "Sticker Capsules", "50+"),
        Subcategory("music-kit", "Music Kit Boxes", "25+"),
        Subcategory("pins", "Pin Capsules", "20+")
      ]),
    Category("fragments", "Fragments", [
        Subcategory("weapon", "Weapon Fragments", "45+"),
        Subcategory("case", "Case Fragments", "25+"),
        Subcategory("operation", "Operation Fragments", "20+")
      ])
  ]

  /** The listing pages' `ItemType`; the image, the same asset for every item, is omitted. */
  datatype Item = Item(
    id: int, name: string, condition: string, price: string,
    rarity: string, category: string, subcategory: string)

  const SeedItems: seq<Item> := [
    Item(1, "Karambit | Fade", "Factory New", "G 1,245.50", "Covert", "knives", "karambit"),
    Item(2, "Butterfly Knife | Crimson Web", "Minimal Wear", "G 950.75", "Covert", "knives", "butterfly"),
    Item(3, "Sport Gloves | Pandora's Box", "Field-Tested", "G 1230.00", "Extraordinary", "gloves", "sport"),
    Item(4, "AWP | Dragon Lore", "Field-Tested", "G 3200.25", "Covert", "weapons", "sniper")
  ]

  /** The condition and rarity lists the generators draw from. */
  const Conditions: seq<string> := ["Factory New", "Minimal Wear", "Field-Tested", "Well-Worn", "Battle-Scarred"]
  const Rarities: seq<string> :=
    ["Consumer Grade", "Industrial Grade", "Mil-Spec", "Restricted", "Classified", "Covert", "Extraordinary"]

  /** A uniformly drawn position in the condition list and in the rarity list. */
  type ConditionIndex = i: nat | i < 5
  type RarityIndex = i: nat | i < 7

  /** `categoryData[key]`: the entry with that key, if any. */
  function FindCategory(key: string): (r: Option<Category>)
    ensures r.Some? ==> r.value in Categories && r.value.key == key
    ensures r.None? ==> forall i :: 0 <= i < |Categories| ==> Categories[i].key != key
  {
    FindCategoryIn(Categories, key)
  }

  function FindCategoryIn(cats: seq<Category>, key: string): (r: Option<Category>)
    ensures r.Some? ==> r.value in cats && r.value.key == key
    ensures r.None? ==> forall i :: 0 <= i < |cats| ==> cats[i].key != key
  {
    if |cats| == 0 then None
    else if cats[0].key == key then Some(cats[0])
    else FindCategoryIn(cats[1..], key)
  }

  /** The first subcategory of `c` with the given id, if any. */
  function FindSubcategory(c: Category, id: string): (r: Option<Subcategory>)
    ensures r.Some? ==> r.value in c.subcategories && r.value.id == id
    ensures r.None? ==> forall i :: 0 <= i < |c.subcategories| ==> c.subcategories[i].id != id
  {
    FindSubIn(c.subcategories, id)
  }

  function FindSubIn(subs: seq<Subcategory>, id: string): (r: Option<Subcategory>)
    ensures r.Some? ==> r.value in subs && r.value.id == id
    ensures r.None? ==> forall i :: 0 <= i < |subs| ==> subs[i].id != id
  {
    if |subs| == 0 then None
    else if subs[0].id == id then Some(subs[0])
    else FindSubIn(subs[1..], id)
  }

  /** A (category key, subcategory) pair of the catalog. */
  type Pair = (string, Subcategory)

  /** The pairs of `cats`, categories in order and each one's subcategories in order:
      the visiting order of the nested `forEach` in `generateSampleItems`. */
  function PairsOf(cats: seq<Category>): (ps: seq<Pair>)
    ensures forall j :: 0 <= j < |ps| ==> exists i :: 0 <= i < |cats| && ps[j].0 == cats[i].key
    ensures forall i, j :: 0 <= i < |cats| && 0 <= j < |cats[i].subcategories| ==>
      (cats[i].key, cats[i].subcategories[j]) in ps
  {
    if |cats| == 0 then []
    else
      var head, tail := CategoryPairs(cats[0]), PairsOf(cats[1..]);
      assert forall i :: 1 <= i < |cats| ==> cats[i] == cats[1..][i - 1];
      head + tail
  }

  function CategoryPairs(c: Category): (ps: seq<Pair>)
    ensures |ps| == |c.subcategories|
    ensures forall j :: 0 <= j < |ps| ==> ps[j] == (c.key, c.subcategories[j])
  {
    seq(|c.subcategories|, j requires 0 <= j < |c.subcategories| => (c.key, c.subcategories[j]))
  }

  /** Items are told apart by category key and subcategory id. */
  function PairKey(p: Pair): (string, string) {
    (p.0, p.1.id)
  }

  predicate KeysDistinct(cats: seq<Category>) {
    forall i, j :: 0 <= i < j < |cats| ==> cats[i].key != cats[j].key
  }

  predicate SubIdsDistinct(c: Category) {
    forall i, j :: 0 <= i < j < |c.subcategories| ==> c.subcategories[i].id != c.subcategories[j].id
  }

  predicate PairKeysDistinct(ps: seq<Pair>) {
    forall i, j :: 0 <= i < j < |ps| ==> PairKey(ps[i]) != PairKey(ps[j])
  }

  lemma {:induction false} PairsOfDistinct(cats: seq<Category>)
    requires KeysDistinct(cats)
    requires forall i :: 0 <= i < |cats| ==> SubIdsDistinct(cats[i])
    ensures PairKeysDistinct(PairsOf(cats))
  {
    if |cats| > 0 {
      PairsOfDistinct(cats[1..]);
      var head, tail := CategoryPairs(cats[0]), PairsOf(cats[1..]);
      var ps := head + tail;
      forall i, j | 0 <= i < j < |ps| ensures PairKey(ps[i]) != PairKey(ps[j]) {
        if j < |head| {
          assert SubIdsDistinct(cats[0]);
        } else if i < |head| {
          var m :| 0 <= m < |cats[1..]| && tail[j - |head|].0 == cats[1..][m].key;
          assert cats[1..][m] == cats[m + 1];
        } else {
          assert ps[i] == tail[i - |head|] && ps[j] == tail[j - |head|];
        }
      }
    }
  }

  lemma CatalogKeysDistinct()
    ensures KeysDistinct(Categories)
    ensures forall i :: 0 <= i < |Categories| ==> SubIdsDistinct(Categories[i])
  {
    TopKeysDistinct();
    forall i | 0 <= i < |Categories| ensures SubIdsDistinct(Categories[i]) {
      if i < 2 {
        SubIdsDistinctFrom0(i);
      } else if i < 4 {
        SubIdsDistinctFrom2(i);
      } else if i < 6 {
        SubIdsDistinctFrom4(i);
      } else {
        SubIdsDistinctFrom6(i);
      }
    }
  }

  lemma TopKeysDistinct()
    ensures KeysDistinct(Categories)
  {
  }

  lemma SubIdsDistinctFrom0(i: nat)
    requires i < 2
    ensures SubIdsDistinct(Categories[i])
  {
  }

  lemma SubIdsDistinctFrom2(i: nat)
    requires 2 <= i < 4
    ensures SubIdsDistinct(Categories[i])
  {
  }

  lemma SubIdsDistinctFrom4(i: nat)
    requires 4 <= i < 6
    ensures SubIdsDistinct(Categories[i])
  {
  }

  lemma SubIdsDistinctFrom6(i: nat)
    requires 6 <= i < |Categories|
    ensures SubIdsDistinct(Categories[i])
  {
  }

  /** Every (category, subcategory) pair of the catalog occurs once. */
  lemma CatalogPairsDistinct()
    ensures PairKeysDistinct(PairsOf(Categories))
  {
    CatalogKeysDistinct();
    PairsOfDistinct(Categories);
  }
}

=== FILE: category_page.dfy ===
/** The category listing page: the sample items it is built from, the
    category/subcategory filter, the three sort orders and the page state a
    visitor drives with the subcategory buttons, the sort menu and the page
    buttons. */
module CategoryPage {
  import opened Outcomes
  import opened Text
  import opened Sequences
  import opened CatalogData
  import opened Pagination

  /** The random draws of one round of the sample-item loop: an index into
      the loop's category list, an index into that category's subcategories,
      a condition, a rarity and the price text. */
  datatype SamplePick = SamplePick(
    category: nat, subcategory: nat, condition: ConditionIndex, rarity: RarityIndex, price: string)

  /** The category keys the loop draws from, in its own order. */
  const LoopCategories: seq<string> :=
    ["knives", "gloves", "weapons", "stickers", "keychains", "grenades", "graffiti", "containers", "fragments"]

  /** The loop's list is the catalog's keys in catalog order, so drawing an
      index into it and looking the key up is drawing a catalog entry. */
  lemma LoopCategoriesAreCatalogKeys()
    ensures |LoopCategories| == |Categories|
    ensures forall k :: 0 <= k < |LoopCategories| ==> LoopCategories[k] == Categories[k].key
  {
  }

  /** The draws can be made: each index drawn is a position of the list it is drawn from. */
  predicate Drawable(catalog: seq<Category>, p: SamplePick) {
    p.category < |catalog| && p.subcategory < |catalog[p.category].subcategories|
  }

  /** The item is filed under a category of the catalog and one of that
      category's own subcategories. */
  predicate InCatalog(catalog: seq<Category>, it: Item) {
    exists c, s :: 0 <= c < |catalog| && 0 <= s < |catalog[c].subcategories|
      && catalog[c].key == it.category && catalog[c].subcategories[s].id == it.subcategory
  }

  lemma SeedItemsNumbered()
    ensures NumberedFromOne(SeedItems)
  {
  }

  lemma SeedItemsInCatalog()
    ensures NumberedFromOne(SeedItems)
    ensures forall j :: 0 <= j < |SeedItems| ==> InCatalog(Categories, SeedItems[j])
  {
    assert Categories[0].subcategories[0].id == SeedItems[0].subcategory;
    assert Categories[0].subcategories[1].id == SeedItems[1].subcategory;
    assert Categories[1].subcategories[0].id == SeedItems[2].subcategory;
    assert Categories[2].subcategories[2].id == SeedItems[3].subcategory;
  }

  function SampleName(i: nat): string {
    "Sample Item " + NatToString(i)
  }

  /** The item one round of the loop pushes for id `i`. */
  function Draw(catalog: seq<Category>, p: SamplePick, i: nat): (it: Item)
    requires Drawable(catalog, p)
  {
    var category := catalog[p.category];
    Item(i, SampleName(i), Conditions[p.condition], p.price, Rarities[p.rarity],
         category.key, category.subcategories[p.subcategory].id)
  }

  /** A drawn item's subcategory belongs to the category it was filed under. */
  lemma DrawInCatalog(catalog: seq<Category>, p: SamplePick, i: nat)
    requires Drawable(catalog, p)
    ensures InCatalog(catalog, Draw(catalog, p, i))
  {
    var it := Draw(catalog, p, i);
    assert catalog[p.category].subcategories[p.subcategory].id == it.subcategory;
  }

  /** The ids of `items` count up from 1. */
  predicate NumberedFromOne(items: seq<Item>) {
    forall j :: 0 <= j < |items| ==> items[j].id == j + 1
  }

  /** The items the loop pushes for `picks` after `first` items: round `k`
      pushes the item with id `first + k + 1`. */
  function Pushes(catalog: seq<Category>, picks: seq<SamplePick>, first: nat): (r: seq<Item>)
    requires forall k :: 0 <= k < |picks| ==> Drawable(catalog, picks[k])
    ensures |r| == |picks|
    ensures forall k {:trigger r[k]} :: 0 <= k < |r| ==> r[k] == Draw(catalog, picks[k], first + k + 1)
  {
    if |picks| == 0 then []
    else Pushes(catalog, picks[..|picks| - 1], first) + [Draw(catalog, picks[|picks| - 1], first + |picks|)]
  }

  /** The sample loop: starting from `seeds`, it pushes one drawn item for
      each id after the last seed, up to and including id 20. */
  method AppendSamples(catalog: seq<Category>, seeds: seq<Item>, picks: seq<SamplePick>) returns (items: seq<Item>)
    requires |seeds| + |picks| == 20
    requires forall k :: 0 <= k < |picks| ==> Drawable(catalog, picks[k])
    ensures items == seeds + Pushes(catalog, picks, |seeds|)
  {
    items := seeds;
    var i := |seeds| + 1;
    while i <= 20
      invariant |seeds| + 1 <= i <= 21 && |items| == i - 1
      invariant items == seeds + Pushes(catalog, picks[..i - 1 - |seeds|], |seeds|)
    {
      var k := i - 1 - |seeds|;
      var item := Draw(catalog, picks[k], i);
      PushOne(catalog, seeds, picks, k);
      items := items + [item];
      i := i + 1;
      assert picks[..i - 1 - |seeds|] == picks[..k + 1];
    }
    assert picks[..20 - |seeds|] == picks;
  }

  /** Pushing the next item extends the pushed list by the next draw. */
  lemma PushOne(catalog: seq<Category>, seeds: seq<Item>, picks: seq<SamplePick>, n: nat)
    requires n < |picks|
    requires forall k :: 0 <= k < |picks| ==> Drawable(catalog, picks[k])
    ensures seeds + Pushes(catalog, picks[..n + 1], |seeds|)
      == (seeds + Pushes(catalog, picks[..n], |seeds|)) + [Draw(catalog, picks[n], |seeds| + n + 1)]
  {
    assert picks[..n + 1][..n] == picks[..n];
  }

  /** The sample list: numbered from 1 and every item in the catalog. */
  lemma SamplesWellFormed(catalog: seq<Category>, seeds: seq<Item>, picks: seq<SamplePick>)
    requires NumberedFromOne(seeds)
    requires forall j :: 0 <= j < |seeds| ==> InCatalog(catalog, seeds[j])
    requires forall k :: 0 <= k < |picks| ==> Drawable(catalog, picks[k])
    ensures NumberedFromOne(seeds + Pushes(catalog, picks, |seeds|))
    ensures forall j :: 0 <= j < |seeds| + |picks| ==> InCatalog(catalog, (seeds + Pushes(catalog, picks, |seeds|))[j])
  {
    var pushed := Pushes(catalog, picks, |seeds|);
    var all := seeds + pushed;
    forall j | 0 <= j < |all| ensures all[j].id == j + 1 && InCatalog(catalog, all[j]) {
      if j >= |seeds| {
        assert all[j] == pushed[j - |seeds|];
        DrawInCatalog(catalog, picks[j - |seeds|], j + 1);
      }
    }
  }

  /** The module-level `sampleItems`: the four seed items, then items 5..20
      built from the draws `picks[0..15]`. */
  method SampleItems(picks: seq<SamplePick>) returns (items: seq<Item>)
    requires |picks| == 16
    requires forall k :: 0 <= k < |picks| ==> Drawable(Categories, picks[k])
    ensures items == SeedItems + Pushes(Categories, picks, 4)
    ensures |items| == 20 && NumberedFromOne(items) && DistinctIds(items)
    ensures forall j :: 0 <= j < |items| ==> InCatalog(Categories, items[j])
  {
    SeedItemsInCatalog();
    items := AppendSamples(Categories, SeedItems, picks);
    SamplesWellFormed(Categories, SeedItems, picks);
    NumberedIdsDistinct(items);
  }

  lemma NumberedIdsDistinct(items: seq<Item>)
    requires NumberedFromOne(items)
    ensures DistinctIds(items)
  {
  }

  /** `activeSubcategory` as a condition: null and the empty string are falsy. */
  predicate Restricts(active: Option<string>) {
    active.Some? && active.value != ""
  }

  /** The filter step of the page's effect: the items of the category, then,
      when a subcategory is active, only those of that subcategory. */
  function Filtered(items: seq<Item>, categoryId: string, active: Option<string>): (r: seq<Item>)
    ensures |r| <= |items|
    ensures forall j :: 0 <= j < |r| ==> r[j] in items && r[j].category == categoryId
    ensures Restricts(active) ==> forall j :: 0 <= j < |r| ==> r[j].subcategory == active.value
  {
    var inCategory := Filter(items, (it: Item) => it.category == categoryId);
    if Restricts(active) then Filter(inCategory, (it: Item) => it.subcategory == active.value)
    else inCategory
  }

  /** Whether the page lists the item. */
  predicate Shown(categoryId: string, active: Option<string>, it: Item) {
    it.category == categoryId && (Restricts(active) ==> it.subcategory == active.value)
  }

  /** The filter keeps exactly the shown items, in their original order; with
      no active subcategory it adds no restriction beyond the category. */
  lemma FilteredIsShownItems(items: seq<Item>, categoryId: string, active: Option<string>)
    ensures Filtered(items, categoryId, active) == Filter(items, (it: Item) => Shown(categoryId, active, it))
    ensures !Restricts(active) ==> Filtered(items, categoryId, active) == Filter(items, (it: Item) => it.category == categoryId)
  {
    var inCategory := (it: Item) => it.category == categoryId;
    var shown := (it: Item) => Shown(categoryId, active, it);
    if Restricts(active) {
      FilterFilter(items, inCategory, (it: Item) => it.subcategory == active.value, shown);
    } else {
      FilterCongruent(items, inCategory, shown);
    }
  }

  /** The sort menu. */
  datatype SortOrder = PriceAsc | PriceDesc | Newest

  /** The comparator of each order as a sort key for a stable ascending sort.
      `priceRank` stands for `parseFloat` of the price text with `G ` and the
      first comma removed, read as an order-preserving integer rank. */
  function SortKey(order: SortOrder, priceRank: string -> int): Item -> int {
    match order
    case PriceAsc => (it: Item) => priceRank(it.price)
    case PriceDesc => (it: Item) => 0 - priceRank(it.price)
    case Newest => (it: Item) => 0 - it.id
  }

  /** What the page's effect stores in `filteredItems`. */
  function Listing(items: seq<Item>, categoryId: string, active: Option<string>,
                   order: SortOrder, priceRank: string -> int): (r: seq<Item>)
    ensures multiset(r) == multiset(Filtered(items, categoryId, active))
    ensures SortedBy(r, SortKey(order, priceRank))
  {
    SortBy(Filtered(items, categoryId, active), SortKey(order, priceRank))
  }

  predicate DistinctIds(items: seq<Item>) {
    DistinctBy(items, (it: Item) => it.id)
  }

  /** Under "newest" the listing runs by strictly descending id when the
      item ids are distinct, as the sample items' ids are. */
  lemma NewestIsDescendingIds(items: seq<Item>, categoryId: string, active: Option<string>, priceRank: string -> int)
    requires DistinctIds(items)
    ensures var r := Listing(items, categoryId, active, Newest, priceRank);
      forall i, j :: 0 <= i < j < |r| ==> r[i].id > r[j].id
  {
    var id := (it: Item) => it.id;
    var inCategory := Filter(items, (it: Item) => it.category == categoryId);
    FilterDistinct(items, (it: Item) => it.category == categoryId, id);
    if Restricts(active) {
      FilterDistinct(inCategory, (it: Item) => it.subcategory == active.value, id);
    }
    var filtered := Filtered(items, categoryId, active);
    SortByDistinct(filtered, SortKey(Newest, priceRank), id);
    var r := Listing(items, categoryId, active, Newest, priceRank);
    forall i, j | 0 <= i < j < |r| ensures r[i].id > r[j].id {
      assert SortKey(Newest, priceRank)(r[i]) <= SortKey(Newest, priceRank)(r[j]);
      assert id(r[i]) != id(r[j]);
    }
  }

  /** Items of equal price keep their original relative order under either price sort. */
  lemma PriceTiesKeepOrder(items: seq<Item>, categoryId: string, active: Option<string>,
                           order: SortOrder, priceRank: string -> int, k: int)
    requires !order.Newest?
    ensures var key := SortKey(order, priceRank);
      WithKey(Listing(items, categoryId, active, order, priceRank), key, k)
      == WithKey(Filtered(items, categoryId, active), key, k)
  {
    SortByStable(Filtered(items, categoryId, active), SortKey(order, priceRank), k);
  }

  /** The page's state: the route parameter, the subcategory button, the
      sort menu, the current page and the stored `filteredItems`. */
  datatype View = View(categoryId: string, active: Option<string>, order: SortOrder,
                       page: int, filtered: seq<Item>)

  /** The three values both effects depend on. */
  function Deps(v: View): (string, Option<string>, SortOrder) {
    (v.categoryId, v.active, v.order)
  }

  /** The filter effect after a render: with a falsy `categoryId` it leaves
      `filteredItems` as it was. */
  function Refilter(v: View, items: seq<Item>, priceRank: string -> int): (r: View)
    ensures r.categoryId == v.categoryId && r.active == v.active && r.order == v.order && r.page == v.page
    ensures v.categoryId != "" ==> r.filtered == Listing(items, v.categoryId, v.active, v.order, priceRank)
    ensures v.categoryId == "" ==> r == v
  {
    if v.categoryId == "" then v
    else v.(filtered := Listing(items, v.categoryId, v.active, v.order, priceRank))
  }

  /** The first render and its effects: no subcategory, "newest", page 1. */
  function Open(categoryId: string, items: seq<Item>, priceRank: string -> int): (v: View)
    ensures v.active == None && v.order == Newest && v.page == 1
    ensures Consistent(v, items, priceRank)
  {
    Refilter(View(categoryId, None, Newest, 1, []), items, priceRank)
  }

  /** What a visitor can do on the page. */
  datatype Event =
    | ChooseSubcategory(sub: Option<string>)  // "All" sets null, a button its id
    | ChooseOrder(order: SortOrder)
    | Navigate(categoryId: string)            // the route parameter changes
    | Paginate(control: PageControl)

  function TotalPagesOf(v: View): nat {
    TotalPages(|v.filtered|)
  }

  /** One event, then the effects of the render it causes. A change to any
      dependency refilters and resets the page; a page click changes only the
      page. Navigating keeps the active subcategory: only the "All" button
      clears it, and a change of category does not. */
  function Step(v: View, e: Event, items: seq<Item>, priceRank: string -> int): (r: View)
  {
    match e
    case Paginate(c) => v.(page := Click(v.page, TotalPagesOf(v), c))
    case _ =>
      var changed := match e
        case ChooseSubcategory(s) => v.(active := s)
        case ChooseOrder(o) => v.(order := o)
        case Navigate(id) => v.(categoryId := id);
      if Deps(changed) == Deps(v) then changed
      else Refilter(changed.(page := AfterDependencies(Deps(v), Deps(changed), v.page)), items, priceRank)
  }

  /** The stored list matches the dependencies and the page is one that exists. */
  predicate Consistent(v: View, items: seq<Item>, priceRank: string -> int) {
    && InRange(v.page, TotalPagesOf(v))
    && (v.categoryId != "" ==> v.filtered == Listing(items, v.categoryId, v.active, v.order, priceRank))
  }

  /** Every event keeps the view consistent; changing the subcategory, the
      sort order or the category returns to page 1, and a page click leaves
      the listing untouched. */
  lemma StepKeepsConsistent(v: View, e: Event, items: seq<Item>, priceRank: string -> int)
    requires Consistent(v, items, priceRank)
    ensures Consistent(Step(v, e, items, priceRank), items, priceRank)
    ensures var r := Step(v, e, items, priceRank);
      !e.Paginate? && Deps(r) != Deps(v) ==> r.page == 1
    ensures e.Paginate? ==> Step(v, e, items, priceRank).filtered == v.filtered
  {
  }

  /** The grid shows the current page of the stored list, or "Category not
      found" (`None`) when the route names no category of the catalog. */
  function Rendered(catalog: seq<Category>, v: View): (r: Option<seq<Item>>)
    ensures r.None? <==> FindCategoryIn(catalog, v.categoryId).None?
    ensures r.Some? ==> |r.value| <= ItemsPerPage
    ensures r.Some? ==> forall j :: 0 <= j < |r.value| ==> r.value[j] in v.filtered
  {
    if FindCategoryIn(catalog, v.categoryId).None? then None else Some(PageItems(v.filtered, v.page))
  }

  /** A consistent view of a catalog category shows only items the filter keeps. */
  lemma RenderedItemsAreShown(catalog: seq<Category>, v: View, items: seq<Item>, priceRank: string -> int)
    requires Consistent(v, items, priceRank)
    requires FindCategoryIn(catalog, v.categoryId).Some? && v.categoryId != ""
    ensures forall j :: 0 <= j < |Rendered(catalog, v).value| ==>
      Rendered(catalog, v).value[j] in items && Shown(v.categoryId, v.active, Rendered(catalog, v).value[j])
  {
    var r := Rendered(catalog, v).value;
    forall j | 0 <= j < |r| ensures r[j] in items && Shown(v.categoryId, v.active, r[j]) {
      assert r[j] in v.filtered;
      assert r[j] in multiset(Filtered(items, v.categoryId, v.active));
    }
  }

  /** Navigating to another category does not clear the active
      subcategory, so the new category shows an empty list when none of its
      items is of that subcategory, whatever other items it has. */
  lemma NavigateKeepsSubcategory(v: View, id: string, items: seq<Item>, priceRank: string -> int)
    ensures Step(v, Navigate(id), items, priceRank).active == v.active
    ensures id != "" && id != v.categoryId && Restricts(v.active)
            && (forall it :: it in items && it.category == id ==> it.subcategory != v.active.value)
            ==> Step(v, Navigate(id), items, priceRank).filtered == []
  {
  }
}

=== FILE: filter_api.dfy ===
/** The filter endpoints of the REST client: the query string sent to
    `/api/v1/filter` and the way each response or failure becomes a value or
    an error message. */
module FilterApi {
  import opened Outcomes
  import opened Text
  import opened Http

  /** One selectable filter value (`{id, name}`). */
  datatype FilterOption = FilterOption(id: int, name: string)

  /** The `/api/v1/filter-params` payload. */
  datatype FilterOptions = FilterOptions(
    types: seq<FilterOption>, collections: seq<FilterOption>, rarities: seq<FilterOption>,
    categories: seq<FilterOption>, weapons: seq<FilterOption>)

  datatype FilteredItem = FilteredItem(
    id: int, itemName: string, slug: string, photo: string,
    rarity: string, category: string, collection: string)

  /** The `/api/v1/filter` payload. */
  datatype FilteredPage = FilteredPage(total: int, items: seq<FilteredItem>)

  /** The optional request parameters; `None` is an omitted property. */
  datatype FilterParams = FilterParams(
    typeId: Option<int>, collectionId: Option<int>, rarityId: Option<int>,
    categoryId: Option<int>, weaponId: Option<int>, page: Option<int>, pageSize: Option<int>)

  /** The query names, in the order the parameters are appended. */
  const ParamNames: seq<string> :=
    ["type_id", "collection_id", "rarity_id", "category_id", "weapon_id", "page", "page_size"]

  /** The parameter values, aligned with `ParamNames`. */
  function Values(p: FilterParams): (vs: seq<Option<int>>)
    ensures |vs| == |ParamNames|
  {
    [p.typeId, p.collectionId, p.rarityId, p.categoryId, p.weaponId, p.page, p.pageSize]
  }

  /** JavaScript truthiness of an optional integral number: `undefined` and `0` are falsy. */
  predicate Truthy(v: Option<int>) {
    v.Some? && v.value != 0
  }

  /** Position of a name in `ParamNames`; `|ParamNames|` for any other name. */
  function Rank(name: string): (r: nat)
    ensures r <= |ParamNames|
    ensures r < |ParamNames| ==> ParamNames[r] == name
  {
    RankFrom(name, 0)
  }

  function RankFrom(name: string, i: nat): (r: nat)
    requires i <= |ParamNames|
    ensures i <= r <= |ParamNames|
    ensures r < |ParamNames| ==> ParamNames[r] == name
    ensures forall j :: i <= j < r ==> ParamNames[j] != name
    decreases |ParamNames| - i
  {
    if i == |ParamNames| || ParamNames[i] == name then i else RankFrom(name, i + 1)
  }

  lemma RankOfName(i: nat)
    requires i < |ParamNames|
    ensures Rank(ParamNames[i]) == i
  {
    assert forall a, b :: 0 <= a < b < |ParamNames| ==> ParamNames[a] != ParamNames[b];
  }

  /** Keys are parameter names, each at most once and in append order. */
  predicate InAppendOrder(pairs: seq<(string, int)>) {
    && (forall j :: 0 <= j < |pairs| ==> Rank(pairs[j].0) < |ParamNames|)
    && (forall j, k :: 0 <= j < k < |pairs| ==> Rank(pairs[j].0) < Rank(pairs[k].0))
  }

  /** The value of the first pair named `name`. */
  function Lookup(pairs: seq<(string, int)>, name: string): (r: Option<int>)
    ensures r.None? ==> forall j :: 0 <= j < |pairs| ==> pairs[j].0 != name
  {
    if |pairs| == 0 then None
    else if pairs[0].0 == name then Some(pairs[0].1)
    else Lookup(pairs[1..], name)
  }

  /** The appended pairs of parameters `i..` whose values are truthy. */
  function Appended(vs: seq<Option<int>>, i: nat): seq<(string, int)>
    requires |vs| == |ParamNames| && i <= |vs|
    decreases |vs| - i
  {
    if i == |vs| then []
    else (if Truthy(vs[i]) then [(ParamNames[i], vs[i].value)] else []) + Appended(vs, i + 1)
  }

  lemma {:induction false} AppendedInOrder(vs: seq<Option<int>>, i: nat)
    requires |vs| == |ParamNames| && i <= |vs|
    ensures InAppendOrder(Appended(vs, i))
    ensures forall j :: 0 <= j < |Appended(vs, i)| ==> Rank(Appended(vs, i)[j].0) >= i
    decreases |vs| - i
  {
    if i < |vs| {
      AppendedInOrder(vs, i + 1);
      RankOfName(i);
    }
  }

  lemma {:induction false} AppendedLookup(vs: seq<Option<int>>, i: nat)
    requires |vs| == |ParamNames| && i <= |vs|
    ensures forall k :: i <= k < |vs| ==>
              Lookup(Appended(vs, i), ParamNames[k]) == (if Truthy(vs[k]) then vs[k] else None)
    decreases |vs| - i
  {
    if i < |vs| {
      var rest := Appended(vs, i + 1);
      AppendedLookup(vs, i + 1);
      AppendedInOrder(vs, i + 1);
      LookupAbsentBelow(rest, i + 1);
      forall k | i < k < |vs| ensures ParamNames[k] != ParamNames[i] {
        RankOfName(k);
        RankOfName(i);
      }
      if Truthy(vs[i]) {
        var pairs := [(ParamNames[i], vs[i].value)] + rest;
        assert pairs[1..] == rest;
      } else {
        assert Appended(vs, i) == rest;
      }
    }
  }

  /** The pairs `URLSearchParams` holds after the seven guarded `append` calls. */
  function QueryPairs(p: FilterParams): (pairs: seq<(string, int)>)
    ensures InAppendOrder(pairs)
    ensures forall k :: 0 <= k < |ParamNames| ==>
              Lookup(pairs, ParamNames[k]) == (if Truthy(Values(p)[k]) then Values(p)[k] else None)
  {
    AppendedInOrder(Values(p), 0);
    AppendedLookup(Values(p), 0);
    Appended(Values(p), 0)
  }

  function EncodePairs(pairs: seq<(string, int)>): (parts: seq<string>)
    ensures |parts| == |pairs|
  {
    if |pairs| == 0 then []
    else [pairs[0].0 + "=" + IntToString(pairs[0].1)] + EncodePairs(pairs[1..])
  }

  /** `searchParams.toString()`: the names and the decimal values need no percent-encoding. */
  function QueryString(p: FilterParams): string {
    Join(EncodePairs(QueryPairs(p)), '&')
  }

  /** The URL `getFilteredItems` fetches; `?` is present even with no parameters. */
  function FilteredItemsUrl(apiUrl: string, p: FilterParams): string {
    apiUrl + "/api/v1/filter?" + QueryString(p)
  }

  function DecodePair(part: string): Option<(string, int)> {
    match IndexOf(part, '=', 0)
    case None => None
    case Some(i) =>
      match ParseInt(part[i + 1..])
      case None => None
      case Some(v) => Some((part[..i], v))
  }

  function DecodeParts(parts: seq<string>): Option<seq<(string, int)>> {
    if |parts| == 0 then Some([])
    else match (DecodePair(parts[0]), DecodeParts(parts[1..]))
      case (Some(pair), Some(rest)) => Some([pair] + rest)
      case _ => None
  }

  /** Reads a query string of `name=integer` pairs back. */
  function DecodeQuery(s: string): Option<seq<(string, int)>> {
    if s == "" then Some([]) else DecodeParts(Split(s, '&'))
  }

  predicate NameIsPlain(name: string) {
    Free(name, '&') && Free(name, '=')
  }

  lemma DecodeEncodedPair(name: string, v: int)
    requires NameIsPlain(name)
    ensures DecodePair(name + "=" + IntToString(v)) == Some((name, v))
  {
    var part := name + "=" + IntToString(v);
    IndexOfSeparator(name, '=', IntToString(v), 0);
    assert part[..|name|] == name;
    assert part[|name| + 1..] == IntToString(v);
    ParseIntToString(v);
  }

  lemma {:induction false} DecodeEncodedParts(pairs: seq<(string, int)>)
    requires forall j :: 0 <= j < |pairs| ==> NameIsPlain(pairs[j].0)
    ensures DecodeParts(EncodePairs(pairs)) == Some(pairs)
  {
    if |pairs| > 0 {
      DecodeEncodedPair(pairs[0].0, pairs[0].1);
      DecodeEncodedParts(pairs[1..]);
      var parts := EncodePairs(pairs);
      assert parts[1..] == EncodePairs(pairs[1..]);
      assert pairs == [pairs[0]] + pairs[1..];
    }
  }

  lemma EncodedPairsFree(pairs: seq<(string, int)>)
    requires forall j :: 0 <= j < |pairs| ==> NameIsPlain(pairs[j].0)
    ensures forall j :: 0 <= j < |pairs| ==> Free(EncodePairs(pairs)[j], '&')
  {
    forall j | 0 <= j < |pairs| ensures Free(EncodePairs(pairs)[j], '&') {
      EncodedPairAt(pairs, j);
    }
  }

  lemma {:induction false} EncodedPairAt(pairs: seq<(string, int)>, j: nat)
    requires j < |pairs|
    ensures EncodePairs(pairs)[j] == pairs[j].0 + "=" + IntToString(pairs[j].1)
  {
    if j > 0 {
      EncodedPairAt(pairs[1..], j - 1);
    }
  }

  lemma NamesArePlain()
    ensures forall k :: 0 <= k < |ParamNames| ==> NameIsPlain(ParamNames[k])
  {
  }

  /** The query string can be read back into exactly the appended pairs. */
  lemma DecodeQueryString(p: FilterParams)
    ensures DecodeQuery(QueryString(p)) == Some(QueryPairs(p))
  {
    var pairs := QueryPairs(p);
    NamesArePlain();
    assert forall j :: 0 <= j < |pairs| ==> NameIsPlain(pairs[j].0) by {
      forall j | 0 <= j < |pairs| ensures NameIsPlain(pairs[j].0) {
        assert ParamNames[Rank(pairs[j].0)] == pairs[j].0;
      }
    }
    DecodeEncodedParts(pairs);
    EncodedPairsFree(pairs);
    var parts := EncodePairs(pairs);
    if |pairs| == 0 {
    } else {
      SplitJoin(parts, '&');
      assert |parts[0]| > 0;
      assert Join(parts, '&') != "" by {
        JoinStartsWithFirst(parts, '&');
      }
    }
  }

  lemma JoinStartsWithFirst(parts: seq<string>, sep: char)
    requires |parts| >= 1
    ensures |Join(parts, sep)| >= |parts[0]|
  {
  }

  /** Every set-to-zero parameter reads as unset. */
  function Normalize(p: FilterParams): FilterParams {
    FilterParams(Falsy(p.typeId), Falsy(p.collectionId), Falsy(p.rarityId),
                 Falsy(p.categoryId), Falsy(p.weaponId), Falsy(p.page), Falsy(p.pageSize))
  }

  function Falsy(v: Option<int>): (r: Option<int>)
    ensures Truthy(v) ==> r == v
    ensures !Truthy(v) ==> r == None
  {
    if Truthy(v) then v else None
  }

  /** Pairs in append order are determined by what `Lookup` finds in them. */
  lemma {:induction false} OrderedPairsByLookup(a: seq<(string, int)>, b: seq<(string, int)>)
    requires InAppendOrder(a) && InAppendOrder(b)
    requires forall k :: 0 <= k < |ParamNames| ==> Lookup(a, ParamNames[k]) == Lookup(b, ParamNames[k])
    ensures a == b
  {
    if |a| > 0 && |b| > 0 {
      var ra, rb := Rank(a[0].0), Rank(b[0].0);
      // the smaller of the two first ranks names a key present in both
      if ra < rb {
        assert Lookup(a, ParamNames[ra]) == Some(a[0].1);
        LookupAbsentBelow(b, ra + 1);
        assert false;
      } else if rb < ra {
        assert Lookup(b, ParamNames[rb]) == Some(b[0].1);
        LookupAbsentBelow(a, rb + 1);
        assert false;
      }
      assert a[0].0 == b[0].0;
      assert Lookup(a, ParamNames[ra]) == Some(a[0].1);
      assert Lookup(b, ParamNames[ra]) == Some(b[0].1);
      TailsAgree(a, b);
      OrderedPairsByLookup(a[1..], b[1..]);
    } else if |a| > 0 {
      FirstKeyFound(a);
      assert false;
    } else if |b| > 0 {
      FirstKeyFound(b);
      assert false;
    }
  }

  /** Pairs with the same first key and the same lookups have tails with the same lookups. */
  lemma TailsAgree(a: seq<(string, int)>, b: seq<(string, int)>)
    requires InAppendOrder(a) && InAppendOrder(b) && |a| > 0 && |b| > 0 && a[0].0 == b[0].0
    requires forall k :: 0 <= k < |ParamNames| ==> Lookup(a, ParamNames[k]) == Lookup(b, ParamNames[k])
    ensures InAppendOrder(a[1..]) && InAppendOrder(b[1..])
    ensures forall k :: 0 <= k < |ParamNames| ==> Lookup(a[1..], ParamNames[k]) == Lookup(b[1..], ParamNames[k])
  {
    TailInAppendOrder(a);
    TailInAppendOrder(b);
    forall k | 0 <= k < |ParamNames|
      ensures Lookup(a[1..], ParamNames[k]) == Lookup(b[1..], ParamNames[k])
    {
      if k != Rank(a[0].0) {
        TailLookup(a, k);
        TailLookup(b, k);
      } else {
        TailLookupOwn(a);
        TailLookupOwn(b);
      }
    }
  }

  lemma TailInAppendOrder(a: seq<(string, int)>)
    requires InAppendOrder(a) && |a| > 0
    ensures InAppendOrder(a[1..])
  {
    assert forall j :: 0 <= j < |a[1..]| ==> a[1..][j] == a[j + 1];
  }

  /** Looking up another name than the first skips the first pair. */
  lemma TailLookup(a: seq<(string, int)>, k: nat)
    requires InAppendOrder(a) && |a| > 0
    requires k < |ParamNames| && k != Rank(a[0].0)
    ensures Lookup(a[1..], ParamNames[k]) == Lookup(a, ParamNames[k])
  {
    RankOfName(k);
  }

  /** The first name does not come again. */
  lemma TailLookupOwn(a: seq<(string, int)>)
    requires InAppendOrder(a) && |a| > 0
    ensures Lookup(a[1..], ParamNames[Rank(a[0].0)]) == None
  {
    var r := Rank(a[0].0);
    assert forall j :: 0 <= j < |a[1..]| ==> Rank(a[1..][j].0) >= r + 1 by {
      assert forall j :: 0 <= j < |a[1..]| ==> a[1..][j] == a[j + 1];
    }
    LookupAbsentBelow(a[1..], r + 1);
  }

  lemma FirstKeyFound(pairs: seq<(string, int)>)
    requires InAppendOrder(pairs) && |pairs| > 0
    ensures Rank(pairs[0].0) < |ParamNames|
    ensures Lookup(pairs, ParamNames[Rank(pairs[0].0)]) == Some(pairs[0].1)
  {
  }

  /** No name ranked below `bound` is found among pairs ranked at least `bound`. */
  lemma LookupAbsentBelow(pairs: seq<(string, int)>, bound: nat)
    requires forall j :: 0 <= j < |pairs| ==> Rank(pairs[j].0) >= bound
    ensures forall k :: 0 <= k < bound && k < |ParamNames| ==> Lookup(pairs, ParamNames[k]) == None
  {
    forall k | 0 <= k < bound && k < |ParamNames| ensures Lookup(pairs, ParamNames[k]) == None {
      RankOfName(k);
      LookupMissing(pairs, ParamNames[k]);
    }
  }

  lemma {:induction false} LookupMissing(pairs: seq<(string, int)>, name: string)
    requires forall j :: 0 <= j < |pairs| ==> pairs[j].0 != name
    ensures Lookup(pairs, name) == None
  {
    if |pairs| > 0 {
      LookupMissing(pairs[1..], name);
    }
  }

  /** A parameter set to 0 is omitted exactly as if it were unset, and two
      parameter sets give the same query string precisely when they agree
      once zeros are read as unset. */
  lemma QueryStringDeterminesNormalForm(p: FilterParams, q: FilterParams)
    ensures QueryString(p) == QueryString(Normalize(p))
    ensures QueryString(p) == QueryString(q) <==> Normalize(p) == Normalize(q)
  {
    SamePairsAsNormalForm(p);
    SamePairsAsNormalForm(q);
    if QueryString(p) == QueryString(q) {
      DecodeQueryString(p);
      DecodeQueryString(q);
      var vp, vq := Values(p), Values(q);
      forall k | 0 <= k < |ParamNames| ensures Falsy(vp[k]) == Falsy(vq[k]) {
        assert Lookup(QueryPairs(p), ParamNames[k]) == Lookup(QueryPairs(q), ParamNames[k]);
      }
      assert Falsy(vp[0]) == Falsy(vq[0]) && Falsy(vp[1]) == Falsy(vq[1]);
      assert Falsy(vp[2]) == Falsy(vq[2]) && Falsy(vp[3]) == Falsy(vq[3]);
      assert Falsy(vp[4]) == Falsy(vq[4]) && Falsy(vp[5]) == Falsy(vq[5]);
      assert Falsy(vp[6]) == Falsy(vq[6]);
    }
  }

  lemma SamePairsAsNormalForm(p: FilterParams)
    ensures QueryPairs(p) == QueryPairs(Normalize(p))
  {
    var n := Normalize(p);
    var vp, vn := Values(p), Values(n);
    assert forall k :: 0 <= k < |ParamNames| ==> vn[k] == Falsy(vp[k]);
    var a, b := QueryPairs(p), QueryPairs(n);
    forall k | 0 <= k < |ParamNames|
      ensures Lookup(a, ParamNames[k]) == Lookup(b, ParamNames[k])
    {
      assert Lookup(a, ParamNames[k]) == Falsy(vp[k]);
      assert Lookup(b, ParamNames[k]) == Falsy(vn[k]);
    }
    OrderedPairsByLookup(a, b);
  }

  /** The empty page `getFilteredItems` substitutes for a 404. */
  const EmptyPage := FilteredPage(0, [])

  const FilteredItemsPrefix := "Failed to fetch filtered items: "
  const FilterParamsPrefix := "Failed to fetch filter params: "
  const HttpErrorText := "HTTP error! status: "
  const AbortedMessage := "Request was aborted"
  const UnknownMessage := "An unknown error occurred"

  /** The `catch` block: an abort becomes a fixed message, any other `Error`
      gets the endpoint's prefix, a non-`Error` a generic message. */
  function Rewrap(t: Thrown, prefix: string): string {
    match t
    case ErrorObject(name, message) =>
      if name == "AbortError" then AbortedMessage else prefix + message
    case NonError => UnknownMessage
  }

  /** The message of the error thrown for a non-ok status, after rewrapping. */
  function StatusMessage(prefix: string, status: int): string {
    prefix + (HttpErrorText + IntToString(status))
  }

  /** Recovers the status from a rewrapped HTTP-error message. */
  function StatusOf(message: string, prefix: string): Option<int> {
    var head := prefix + HttpErrorText;
    if |head| <= |message| && message[..|head|] == head then ParseInt(message[|head|..])
    else None
  }

  lemma StatusOfMessage(prefix: string, status: int)
    ensures StatusOf(StatusMessage(prefix, status), prefix) == Some(status)
  {
    var head := prefix + HttpErrorText;
    var m := StatusMessage(prefix, status);
    assert m[..|head|] == head;
    assert m[|head|..] == IntToString(status);
    ParseIntToString(status);
  }

  /** The shared body of both endpoint functions; `onNotFound` is the value
      substituted for a 404, if the endpoint has one. */
  function Classify<T>(o: FetchOutcome<T>, prefix: string, onNotFound: Option<T>): Result<T, string> {
    match o
    case Responded(status, body) =>
      if status == 404 && onNotFound.Some? then Ok(onNotFound.value)
      else if !IsOk(status) then Err(Rewrap(NewError(HttpErrorText + IntToString(status)), prefix))
      else (match body
            case Ok(v) => Ok(v)
            case Err(t) => Err(Rewrap(t, prefix)))
    case Rejected(t) => Err(Rewrap(t, prefix))
  }

  /** `getFilteredItems` once its `fetch` has settled as `o`. */
  function GetFilteredItems(o: FetchOutcome<FilteredPage>): (r: Result<FilteredPage, string>)
    ensures o.Responded? && o.status == 404 ==> r == Ok(EmptyPage)
    ensures o.Responded? && !IsOk(o.status) && o.status != 404 ==>
              r.Err? && StatusOf(r.error, FilteredItemsPrefix) == Some(o.status)
    ensures r.Ok? <==> o.Responded? && (o.status == 404 || (IsOk(o.status) && o.body.Ok?))
    ensures r.Ok? && o.status != 404 ==> r.value == o.body.value
    ensures r == Err(AbortedMessage) <==> AbortReachesCatch(o)
    ensures !AbortReachesCatch(o) && (o.Rejected? || (IsOk(o.status) && o.body.Err?)) ==>
              var t := if o.Rejected? then o.thrown else o.body.error;
              r == Err(if t.ErrorObject? then FilteredItemsPrefix + t.message else UnknownMessage)
    ensures r.Err? ==> r.error != ""
  {
    if o.Responded? then
      StatusOfMessage(FilteredItemsPrefix, o.status);
      Classify(o, FilteredItemsPrefix, Some(EmptyPage))
    else Classify(o, FilteredItemsPrefix, Some(EmptyPage))
  }

  /** `getFilterParams` once its `fetch` has settled as `o`: no status is
      special, so a 404 is an error like any other non-ok status. */
  function GetFilterParams(o: FetchOutcome<FilterOptions>): (r: Result<FilterOptions, string>)
    ensures o.Responded? && !IsOk(o.status) ==>
              r.Err? && StatusOf(r.error, FilterParamsPrefix) == Some(o.status)
    ensures r.Ok? <==> o.Responded? && IsOk(o.status) && o.body.Ok?
    ensures r.Ok? ==> r.value == o.body.value
    ensures r == Err(AbortedMessage) <==> AbortReachesCatch(o)
    ensures !AbortReachesCatch(o) && (o.Rejected? || (IsOk(o.status) && o.body.Err?)) ==>
              var t := if o.Rejected? then o.thrown else o.body.error;
              r == Err(if t.ErrorObject? then FilterParamsPrefix + t.message else UnknownMessage)
    ensures r.Err? ==> r.error != ""
  {
    if o.Responded? then
      StatusOfMessage(FilterParamsPrefix, o.status);
      Classify(o, FilterParamsPrefix, None)
    else Classify(o, FilterParamsPrefix, None)
  }
}

=== FILE: filter_panel.dfy ===
/** The item filter page: five optional selections with a snapshot for
    cancelling, the requests it sends to the filter endpoint, and its
    Prev/Next buttons. */
module FilterPanel {
  import opened Outcomes
  import opened FilterApi
  import opened Http

  /** The five dropdowns; `None` is the `null` of "nothing selected". */
  datatype Selections = Selections(
    itemType: Option<FilterOption>, rarity: Option<FilterOption>, category: Option<FilterOption>,
    collection: Option<FilterOption>, weapon: Option<FilterOption>)

  const NoSelections := Selections(None, None, None, None, None)

  /** The page size of every request the page sends. */
  const PageSize := 12

  datatype Field = ItemType | Rarity | Category | Collection | Weapon

  function Get(s: Selections, f: Field): Option<FilterOption> {
    match f
    case ItemType => s.itemType
    case Rarity => s.rarity
    case Category => s.category
    case Collection => s.collection
    case Weapon => s.weapon
  }

  /** One dropdown's setter. */
  function Set(s: Selections, f: Field, v: Option<FilterOption>): (r: Selections)
    ensures Get(r, f) == v
    ensures forall g :: g != f ==> Get(r, g) == Get(s, g)
  {
    match f
    case ItemType => s.(itemType := v)
    case Rarity => s.(rarity := v)
    case Category => s.(category := v)
    case Collection => s.(collection := v)
    case Weapon => s.(weapon := v)
  }

  /** Selections are determined by their five fields. */
  lemma SelectionsByFields(a: Selections, b: Selections)
    requires forall f :: Get(a, f) == Get(b, f)
    ensures a == b
  {
    assert Get(a, ItemType) == Get(b, ItemType) && Get(a, Rarity) == Get(b, Rarity);
    assert Get(a, Category) == Get(b, Category) && Get(a, Collection) == Get(b, Collection);
    assert Get(a, Weapon) == Get(b, Weapon);
  }

  /** The option list a dropdown offers. */
  function OptionsFor(opts: FilterOptions, f: Field): seq<FilterOption> {
    match f
    case ItemType => opts.types
    case Rarity => opts.rarities
    case Category => opts.categories
    case Collection => opts.collections
    case Weapon => opts.weapons
  }

  /** The first option with the given name; none when no option has it. */
  function FindByName(options: seq<FilterOption>, name: string): (r: Option<FilterOption>)
    ensures r.Some? ==> r.value in options && r.value.name == name
    ensures r.None? <==> forall i :: 0 <= i < |options| ==> options[i].name != name
  {
    if |options| == 0 then None
    else if options[0].name == name then Some(options[0])
    else FindByName(options[1..], name)
  }

  /** The option found is the first with that name. */
  lemma {:induction false} FindByNameIsFirst(options: seq<FilterOption>, name: string)
    requires FindByName(options, name).Some?
    ensures exists i :: 0 <= i < |options| && options[i] == FindByName(options, name).value
                        && forall j :: 0 <= j < i ==> options[j].name != name
  {
    if options[0].name != name {
      FindByNameIsFirst(options[1..], name);
      var i :| 0 <= i < |options[1..]| && options[1..][i] == FindByName(options[1..], name).value
               && forall j :: 0 <= j < i ==> options[1..][j].name != name;
      assert options[i + 1] == FindByName(options, name).value;
      forall j | 0 <= j < i + 1 ensures options[j].name != name {
        if j > 0 {
          assert options[j] == options[1..][j - 1];
        }
      }
    } else {
      assert options[0] == FindByName(options, name).value;
    }
  }

  /** The page's state; `loading` is the initial load of the option lists,
      `itemsLoading` a request for items. */
  datatype Panel = Panel(
    options: FilterOptions, selected: Selections, previous: Selections, page: int,
    items: seq<FilteredItem>, total: int, filtersVisible: bool, mobileOpen: bool,
    loading: bool, itemsLoading: bool, error: Option<string>)

  /** The state of the first render. */
  function Initial(): (p: Panel)
    ensures p.selected == NoSelections && p.previous == NoSelections
    ensures forall f :: Get(p.previous, f).None?
    ensures p.page == 1 && p.loading && !p.itemsLoading && p.error.None?
  {
    Panel(FilterOptions([], [], [], [], []), NoSelections, NoSelections, 1, [], 0, false, false, true, false, None)
  }

  function IdOf(o: Option<FilterOption>): Option<int> {
    if o.Some? then Some(o.value.id) else None
  }

  /** The parameters of a request for `page` under the selections `s`:
      `selected?.id` for each dropdown and a page size of 12. */
  function Request(s: Selections, page: int): (r: FilterParams)
    ensures r.page == Some(page) && r.pageSize == Some(PageSize)
  {
    FilterParams(IdOf(s.itemType), IdOf(s.collection), IdOf(s.rarity), IdOf(s.category), IdOf(s.weapon),
                 Some(page), Some(PageSize))
  }

  /** The query parameter a dropdown's id is sent as. */
  function ParamIndex(f: Field): (k: nat)
    ensures k < |ParamNames|
  {
    match f
    case ItemType => 0
    case Collection => 1
    case Rarity => 2
    case Category => 3
    case Weapon => 4
  }

  /** The query string of a request names a dropdown's parameter exactly
      when an option with a non-zero id is selected in it, with that id;
      `page` is sent unless it is 0, and `page_size` is always 12. */
  lemma RequestQuery(s: Selections, page: int, f: Field)
    ensures var pairs := QueryPairs(Request(s, page));
      && Lookup(pairs, ParamNames[ParamIndex(f)])
         == (if Get(s, f).Some? && Get(s, f).value.id != 0 then Some(Get(s, f).value.id) else None)
      && Lookup(pairs, "page") == (if page != 0 then Some(page) else None)
      && Lookup(pairs, "page_size") == Some(PageSize)
  {
    var vs := Values(Request(s, page));
    assert ParamNames[5] == "page" && ParamNames[6] == "page_size";
    assert vs[5] == Some(page) && vs[6] == Some(PageSize);
  }

  /** What a render does after the state changed from `before` to `after`:
      the effect on `currentPage` runs when the page changed, and sends a
      request for the current selections unless the option lists are still loading. */
  function Rerender(before: Panel, after: Panel): (res: (Panel, seq<FilterParams>))
    ensures after.page == before.page || after.loading ==> res == (after, [])
    ensures after.page != before.page && !after.loading ==>
      && res.1 == [Request(after.selected, after.page)]
      && res.0 == after.(itemsLoading := true, error := None)
  {
    if after.page != before.page && !after.loading then
      (after.(itemsLoading := true, error := None), [Request(after.selected, after.page)])
    else (after, [])
  }

  /** The end of the initial load: the option lists, then the first page
      of items; a failure records its message and stops there. */
  function Loaded(p: Panel, optionsResult: Result<FilterOptions, string>, itemsResult: Result<FilteredPage, string>): (r: Panel)
    ensures !r.loading && !r.itemsLoading
    ensures r.selected == p.selected && r.previous == p.previous && r.page == p.page
    ensures optionsResult.Err? ==> r.error == Some(optionsResult.error) && r.options == p.options
    ensures optionsResult.Ok? ==> r.options == optionsResult.value
    ensures optionsResult.Ok? && itemsResult.Ok? ==>
      r.items == itemsResult.value.items && r.total == itemsResult.value.total && r.error.None?
  {
    var q := p.(error := None);
    var q := match optionsResult
      case Err(m) => q.(error := Some(m))
      case Ok(opts) =>
        var q := q.(options := opts);
        match itemsResult
        case Err(m) => q.(error := Some(m))
        case Ok(pg) => q.(total := pg.total, items := pg.items);
    q.(loading := false, itemsLoading := false)
  }

  /** The initial load asks for page 1 with no filter. */
  const InitialRequest := FilterParams(None, None, None, None, None, Some(1), Some(PageSize))

  lemma InitialRequestIsUnfiltered()
    ensures InitialRequest == Request(NoSelections, 1)
  {
  }

  /** Choosing `name` in a dropdown selects the first option of that name,
      or nothing if there is none; the other dropdowns keep their values. */
  function Select(p: Panel, f: Field, name: string): (r: Panel)
    ensures Get(r.selected, f) == FindByName(OptionsFor(p.options, f), name)
    ensures forall g :: g != f ==> Get(r.selected, g) == Get(p.selected, g)
    ensures r == p.(selected := r.selected)
  {
    p.(selected := Set(p.selected, f, FindByName(OptionsFor(p.options, f), name)))
  }

  /** `handleCancel` */
  function Cancel(p: Panel): (r: Panel)
    ensures r.selected == r.previous == p.previous
    ensures !r.filtersVisible && !r.mobileOpen
    ensures r.page == p.page && r.items == p.items && r.options == p.options
  {
    p.(selected := p.previous, filtersVisible := false, mobileOpen := false)
  }

  /** `handleApply` up to its `await`, with the render that follows: the
      snapshot takes the selections, page 1 is requested under them, and
      the page effect requests page 1 again when the page was another one. */
  function ApplyStart(p: Panel): (res: (Panel, seq<FilterParams>))
    ensures res.0.previous == p.selected && res.0.selected == p.selected
    ensures res.0.page == 1 && res.0.itemsLoading && res.0.error.None?
    ensures |res.1| >= 1 && res.1[0] == Request(p.selected, 1)
    ensures forall k :: 0 <= k < |res.1| ==> res.1[k] == Request(p.selected, 1)
    ensures |res.1| == 2 <==> p.page != 1 && !p.loading
  {
    var q := p.(previous := p.selected, itemsLoading := true, error := None, page := 1);
    var (q', effect) := Rerender(p, q);
    (q', [Request(p.selected, 1)] + effect)
  }

  /** A request for items has settled: its page is shown, or its message. */
  function Settled(p: Panel, result: Result<FilteredPage, string>): (r: Panel)
    ensures !r.itemsLoading
    ensures r.selected == p.selected && r.previous == p.previous && r.page == p.page
    ensures result.Ok? ==> r.items == result.value.items && r.total == result.value.total
    ensures result.Err? ==> r.error == Some(result.error) && r.items == p.items && r.total == p.total
  {
    match result
    case Ok(pg) => p.(total := pg.total, items := pg.items, itemsLoading := false)
    case Err(m) => p.(error := Some(m), itemsLoading := false)
  }

  /** The `finally` of `handleApply` also closes both filter panels. */
  function ApplySettled(p: Panel, result: Result<FilteredPage, string>): (r: Panel)
    ensures !r.filtersVisible && !r.mobileOpen && !r.itemsLoading
    ensures r.selected == p.selected && r.previous == p.previous && r.page == p.page
  {
    Settled(p, result).(filtersVisible := false, mobileOpen := false)
  }

  /** Applying and then cancelling, with any choices made in between, gives
      back the selections that were applied. */
  lemma CancelRestoresApplied(p: Panel, result: Result<FilteredPage, string>, f: Field, name: string)
    ensures var applied := ApplySettled(ApplyStart(p).0, result);
      && Cancel(applied).selected == p.selected
      && Cancel(Select(applied, f, name)).selected == p.selected
  {
  }

  /** Cancelling twice is cancelling once. */
  lemma CancelIdempotent(p: Panel)
    ensures Cancel(Cancel(p)) == Cancel(p)
  {
  }

  predicate PrevDisabled(p: Panel) {
    p.page == 1 || p.itemsLoading
  }

  predicate NextDisabled(p: Panel) {
    |p.items| < PageSize || p.page * PageSize >= p.total || p.itemsLoading
  }

  /** The page buttons are rendered only while some items are shown. */
  predicate PaginationShown(p: Panel) {
    |p.items| > 0
  }

  /** Prev: back one page, but not below page 1, then the render. */
  function Prev(p: Panel): (res: (Panel, seq<FilterParams>))
    ensures res.0.page == if p.page - 1 > 1 then p.page - 1 else 1
  {
    Rerender(p, p.(page := if p.page - 1 > 1 then p.page - 1 else 1))
  }

  /** Next: on one page, then the render. */
  function Next(p: Panel): (res: (Panel, seq<FilterParams>))
    ensures res.0.page == p.page + 1
  {
    Rerender(p, p.(page := p.page + 1))
  }

  /** What the user can do, and what arrives. `mobile` tells the modal's
      Apply, which exists only while the modal is open and is never
      disabled, from the panel's, which is disabled while items load. */
  datatype Event =
    | Choose(field: Field, name: string)
    | ClickApply(mobile: bool)
    | ClickCancel
    | ClickPrev
    | ClickNext
    | OpenMobile
    | CloseMobile
    | OptionsLoaded(optionsResult: Result<FilterOptions, string>, itemsResult: Result<FilteredPage, string>)
    | ItemsArrived(result: Result<FilteredPage, string>)
    | ApplyArrived(result: Result<FilteredPage, string>)

  /** The dropdowns, Apply and Cancel, the mobile modal and the page buttons
      are rendered only once the option lists have loaded and while no error
      is shown; an error leaves only the button that reloads the page. The
      page tests the error for truthiness, so an empty message hides nothing. */
  predicate ControlsShown(p: Panel) {
    !p.loading && (p.error.None? || p.error.value == "")
  }

  /** A click or a choice, as opposed to a request that settles. */
  predicate ByUser(e: Event) {
    !(e.OptionsLoaded? || e.ItemsArrived? || e.ApplyArrived?)
  }

  /** One event: the new state and the requests it sends. A click on a
      disabled or hidden control does nothing. */
  function Step(p: Panel, e: Event): (Panel, seq<FilterParams>) {
    if ByUser(e) && !ControlsShown(p) then (p, [])
    else match e
    case Choose(f, name) => (Select(p, f, name), [])
    case ClickApply(mobile) =>
      if (mobile && !p.mobileOpen) || (!mobile && p.itemsLoading) then (p, []) else ApplyStart(p)
    case ClickCancel => (Cancel(p), [])
    case ClickPrev => if !PaginationShown(p) || PrevDisabled(p) then (p, []) else Prev(p)
    case ClickNext => if !PaginationShown(p) || NextDisabled(p) then (p, []) else Next(p)
    case OpenMobile => (p.(mobileOpen := true), [])
    case CloseMobile => (p.(mobileOpen := false), [])
    case OptionsLoaded(o, i) => (Loaded(p, o, i), [])
    case ItemsArrived(r) => (Settled(p, r), [])
    case ApplyArrived(r) => (ApplySettled(p, r), [])
  }

  /** Until the option lists arrive nothing the user does has an effect,
      and a load that brings the option lists and the first page shows the
      controls on page 1. */
  lemma NothingBeforeOptionsLoad(e: Event, o: FilterOptions, pg: FilteredPage)
    requires ByUser(e)
    ensures !ControlsShown(Initial())
    ensures Step(Initial(), e) == (Initial(), [])
    ensures var q := Step(Initial(), OptionsLoaded(Ok(o), Ok(pg)));
      && ControlsShown(q.0) && q.0.page == 1 && q.0.items == pg.items && q.1 == []
  {
  }

  /** Of the two Apply buttons, the modal's can be clicked only while the
      modal is open, and then even while items load; the panel's is dead
      while items load. Either one that can be clicked starts Apply. */
  lemma ApplyButtons(p: Panel)
    ensures !p.mobileOpen ==> Step(p, ClickApply(true)) == (p, [])
    ensures ControlsShown(p) && p.mobileOpen ==> Step(p, ClickApply(true)) == ApplyStart(p)
    ensures p.itemsLoading ==> Step(p, ClickApply(false)) == (p, [])
    ensures ControlsShown(p) && !p.itemsLoading ==> Step(p, ClickApply(false)) == ApplyStart(p)
  {
  }

  /** The current page never drops below 1; Prev moves back by one page,
      and Next moves on only while the current page ends before `total`. */
  lemma StepKeepsPage(p: Panel, e: Event)
    requires p.page >= 1
    ensures Step(p, e).0.page >= 1
    ensures e.ClickPrev? && Step(p, e).0.page != p.page ==> Step(p, e).0.page == p.page - 1
    ensures e.ClickNext? && Step(p, e).0.page != p.page ==>
      Step(p, e).0.page == p.page + 1 && (Step(p, e).0.page - 1) * PageSize < p.total
  {
  }

  /** Every request sent carries page size 12 and a page of at least 1; the
      page buttons request under the selections as they stand, applied or not. */
  lemma StepRequests(p: Panel, e: Event)
    requires p.page >= 1
    ensures forall k :: 0 <= k < |Step(p, e).1| ==>
      Step(p, e).1[k].pageSize == Some(PageSize) && Step(p, e).1[k].page.Some? && Step(p, e).1[k].page.value >= 1
    ensures (e.ClickPrev? || e.ClickNext?) && |Step(p, e).1| > 0 ==>
      Step(p, e).1 == [Request(p.selected, Step(p, e).0.page)]
  {
  }

  /** Paging after choosing in a dropdown, without applying, filters by the
      new choice even though the snapshot still holds the old one. */
  lemma PagingUsesUnappliedChoice(p: Panel, f: Field, name: string)
    requires ControlsShown(p) && !p.itemsLoading && p.page >= 1
    requires |p.items| >= PageSize && p.page * PageSize < p.total
    ensures var chosen := Select(p, f, name);
      && Step(chosen, ClickNext).1 == [Request(chosen.selected, p.page + 1)]
      && Get(Step(chosen, ClickNext).0.selected, f) == FindByName(OptionsFor(p.options, f), name)
      && Step(chosen, ClickNext).0.previous == p.previous
  {
  }

  /** A failed load with a non-empty message hides every control until the
      page is reloaded: no click or choice after it changes anything or sends
      anything. An empty message is falsy and leaves the controls in place. A
      load that brings both the option lists and the first page shows them. */
  lemma FailureHidesControls(p: Panel, m: string, i: Result<FilteredPage, string>, e: Event)
    requires ByUser(e)
    ensures m != "" ==> Step(Loaded(p, Err(m), i), e) == (Loaded(p, Err(m), i), [])
    ensures m != "" ==> Step(Settled(p, Err(m)), e) == (Settled(p, Err(m)), [])
    ensures m != "" ==> Step(ApplySettled(p, Err(m)), e) == (ApplySettled(p, Err(m)), [])
    ensures m == "" ==> ControlsShown(Loaded(p, Err(m), i))
    ensures forall o: FilterOptions, pg: FilteredPage :: ControlsShown(Loaded(p, Ok(o), Ok(pg)))
  {
  }

  /** Every failure the two requests report carries a message, so a failed
      load of the option lists, of the first page, of a page change or of an
      Apply always hides the controls. */
  lemma RequestFailureHidesControls(p: Panel, opts: FetchOutcome<FilterOptions>,
                                    items: FetchOutcome<FilteredPage>, e: Event)
    requires ByUser(e)
    ensures var r := Loaded(p, GetFilterParams(opts), GetFilteredItems(items));
      (GetFilterParams(opts).Err? || GetFilteredItems(items).Err?) ==> Step(r, e) == (r, [])
    ensures var r := Settled(p, GetFilteredItems(items));
      GetFilteredItems(items).Err? ==> Step(r, e) == (r, [])
    ensures var r := ApplySettled(p, GetFilteredItems(items));
      GetFilteredItems(items).Err? ==> Step(r, e) == (r, [])
  {
  }
}

=== FILE: header.dfy ===
/** The site header's logic: the badge icons and rarity colours of search
    results (the filter page carries identical copies), the menu, search
    and dropdown toggles, and the search box. */
module HeaderLogic {
  import opened Outcomes
  import opened Text

  datatype Icon = StatTrackIcon | PatternIcon | GradientIcon

  /** `getItemIcons`: the badges for a category name; a missing or empty
      name, `Regular` and any other name get none. */
  function ItemIcons(categoryName: Option<string>): (r: seq<Icon>)
    ensures |r| <= 2
    ensures categoryName.None? || categoryName.value == "" || categoryName.value == "Regular" ==> r == []
    ensures |r| == 2 ==> r[1] == StatTrackIcon && r[0] != StatTrackIcon
  {
    if categoryName.None? || categoryName.value == "" then []
    else match categoryName.value
      case "StatTrack" => [StatTrackIcon]
      case "Pattern" => [PatternIcon]
      case "Gradient" => [GradientIcon]
      case "Pattern and StatTrack" => [PatternIcon, StatTrackIcon]
      case "Gradient and StatTrack" => [GradientIcon, StatTrackIcon]
      case _ => []
  }

  /** The combined categories show the badges of their two parts, in order. */
  lemma CombinedIcons()
    ensures ItemIcons(Some("Pattern and StatTrack")) == ItemIcons(Some("Pattern")) + ItemIcons(Some("StatTrack"))
    ensures ItemIcons(Some("Gradient and StatTrack")) == ItemIcons(Some("Gradient")) + ItemIcons(Some("StatTrack"))
  {
  }

  /** The names that get badges; every other name gets none. */
  const BadgedNames: seq<string> :=
    ["StatTrack", "Pattern", "Gradient", "Pattern and StatTrack", "Gradient and StatTrack"]

  lemma IconsOnlyForBadgedNames(name: string)
    ensures ItemIcons(Some(name)) != [] <==> name in BadgedNames
  {
    if name !in BadgedNames {
      assert name != "StatTrack" && name != "Pattern" && name != "Gradient";
      assert name != "Pattern and StatTrack" && name != "Gradient and StatTrack";
    }
  }

  /** The lower-case rarity names with a colour, and their classes, in the same order. */
  const RarityNames: seq<string> := ["common", "uncommon", "rare", "epic", "legendary", "arcane", "nameless"]
  const RarityClasses: seq<string> := [
    "bg-gradient-to-r from-[#b0b0b0] to-[#5a5a5a]",
    "bg-gradient-to-r from-[#6bd1ff] to-[#247aa5]",
    "bg-gradient-to-r from-[#3f74ff] to-[#0d1d66]",
    "bg-gradient-to-r from-[#a649ff] to-[#4e1a99]",
    "bg-gradient-to-r from-[#ff4c91] to-[#94164d]",
    "bg-gradient-to-r from-[#ff3434] to-[#7a0000]",
    "bg-gradient-to-b from-yellow-600 to-amber-800"
  ]
  const Transparent := "bg-transparent"

  /** `getRarityColor`: the `switch` on the lower-cased name. */
  function RarityColor(rarityName: string): string {
    match ToLower(rarityName)
    case "common" => RarityClasses[0]
    case "uncommon" => RarityClasses[1]
    case "rare" => RarityClasses[2]
    case "epic" => RarityClasses[3]
    case "legendary" => RarityClasses[4]
    case "arcane" => RarityClasses[5]
    case "nameless" => RarityClasses[6]
    case _ => Transparent
  }

  /** The class of the `i`-th listed name, or the transparent one: the table
      read as a lookup. */
  function ClassOf(key: string, i: nat): (c: string)
    requires i <= |RarityNames|
    decreases |RarityNames| - i
  {
    if i == |RarityNames| then Transparent
    else if RarityNames[i] == key then RarityClasses[i]
    else ClassOf(key, i + 1)
  }

  /** The `switch` is the table lookup of the lower-cased name. */
  lemma RarityColorIsTableLookup(rarityName: string)
    ensures RarityColor(rarityName) == ClassOf(ToLower(rarityName), 0)
  {
  }

  /** Case does not matter: any casing of a name gets the class of its lower-case form. */
  lemma RarityColorIgnoresCase(rarityName: string)
    ensures RarityColor(rarityName) == RarityColor(ToLower(rarityName))
  {
    ToLowerIdempotent(rarityName);
  }

  lemma {:induction false} ClassOfUnlisted(key: string, i: nat)
    requires i <= |RarityNames|
    requires forall j :: i <= j < |RarityNames| ==> RarityNames[j] != key
    ensures ClassOf(key, i) == Transparent
    decreases |RarityNames| - i
  {
    if i < |RarityNames| {
      ClassOfUnlisted(key, i + 1);
    }
  }

  /** A name whose lower-case form is not listed, in any casing, gets the transparent class. */
  lemma UnlistedRarityIsTransparent(rarityName: string)
    requires ToLower(rarityName) !in RarityNames
    ensures RarityColor(rarityName) == Transparent
  {
    RarityColorIsTableLookup(rarityName);
    ClassOfUnlisted(ToLower(rarityName), 0);
  }

  /** A listed name gets its own class, never the transparent one. */
  lemma ListedRarityColor(i: nat, rarityName: string)
    requires i < |RarityNames| && ToLower(rarityName) == RarityNames[i]
    ensures RarityColor(rarityName) == RarityClasses[i] != Transparent
  {
  }

  /** The header's own state. */
  datatype Bar = Bar(
    menuOpen: bool, searchOpen: bool, activeDropdown: Option<string>,
    query: string, results: seq<SearchResult>, loading: bool, showResults: bool)

  /** A search hit, as far as the header uses it. */
  datatype SearchResult = SearchResult(name: string, slug: string, rarityName: string, categoryName: Option<string>)

  function InitialBar(): (b: Bar)
    ensures !b.menuOpen && !b.searchOpen && b.activeDropdown.None? && b.query == "" && !b.showResults
  {
    Bar(false, false, None, "", [], false, false)
  }

  /** `toggleDropdown`: the open dropdown closes, any other opens. */
  function ToggleDropdown(active: Option<string>, id: string): (r: Option<string>)
    ensures active == Some(id) ==> r.None?
    ensures active != Some(id) ==> r == Some(id)
  {
    if active == Some(id) then None else Some(id)
  }

  /** Toggling one dropdown twice gives back the state before exactly when
      no other dropdown was open then; from another open dropdown it ends
      with all closed. */
  lemma ToggleDropdownTwice(active: Option<string>, id: string)
    ensures ToggleDropdown(ToggleDropdown(active, id), id) == active <==> active.None? || active == Some(id)
    ensures active.Some? && active != Some(id) ==> ToggleDropdown(ToggleDropdown(active, id), id).None?
  {
  }

  /** At most one dropdown is open, and it is the one toggled last unless that toggle closed it. */
  lemma ToggleDropdownOpensOne(active: Option<string>, id: string)
    ensures ToggleDropdown(active, id).Some? ==> ToggleDropdown(active, id).value == id
  {
  }

  /** The search box changed to `query`: the text shows at once; the search
      for it runs once typing has paused. */
  function ChangeQuery(b: Bar, query: string): (r: Bar)
    ensures r.query == query && r.results == b.results
  {
    b.(query := query)
  }

  /** `searchItemsWithLoading(query)` up to its `await`: a blank query
      clears the results and sends nothing; any other sends `query`. */
  function SearchStart(b: Bar, query: string): (res: (Bar, Option<string>))
    ensures TrimIsEmpty(query) ==> res.0 == b.(results := []) && res.1.None?
    ensures !TrimIsEmpty(query) ==> res.0 == b.(loading := true) && res.1 == Some(query)
  {
    if TrimIsEmpty(query) then (b.(results := []), None)
    else (b.(loading := true), Some(query))
  }

  /** The search has answered; `searchItems` never throws, so this is a list. */
  function SearchDone(b: Bar, results: seq<SearchResult>): (r: Bar)
    ensures r.results == results && r.showResults && !r.loading
    ensures r.query == b.query && r.searchOpen == b.searchOpen
  {
    b.(results := results, showResults := true, loading := false)
  }

  /** A query of spaces, tabs and line breaks only never reaches the search endpoint. */
  lemma BlankQueryNotSent(b: Bar, query: string)
    requires forall i :: 0 <= i < |query| ==> query[i] == ' ' || query[i] == '\t' || query[i] == '\n'
    ensures SearchStart(b, query).1.None? && SearchStart(b, query).0.results == []
  {
  }

  /** `handleResultClick`: navigates to the item and resets the search. */
  function ResultClick(b: Bar, slug: string): (res: (Bar, string))
    ensures res.1 == "/item/" + slug
    ensures res.0.query == "" && !res.0.showResults && !res.0.searchOpen
    ensures res.0.results == b.results && res.0.menuOpen == b.menuOpen && res.0.activeDropdown == b.activeDropdown
  {
    (b.(query := "", showResults := false, searchOpen := false), "/item/" + slug)
  }

  /** The list under the search box is drawn only while it is shown and not empty. */
  predicate ResultsVisible(b: Bar) {
    b.showResults && |b.results| > 0
  }

  /** After a result is clicked no list is drawn, until the next search answers. */
  lemma ClickHidesResults(b: Bar, slug: string, results: seq<SearchResult>)
    ensures !ResultsVisible(ResultClick(b, slug).0)
    ensures ResultsVisible(SearchDone(ResultClick(b, slug).0, results)) <==> |results| > 0
  {
  }

  /** The fresh header draws no result list, and toggling a dropdown twice
      there gives the fresh header back. */
  lemma FreshHeaderShowsNothing(id: string)
    ensures !ResultsVisible(InitialBar())
    ensures ToggleDropdown(ToggleDropdown(InitialBar().activeDropdown, id), id) == InitialBar().activeDropdown
  {
  }

  /** A typed query that is not blank is the one sent; once the search answers
      its results are drawn, when there are any, under the query still typed. */
  lemma TypedQueryIsSearched(b: Bar, query: string, results: seq<SearchResult>)
    requires !TrimIsEmpty(query)
    ensures var started := SearchStart(ChangeQuery(b, query), query);
      && started.1 == Some(query)
      && SearchDone(started.0, results).query == query
      && !SearchDone(started.0, results).loading
      && (ResultsVisible(SearchDone(started.0, results)) <==> |results| > 0)
  {
  }

  /** `toggleMenu` and `toggleSearch` */
  function ToggleMenu(b: Bar): (r: Bar)
    ensures r.menuOpen == !b.menuOpen && r == b.(menuOpen := r.menuOpen)
  {
    b.(menuOpen := !b.menuOpen)
  }

  function ToggleSearch(b: Bar): (r: Bar)
    ensures r.searchOpen == !b.searchOpen && r == b.(searchOpen := r.searchOpen)
  {
    b.(searchOpen := !b.searchOpen)
  }

  lemma TogglesAreInvolutions(b: Bar)
    ensures ToggleMenu(ToggleMenu(b)) == b && ToggleSearch(ToggleSearch(b)) == b
  {
  }
}

=== FILE: http.dfy ===
/** What a `fetch` call can do, as seen by the client's API functions. */
module Http {
  import opened Outcomes

  /** A thrown JavaScript value: an `Error` (its `name` and `message`) or anything else. */
  datatype Thrown = ErrorObject(name: string, message: string) | NonError

  /** How `await fetch(...)` settled. When it resolved, `body` is how the later
      `await response.json()` would settle; it is only consulted on a 2xx status. */
  datatype FetchOutcome<T> = Responded(status: int, body: Result<T, Thrown>) | Rejected(thrown: Thrown)

  /** `response.ok`. */
  predicate IsOk(status: int) {
    200 <= status <= 299
  }

  /** The rejection an `AbortController` causes. */
  predicate IsAbort(t: Thrown) {
    t.ErrorObject? && t.name == "AbortError"
  }

  /** What a pending `fetch` rejects with once its controller's `abort()` has been called. */
  const AbortRejection: Thrown := ErrorObject("AbortError", "This operation was aborted")

  /** `new Error(message)`. */
  function NewError(message: string): (t: Thrown)
    ensures !IsAbort(t) && t.ErrorObject? && t.message == message
  {
    ErrorObject("Error", message)
  }

  /** Whether the rejection that reaches the `catch` is an abort. */
  predicate AbortReachesCatch<T>(o: FetchOutcome<T>) {
    match o
    case Rejected(t) => IsAbort(t)
    case Responded(status, body) => IsOk(status) && body.Err? && IsAbort(body.error)
  }
}

=== FILE: in_flight.dfy ===
/** The keyed in-flight request registry (`activeRequests`) that the
    statistics and item-details clients each keep at module level: a map from
    a request key to the `AbortController` of the latest request under it. */
module InFlight {
  import opened Outcomes
  import opened Http

  /** An `AbortController`, identified by the order of its creation. */
  datatype Controller = Controller(id: nat)

  /** `activeRequests`, together with the ids of the controllers whose
      `abort()` has been called and the id the next controller will get. */
  datatype Registry<K> = Registry(active: map<K, Controller>, aborted: set<nat>, nextId: nat)

  /** The registry as the module is loaded: an empty `Map`. */
  function Empty<K>(): (r: Registry<K>)
    ensures r.active == map[] && r.aborted == {}
  {
    Registry(map[], {}, 0)
  }

  /** Registered and aborted controllers were created; registered ones are
      pairwise distinct and were never aborted. */
  ghost predicate Valid<K>(r: Registry<K>) {
    && (forall id :: id in r.aborted ==> id < r.nextId)
    && (forall k :: k in r.active ==> r.active[k].id < r.nextId && r.active[k].id !in r.aborted)
    && (forall k1, k2 :: k1 in r.active && k2 in r.active && k1 != k2 ==> r.active[k1] != r.active[k2])
  }

  lemma EmptyIsValid<K>()
    ensures Valid(Empty<K>())
  {
  }

  /** The guard before a new request: a controller registered under the key
      is aborted and its entry removed; without one nothing happens. */
  function Supersede<K>(r: Registry<K>, key: K): (r': Registry<K>)
    ensures key !in r'.active
    ensures r'.active == r.active - {key}
    ensures r'.aborted == r.aborted + (if key in r.active then {r.active[key].id} else {})
    ensures r'.nextId == r.nextId
  {
    if key in r.active then Registry(r.active - {key}, r.aborted + {r.active[key].id}, r.nextId)
    else r
  }

  /** A new controller, the next in creation order, is put under the key,
      replacing whatever entry the key had. */
  function Register<K>(r: Registry<K>, key: K): (res: (Registry<K>, Controller))
    ensures res.0.active == r.active[key := res.1]
    ensures res.0.aborted == r.aborted
    ensures res.1.id == r.nextId && res.0.nextId == r.nextId + 1
  {
    var c := Controller(r.nextId);
    (Registry(r.active[key := c], r.aborted, r.nextId + 1), c)
  }

  /** The synchronous start of a request under `key`: the old controller, if
      any, is aborted and removed, then a fresh one is registered. */
  function Issue<K>(r: Registry<K>, key: K): (res: (Registry<K>, Controller))
    ensures res.0.active.Keys == r.active.Keys + {key}
    ensures key in res.0.active && res.0.active[key] == res.1
    ensures forall k :: k in r.active && k != key ==> res.0.active[k] == r.active[k]
    ensures res.0.aborted == r.aborted + (if key in r.active then {r.active[key].id} else {})
    ensures Valid(r) ==> Valid(res.0)
    ensures Valid(r) ==> res.1.id !in r.aborted && forall k :: k in r.active ==> r.active[k] != res.1
  {
    SupersedeKeepsValid(r, key);
    Register(Supersede(r, key), key)
  }

  lemma SupersedeKeepsValid<K>(r: Registry<K>, key: K)
    ensures Valid(r) ==> Valid(Supersede(r, key))
  {
    if Valid(r) && key in r.active {
      forall k | k in r.active && k != key ensures r.active[k].id != r.active[key].id {
        assert r.active[k] != r.active[key];
      }
    }
  }

  /** Removal by key, whichever controller is registered under it. */
  function Delete<K>(r: Registry<K>, key: K): (r': Registry<K>)
    ensures r'.active == r.active - {key}
    ensures r'.aborted == r.aborted && r'.nextId == r.nextId
    ensures Valid(r) ==> Valid(r')
  {
    Registry(r.active - {key}, r.aborted, r.nextId)
  }

  const CancelledMessage := "Request was cancelled"

  /** The `catch` block: an abort becomes a fixed error, anything else is rethrown. */
  function Caught(t: Thrown): (e: Thrown)
    ensures IsAbort(t) ==> e == NewError(CancelledMessage)
    ensures !IsAbort(t) ==> e == t
  {
    if IsAbort(t) then NewError(CancelledMessage) else t
  }

  /** How the `fetch` of the request with controller `c` settles: once `c`
      has been aborted the pending `fetch` rejects with an abort, whatever the
      server would have answered; otherwise it settles as `o`. */
  function Settles<K, T>(r: Registry<K>, c: Controller, o: FetchOutcome<T>): FetchOutcome<T> {
    if c.id in r.aborted then Rejected(AbortRejection) else o
  }

  /** The rest of the request with controller `c` under `key` once its
      `fetch` has settled: a response deletes the key before its status is
      checked; a rejection goes straight to the `catch`, which never deletes.
      `o` is what the server does; an aborted request never sees it. */
  function Complete<K, T>(r: Registry<K>, key: K, c: Controller, o: FetchOutcome<T>, failure: string): (res: (Registry<K>, Result<T, Thrown>))
    ensures c.id in r.aborted ==> res == (r, Err(NewError(CancelledMessage)))
    ensures c.id !in r.aborted && o.Responded? ==> res.0 == Delete(r, key)
    ensures o.Rejected? ==> res.0 == r
    ensures Valid(r) ==> Valid(res.0)
    ensures c.id !in r.aborted && o.Responded? && !IsOk(o.status) ==> res.1 == Err(NewError(failure))
    ensures res.1.Ok? <==> c.id !in r.aborted && o.Responded? && IsOk(o.status) && o.body.Ok?
    ensures res.1.Ok? ==> res.1.value == o.body.value
    ensures AbortReachesCatch(o) ==> res.1 == Err(NewError(CancelledMessage))
    ensures c.id !in r.aborted && o.Rejected? && !IsAbort(o.thrown) ==> res.1 == Err(o.thrown)
  {
    match Settles(r, c, o)
    case Rejected(t) => (r, Err(Caught(t)))
    case Responded(status, body) =>
      var r' := Delete(r, key);
      if !IsOk(status) then (r', Err(Caught(NewError(failure))))
      else match body
        case Ok(v) => (r', Ok(v))
        case Err(t) => (r', Err(Caught(t)))
  }

  /** Issues `n` requests under one key before any settles. */
  function IssueMany<K>(r: Registry<K>, key: K, n: nat): (res: (Registry<K>, seq<Controller>))
    ensures |res.1| == n
  {
    if n == 0 then (r, [])
    else
      var (r1, cs) := IssueMany(r, key, n - 1);
      var (r2, c) := Issue(r1, key);
      (r2, cs + [c])
  }

  /** After the requests `cs` under `key`: the registry is valid, the last
      of them is the one registered under `key` and not aborted, and every
      earlier one has been aborted. */
  ghost predicate OnlyLastRegistered<K>(r: Registry<K>, cs: seq<Controller>, key: K) {
    && |cs| >= 1 && Valid(r)
    && key in r.active && r.active[key] == cs[|cs| - 1]
    && cs[|cs| - 1].id !in r.aborted
    && forall j :: 0 <= j < |cs| - 1 ==> cs[j].id in r.aborted
  }

  /** Of `n` requests issued under one key before any settles, only the last
      stays registered; every earlier one has been aborted. */
  lemma {:induction false} LastIssuedWins<K>(r: Registry<K>, key: K, n: nat)
    requires Valid(r) && n >= 1
    ensures |IssueMany(r, key, n).1| == n
    ensures OnlyLastRegistered(IssueMany(r, key, n).0, IssueMany(r, key, n).1, key)
  {
    var prev := IssueMany(r, key, n - 1);
    var step := Issue(prev.0, key);
    assert IssueMany(r, key, n) == (step.0, prev.1 + [step.1]);
    if n >= 2 {
      LastIssuedWins(r, key, n - 1);
      IssueOneMore(prev.0, prev.1, key);
    } else {
      assert prev == (r, []);
      FirstIssue(r, key);
    }
  }

  lemma FirstIssue<K>(r: Registry<K>, key: K)
    requires Valid(r)
    ensures OnlyLastRegistered(Issue(r, key).0, [Issue(r, key).1], key)
  {
  }

  /** Issuing again under a registered key aborts the registered controller and keeps earlier aborts. */
  lemma IssueOneMore<K>(r: Registry<K>, cs: seq<Controller>, key: K)
    requires OnlyLastRegistered(r, cs, key)
    ensures OnlyLastRegistered(Issue(r, key).0, cs + [Issue(r, key).1], key)
  {
    var (r', c) := Issue(r, key);
    forall j | 0 <= j < |cs| ensures (cs + [c])[j].id in r'.aborted {
      assert (cs + [c])[j] == cs[j];
    }
  }

  /** A superseded request settles as cancelled whatever the server does,
      and the newer request under its key stays registered and live. */
  lemma SupersededRequestSparesNewerEntry<K, T>(r: Registry<K>, key: K, o: FetchOutcome<T>, failure: string)
    requires Valid(r)
    ensures var (r1, older) := Issue(r, key);
            var (r2, newer) := Issue(r1, key);
            var (r3, e) := Complete(r2, key, older, o, failure);
            && e == Err(NewError(CancelledMessage))
            && key in r3.active && r3.active[key] == newer && newer.id !in r3.aborted
  {
  }

  /** A rejection other than an abort leaves the request's own entry registered. */
  lemma FailedRequestStaysRegistered<K, T>(r: Registry<K>, key: K, t: Thrown, failure: string)
    requires Valid(r) && !IsAbort(t)
    ensures var (r1, c) := Issue(r, key);
            var (r2, e) := Complete<K, T>(r1, key, c, Rejected(t), failure);
            && key in r2.active && r2.active[key] == c && e == Err(t)
  {
  }

  /** A request that runs to a response, alone, leaves the registry as it found it. */
  lemma SettledRequestLeavesNoEntry<K, T>(r: Registry<K>, key: K, status: int, body: Result<T, Thrown>, failure: string)
    requires Valid(r) && key !in r.active
    ensures var (r1, c) := Issue(r, key);
            var (r2, _) := Complete(r1, key, c, Responded(status, body), failure);
            r2.active == r.active
  {
    var (r1, _) := Issue(r, key);
    assert r1.active - {key} == r.active;
  }

  /** Steps under one key never touch the entry of another. */
  lemma StepsUnderOtherKeysIndependent<K, T>(r: Registry<K>, key: K, other: K, c: Controller, o: FetchOutcome<T>, failure: string)
    requires key != other
    ensures other in Issue(r, key).0.active <==> other in r.active
    ensures other in r.active ==> Issue(r, key).0.active[other] == r.active[other]
    ensures other in Complete(r, key, c, o, failure).0.active <==> other in r.active
    ensures other in r.active ==> Complete(r, key, c, o, failure).0.active[other] == r.active[other]
  {
  }
}

=== FILE: item_api.dfy ===
/** `getItemDetails`: requests keyed by item slug in their own registry. */
module ItemApi {
  import opened Outcomes
  import opened Http
  import opened InFlight

  const ItemPathPrefix := "/api/v1/item/"
  const ItemFailure := "Failed to fetch item details"

  /** The request path: the slug is inserted verbatim, with no encoding. */
  function ItemPath(slug: string): (path: string)
    ensures |path| == |ItemPathPrefix| + |slug|
    ensures path[..|ItemPathPrefix|] == ItemPathPrefix && path[|ItemPathPrefix|..] == slug
  {
    ItemPathPrefix + slug
  }

  /** Distinct slugs request distinct paths. */
  lemma ItemPathInjective(a: string, b: string)
    ensures ItemPath(a) == ItemPath(b) <==> a == b
  {
    if ItemPath(a) == ItemPath(b) {
      assert a == ItemPath(a)[|ItemPathPrefix|..];
    }
  }

  /** The synchronous start of `getItemDetails(slug)`. */
  function StartItemDetails(r: Registry<string>, slug: string): (res: (Registry<string>, Controller))
    ensures res.0.active.Keys == r.active.Keys + {slug}
    ensures res.0.active[slug] == res.1
    ensures slug in r.active ==> r.active[slug].id in res.0.aborted
    ensures forall other :: other in r.active && other != slug ==> res.0.active[other] == r.active[other]
    ensures Valid(r) ==> Valid(res.0)
  {
    Issue(r, slug)
  }

  /** The end of `getItemDetails(slug)`, the call holding controller `c`,
      once its `fetch` has settled; `o` is what the server does. */
  function FinishItemDetails<T>(r: Registry<string>, slug: string, c: Controller, o: FetchOutcome<T>): (res: (Registry<string>, Result<T, Thrown>))
    ensures c.id in r.aborted ==> res == (r, Err(NewError(CancelledMessage)))
    ensures c.id !in r.aborted && o.Responded? ==> res.0.active == r.active - {slug}
    ensures o.Rejected? ==> res.0 == r
    ensures c.id !in r.aborted && o.Responded? && !IsOk(o.status) ==> res.1 == Err(NewError(ItemFailure))
    ensures AbortReachesCatch(o) ==> res.1 == Err(NewError(CancelledMessage))
    ensures c.id !in r.aborted && o.Rejected? && !IsAbort(o.thrown) ==> res.1 == Err(o.thrown)
    ensures res.1.Ok? <==> c.id !in r.aborted && o.Responded? && IsOk(o.status) && o.body.Ok?
  {
    Complete(r, slug, c, o, ItemFailure)
  }

  /** Opening an item, letting it load, and opening it again: two independent
      requests, and no entry is left behind after either. */
  lemma ReopenedItemLeavesNoEntry<T>(slug: string, first: FetchOutcome<T>, second: FetchOutcome<T>)
    requires first.Responded? && second.Responded?
    ensures var (r1, c1) := StartItemDetails(Empty(), slug);
            var (r2, _) := FinishItemDetails(r1, slug, c1, first);
            var (r3, c2) := StartItemDetails(r2, slug);
            var (r4, _) := FinishItemDetails(r3, slug, c2, second);
            && r2.active == map[] && r4.active == map[] && r3.aborted == {}
  {
  }
}

=== FILE: outcomes.dfy ===
/** Optional values and success-or-error results, used for JavaScript's
    `undefined`/`null` and for promises that resolve or reject. */
module Outcomes {

  /** A value that may be absent (`undefined` or `null` in the source). */
  datatype Option<+T> = None | Some(value: T) {

    /** The wrapped value, or `default` when absent (JavaScript `??`). */
    function GetOr(default: T): T {
      match this
      case Some(v) => v
      case None => default
    }
  }

  /** The settled state of a promise: resolved with a value or rejected. */
  datatype Result<+T, +E> = Ok(value: T) | Err(error: E)
}

=== FILE: pagination.dfy ===
/** Client-side pagination as both catalog listing pages do it: 12 items a
    page, `Array.prototype.slice` for the page, and Prev/Next buttons that are
    disabled at the ends and clamp their target. */
module Pagination {

  const ItemsPerPage := 12

  /** The number of pages `n` items fill, rounded up, and one page when there are no items. */
  function TotalPages(n: nat): (t: nat)
    ensures t >= 1
    ensures n == 0 ==> t == 1
    ensures n > 0 ==> (t - 1) * ItemsPerPage < n <= t * ItemsPerPage
  {
    var c := (n + ItemsPerPage - 1) / ItemsPerPage;
    if c == 0 then 1 else c
  }

  /** `Array.prototype.slice`'s reading of one index argument. */
  function RelativeIndex(i: int, len: nat): (r: nat)
    ensures r <= len
    ensures 0 <= i <= len ==> r == i
  {
    if i < 0 then (if len + i < 0 then 0 else len + i)
    else if i < len then i else len
  }

  /** `s.slice(start, end)` for integral arguments. */
  function JsSlice<T>(s: seq<T>, start: int, end: int): (r: seq<T>)
    ensures 0 <= start <= end <= |s| ==> r == s[start..end]
    ensures 0 <= start <= end ==> |r| <= end - start
    ensures end <= start && 0 <= end ==> r == []
    ensures forall j :: 0 <= j < |r| ==> r[j] in s
  {
    var from, to := RelativeIndex(start, |s|), RelativeIndex(end, |s|);
    if from < to then s[from..to] else []
  }

  function Min(a: int, b: int): int {
    if a <= b then a else b
  }

  /** The items shown on page `page` (counted from 1): one page-sized window of `s`, cut as a JavaScript slice cuts it. */
  function PageItems<T>(s: seq<T>, page: int): (r: seq<T>)
    ensures |r| <= ItemsPerPage
    ensures forall j :: 0 <= j < |r| ==> r[j] in s
    ensures page >= 1 ==> r == s[Min((page - 1) * ItemsPerPage, |s|)..Min(page * ItemsPerPage, |s|)]
  {
    JsSlice(s, (page - 1) * ItemsPerPage, page * ItemsPerPage)
  }

  /** Pages `1..k` one after another. */
  function PagesUpTo<T>(s: seq<T>, k: nat): seq<T> {
    if k == 0 then [] else PagesUpTo(s, k - 1) + PageItems(s, k)
  }

  lemma {:induction false} PagesUpToIsPrefix<T>(s: seq<T>, k: nat)
    ensures PagesUpTo(s, k) == s[..Min(k * ItemsPerPage, |s|)]
  {
    if k > 0 {
      PagesUpToIsPrefix(s, k - 1);
      var a, b := Min((k - 1) * ItemsPerPage, |s|), Min(k * ItemsPerPage, |s|);
      assert s[..a] + s[a..b] == s[..b];
    }
  }

  /** Pages `1..TotalPages` concatenate back to the whole list. */
  lemma PagesCoverAll<T>(s: seq<T>)
    ensures PagesUpTo(s, TotalPages(|s|)) == s
  {
    PagesUpToIsPrefix(s, TotalPages(|s|));
    assert s[..|s|] == s;
  }

  predicate InRange(page: int, total: nat) {
    1 <= page <= total
  }

  /** The page-navigation buttons under the grid. */
  datatype PageControl = Prev | Next | Number(i: int)

  /** The back button is disabled on the first page and the forward button on the last. */
  predicate Disabled(page: int, total: nat, c: PageControl) {
    match c
    case Prev => page == 1
    case Next => page == total
    case Number(i) => false
  }

  /** The page after a click: a disabled button does nothing, Prev goes back
      one page but not below the first, Next goes on one page but not past the
      last, and a numbered button goes to its number. Only buttons
      `1..totalPages` are rendered. */
  function Click(page: int, total: nat, c: PageControl): (r: int)
    requires total >= 1
    ensures c.Prev? ==> r >= 1 && (page > 1 ==> r == page - 1)
    ensures c.Next? && page <= total ==> r <= total
    ensures c.Next? && page < total ==> r == page + 1
    ensures Disabled(page, total, c) ==> r == page
    ensures InRange(page, total) ==> InRange(r, total)
  {
    if Disabled(page, total, c) then page
    else match c
      case Prev => if page - 1 < 1 then 1 else page - 1
      case Next => Min(total, page + 1)
      case Number(i) => if InRange(i, total) then i else page
  }

  /** A listing page's effect `setCurrentPage(1)`: it runs after a render
      only when one of its dependencies changed value. */
  function AfterDependencies<D(==)>(before: D, after: D, page: int): (r: int)
    ensures before != after ==> r == 1
    ensures before == after ==> r == page
  {
    if before != after then 1 else page
  }
}

=== FILE: price_chart.dfy ===
/** The price chart's sample series and its x-axis thinning: the day count
    of each time range, one point per day from the oldest to today, the
    spikes some ranges add, and which tick labels are drawn. */
module PriceChart {
  import opened Outcomes

  /** The range codes the chart knows, and their day counts in the same order. */
  const RangeCodes: seq<string> := ["7D", "1M", "3M", "6M", "1Y", "All"]
  const RangeDays: seq<nat> := [7, 30, 90, 180, 365, 500]

  /** The range drawn when none is given, and the day count of anything unknown. */
  const DefaultRange := "1M"
  const DefaultDays: nat := 30

  /** The range the component draws for its `timeRange` prop. */
  function EffectiveRange(timeRange: Option<string>): (r: string)
    ensures timeRange.Some? ==> r == timeRange.value
    ensures timeRange.None? ==> r == DefaultRange
  {
    timeRange.GetOr(DefaultRange)
  }

  /** The day count of a range: the `switch` in the sample generator. */
  function DaysFor(timeRange: string): nat {
    match timeRange
    case "7D" => 7
    case "1M" => 30
    case "3M" => 90
    case "6M" => 180
    case "1Y" => 365
    case "All" => 500
    case _ => DefaultDays
  }

  /** The `switch` is the table: each code gets its own day count. */
  lemma DaysForListed(i: nat)
    requires i < |RangeCodes|
    ensures DaysFor(RangeCodes[i]) == RangeDays[i]
  {
  }

  /** Any other string falls back to a month. */
  lemma DaysForUnlisted(timeRange: string)
    requires timeRange !in RangeCodes
    ensures DaysFor(timeRange) == DefaultDays
  {
    assert timeRange != "7D" && timeRange != "1M" && timeRange != "3M";
    assert timeRange != "6M" && timeRange != "1Y" && timeRange != "All";
  }

  /** With no prop the chart spans the default month. */
  lemma NoRangeIsAMonth()
    ensures DaysFor(EffectiveRange(None)) == DefaultDays == RangeDays[1]
  {
  }

  /** Prices are in hundredths: the base of 2.00 and the spike heights. */
  const BasePrice: int := 200
  const NoiseBound: int := 10

  /** The spike a range places at a day offset, in hundredths; only the
      month, quarter and half-year ranges have one. */
  function Spike(timeRange: string, offset: nat): Option<int> {
    if timeRange == "1M" && offset == 23 then Some(50)
    else if timeRange == "3M" && offset == 45 then Some(70)
    else if timeRange == "6M" && offset == 90 then Some(80)
    else None
  }

  /** The price fluctuation at an offset: the spike if there is one,
      otherwise the random draw (already rounded to hundredths). */
  function Factor(timeRange: string, offset: nat, draw: int): (f: int)
    ensures Spike(timeRange, offset).Some? ==> f == Spike(timeRange, offset).value
    ensures Spike(timeRange, offset).None? ==> f == draw
  {
    Spike(timeRange, offset).GetOr(draw)
  }

  /** The generated data: a date (as a day number) and a price per point. */
  datatype Series = Series(dates: seq<int>, prices: seq<int>)

  /** The series the generator is meant to produce: point `j` lies `days - j`
      days before `today` and its price takes the `j`-th random draw. */
  function Expected(timeRange: string, today: int, draw: nat -> int): (s: Series)
    ensures |s.dates| == |s.prices| == DaysFor(timeRange) + 1
    ensures forall j :: 0 <= j < |s.dates| - 1 ==> s.dates[j] + 1 == s.dates[j + 1]
    ensures s.dates[0] == today - DaysFor(timeRange) && s.dates[|s.dates| - 1] == today
  {
    var days := DaysFor(timeRange);
    Series(seq(days + 1, j => today - (days - j)),
           seq(days + 1, j requires 0 <= j <= days => BasePrice + Factor(timeRange, days - j, draw(j))))
  }

  /** `generateSampleData`: counts the offset down from the day count to 0,
      pushing one date and one price per step. */
  method GenerateSampleData(timeRange: string, today: int, draw: nat -> int) returns (s: Series)
    ensures s == Expected(timeRange, today, draw)
  {
    var days := DaysFor(timeRange);
    var dates: seq<int> := [];
    var prices: seq<int> := [];
    var i: int := days;
    while i >= 0
      invariant -1 <= i <= days
      invariant |dates| == |prices| == days - i
      invariant forall j :: 0 <= j < |dates| ==> dates[j] == today - (days - j)
      invariant forall j :: 0 <= j < |prices| ==> prices[j] == BasePrice + Factor(timeRange, days - j, draw(j))
    {
      var n := |dates|;
      dates := dates + [today - i];
      prices := prices + [BasePrice + Factor(timeRange, i, draw(n))];
      i := i - 1;
    }
    s := Series(dates, prices);
  }

  /** The dates run from oldest to newest, one day apart, and end today. */
  lemma DatesAscendToToday(timeRange: string, today: int, draw: nat -> int, j: nat, k: nat)
    requires j < k < |Expected(timeRange, today, draw).dates|
    ensures Expected(timeRange, today, draw).dates[j] < Expected(timeRange, today, draw).dates[k]
    ensures Expected(timeRange, today, draw).dates[k] <= today
  {
  }

  /** The index of a range's spike in its series, if it has one. */
  function SpikeIndex(timeRange: string): (r: Option<nat>)
    ensures r.Some? ==> r.value <= DaysFor(timeRange) && Spike(timeRange, DaysFor(timeRange) - r.value).Some?
    ensures r.None? ==> forall offset: nat :: Spike(timeRange, offset).None?
  {
    if timeRange == "1M" then Some(30 - 23)
    else if timeRange == "3M" then Some(90 - 45)
    else if timeRange == "6M" then Some(180 - 90)
    else None
  }

  /** Every spike offset lies inside its own range, so the spike is drawn,
      and at exactly one point. */
  lemma SpikeDrawnOnce(timeRange: string, offset: nat)
    requires Spike(timeRange, offset).Some?
    ensures offset <= DaysFor(timeRange)
    ensures SpikeIndex(timeRange) == Some(DaysFor(timeRange) - offset)
  {
  }

  /** With draws in the generator's band of plus or minus 0.10, every point
      but the spike stays within that band around 2.00, and the spike
      stands above all of them. */
  lemma SpikeIsThePeak(timeRange: string, today: int, draw: nat -> int, j: nat)
    requires forall k: nat :: -NoiseBound <= draw(k) <= NoiseBound
    requires j < |Expected(timeRange, today, draw).prices|
    ensures SpikeIndex(timeRange) != Some(j) ==>
      BasePrice - NoiseBound <= Expected(timeRange, today, draw).prices[j] <= BasePrice + NoiseBound
    ensures SpikeIndex(timeRange) == Some(j) ==>
      Expected(timeRange, today, draw).prices[j] > BasePrice + NoiseBound
  {
    var days := DaysFor(timeRange);
    assert Expected(timeRange, today, draw).prices[j] == BasePrice + Factor(timeRange, days - j, draw(j));
    if Spike(timeRange, days - j).Some? {
      SpikeDrawnOnce(timeRange, days - j);
    }
  }

  /** The least step that covers `n` ticks in seven labels: `n` over seven, rounded up. */
  function SkipFactor(n: nat): (k: nat)
    ensures 7 * k >= n
    ensures k > 0 ==> 7 * (k - 1) < n
  {
    (n + 6) / 7
  }

  /** The tick callback keeps index `i` when it is a multiple of the step;
      a step of 0 (no ticks at all) would give `NaN` and keep nothing. */
  predicate Labelled(n: nat, i: nat) {
    SkipFactor(n) > 0 && i % SkipFactor(n) == 0
  }

  /** The label drawn under tick `i`: its date, or nothing. */
  function TickLabel(dates: seq<int>, i: nat): (r: Option<int>)
    requires i < |dates|
    ensures r.Some? <==> Labelled(|dates|, i)
    ensures r.Some? ==> r.value == dates[i]
  {
    if Labelled(|dates|, i) then Some(dates[i]) else None
  }

  lemma MulAtLeast(a: int, k: int)
    requires a >= 1 && k >= 0
    ensures a * k >= k
  {
  }

  lemma MulStep(c: nat, k: nat)
    ensures (c + 1) * k == c * k + k
  {
  }

  lemma MultipleMod(m: nat, k: nat, d: nat)
    requires k > 0 && d < k
    ensures (m * k + d) % k == d
  {
    var x := m * k + d;
    var q, r := x / k, x % k;
    assert x == q * k + r;
    if m > q {
      MulAtLeast(m - q, k);
    } else if q > m {
      MulAtLeast(q - m, k);
    }
  }

  lemma FewMultiples(c: nat, k: nat, n: nat)
    requires k > 0 && 7 * k >= n && c * k < n + k
    ensures c <= 7
  {
    if c > 7 {
      MulAtLeast(c - 7, k);
    }
  }

  /** Between one multiple of the step and the next no tick is labelled. */
  lemma NextMultiple(n: nat, c: nat, j: nat)
    requires SkipFactor(n) > 0 && j == c * SkipFactor(n)
    ensures Labelled(n, j)
    ensures forall i: nat :: j < i < j + SkipFactor(n) ==> !Labelled(n, i)
  {
    var k := SkipFactor(n);
    MultipleMod(c, k, 0);
    forall i: nat | j < i < j + k
      ensures !Labelled(n, i)
    {
      MultipleMod(c, k, i - j);
    }
  }

  /** The indices whose labels are drawn, in order: the step's multiples
      below `n`. There are at most seven, and the first tick is one of them. */
  method LabelledIndices(n: nat) returns (idx: seq<nat>)
    ensures forall t :: 0 <= t < |idx| ==> idx[t] < n && Labelled(n, idx[t])
    ensures forall i: nat :: i < n && Labelled(n, i) ==> i in idx
    ensures forall t :: 0 <= t < |idx| - 1 ==> idx[t] < idx[t + 1]
    ensures |idx| <= 7
    ensures n > 0 <==> |idx| > 0 && idx[0] == 0
  {
    idx := [];
    var k := SkipFactor(n);
    if n == 0 {
      return;
    }
    var c: nat, j: nat := 0, 0;
    while j < n
      invariant c == |idx| && j == c * k
      invariant forall t :: 0 <= t < c ==> idx[t] < j && idx[t] < n && Labelled(n, idx[t])
      invariant forall t :: 0 <= t < c - 1 ==> idx[t] < idx[t + 1]
      invariant c > 0 ==> idx[0] == 0
      invariant forall i: nat :: i < j && Labelled(n, i) ==> i in idx
      invariant c * k < n + k
      decreases n - j
    {
      NextMultiple(n, c, j);
      MulStep(c, k);
      idx := idx + [j];
      c, j := c + 1, j + k;
    }
    FewMultiples(c, k, n);
  }
}

=== FILE: sequences.dfy ===
/** `Array.prototype.filter` and a stable sort by an integer key, the two
    list operations the catalog pages apply to their item arrays. */
module Sequences {

  /** The elements of `s` satisfying `p`, in their original order. */
  function Filter<T>(s: seq<T>, p: T -> bool): (r: seq<T>)
    ensures |r| <= |s|
    ensures forall i :: 0 <= i < |r| ==> r[i] in s && p(r[i])
    ensures forall i :: 0 <= i < |s| && p(s[i]) ==> s[i] in r
  {
    if |s| == 0 then [] else (if p(s[0]) then [s[0]] else []) + Filter(s[1..], p)
  }

  /** Filtering distributes over concatenation, so relative order is kept. */
  lemma {:induction false} FilterAppend<T>(a: seq<T>, b: seq<T>, p: T -> bool)
    ensures Filter(a + b, p) == Filter(a, p) + Filter(b, p)
  {
    if |a| > 0 {
      assert (a + b)[1..] == a[1..] + b;
      FilterAppend(a[1..], b, p);
    } else {
      assert a + b == b;
    }
  }

  /** Filtering twice is filtering once by the conjunction. */
  lemma {:induction false} FilterFilter<T>(s: seq<T>, p: T -> bool, q: T -> bool, pq: T -> bool)
    requires forall x :: pq(x) == (p(x) && q(x))
    ensures Filter(Filter(s, p), q) == Filter(s, pq)
  {
    if |s| > 0 {
      FilterFilter(s[1..], p, q, pq);
      if p(s[0]) {
        assert Filter(s, p) == [s[0]] + Filter(s[1..], p);
        assert Filter(s, p)[1..] == Filter(s[1..], p);
        assert pq(s[0]) == q(s[0]);
      } else {
        assert !pq(s[0]);
        assert Filter(s, p) == Filter(s[1..], p);
        assert Filter(s, pq) == Filter(s[1..], pq);
      }
    }
  }

  /** A filter whose predicate holds everywhere returns the whole sequence. */
  lemma {:induction false} FilterAll<T>(s: seq<T>, p: T -> bool)
    requires forall i :: 0 <= i < |s| ==> p(s[i])
    ensures Filter(s, p) == s
  {
    if |s| > 0 {
      FilterAll(s[1..], p);
    }
  }

  /** A filter whose predicate holds nowhere returns the empty sequence. */
  lemma {:induction false} FilterNone<T>(s: seq<T>, p: T -> bool)
    requires forall i :: 0 <= i < |s| ==> !p(s[i])
    ensures Filter(s, p) == []
  {
    if |s| > 0 {
      FilterNone(s[1..], p);
    }
  }

  /** Filters by pointwise-equal predicates agree. */
  lemma {:induction false} FilterCongruent<T>(s: seq<T>, p: T -> bool, q: T -> bool)
    requires forall i :: 0 <= i < |s| ==> p(s[i]) == q(s[i])
    ensures Filter(s, p) == Filter(s, q)
  {
    if |s| > 0 {
      FilterCongruent(s[1..], p, q);
    }
  }

  /** Non-decreasing by `key`. */
  predicate SortedBy<T>(s: seq<T>, key: T -> int) {
    forall i, j :: 0 <= i < j < |s| ==> key(s[i]) <= key(s[j])
  }

  /** Places `x` before the first element whose key is not smaller. */
  function Insert<T(==)>(x: T, s: seq<T>, key: T -> int): (r: seq<T>)
    requires SortedBy(s, key)
    ensures SortedBy(r, key)
    ensures multiset(r) == multiset(s) + multiset{x}
  {
    if |s| == 0 then [x]
    else if key(x) <= key(s[0]) then
      ConsSorted(x, s, key);
      [x] + s
    else
      var tail := Insert(x, s[1..], key);
      LowerBoundKept(tail, s[1..], x, key, key(s[0]));
      ConsSorted(s[0], tail, key);
      assert s == [s[0]] + s[1..];
      [s[0]] + tail
  }

  /** A sorted list stays sorted under a head whose key is at most the first one's. */
  lemma ConsSorted<T>(a: T, t: seq<T>, key: T -> int)
    requires SortedBy(t, key)
    requires |t| > 0 ==> key(a) <= key(t[0])
    ensures SortedBy([a] + t, key)
  {
  }

  /** A lower bound on the keys of `s` and of `x` bounds every key of a
      rearrangement of `s` with `x`. */
  lemma LowerBoundKept<T>(t: seq<T>, s: seq<T>, x: T, key: T -> int, b: int)
    requires multiset(t) == multiset(s) + multiset{x}
    requires b <= key(x)
    requires forall i :: 0 <= i < |s| ==> b <= key(s[i])
    ensures |t| > 0 ==> b <= key(t[0])
    ensures forall i :: 0 <= i < |t| ==> b <= key(t[i])
  {
    forall i | 0 <= i < |t| ensures b <= key(t[i]) {
      assert t[i] in multiset(t);
      if t[i] != x {
        assert t[i] in multiset(s);
      }
    }
  }

  /** Insertion sort by `key`: the ascending sort of a copy of `s` that the
      listing pages perform, which JavaScript keeps stable since ES2019. */
  function SortBy<T(==)>(s: seq<T>, key: T -> int): (r: seq<T>)
    ensures SortedBy(r, key)
    ensures multiset(r) == multiset(s)
  {
    if |s| == 0 then []
    else
      assert s == [s[0]] + s[1..];
      Insert(s[0], SortBy(s[1..], key), key)
  }

  /** The elements whose key equals `k`. */
  function WithKey<T>(s: seq<T>, key: T -> int, k: int): seq<T> {
    Filter(s, (y: T) => key(y) == k)
  }

  lemma WithKeyCons<T>(a: T, t: seq<T>, key: T -> int, k: int)
    ensures WithKey([a] + t, key, k) == (if key(a) == k then [a] else []) + WithKey(t, key, k)
  {
    assert ([a] + t)[1..] == t;
  }

  /** Two elements with different keys commute once filtered by one key. */
  lemma TiesCommute<T>(a: T, b: T, rest: seq<T>, key: T -> int, k: int)
    requires key(a) != key(b)
    ensures (if key(a) == k then [a] else []) + ((if key(b) == k then [b] else []) + rest)
         == (if key(b) == k then [b] else []) + ((if key(a) == k then [a] else []) + rest)
  {
  }

  lemma {:induction false} InsertKeepsTies<T>(x: T, s: seq<T>, key: T -> int, k: int)
    requires SortedBy(s, key)
    ensures WithKey(Insert(x, s, key), key, k)
            == (if key(x) == k then [x] else []) + WithKey(s, key, k)
  {
    if |s| > 0 && key(x) > key(s[0]) {
      var tail := Insert(x, s[1..], key);
      InsertKeepsTies(x, s[1..], key, k);
      assert Insert(x, s, key) == [s[0]] + tail;
      WithKeyCons(s[0], tail, key, k);
      WithKeyCons(s[0], s[1..], key, k);
      assert [s[0]] + s[1..] == s;
      TiesCommute(s[0], x, WithKey(s[1..], key, k), key, k);
    } else if |s| > 0 {
      WithKeyCons(x, s, key, k);
    }
  }

  /** Stability: elements with equal keys keep their input order. */
  lemma {:induction false} SortByStable<T>(s: seq<T>, key: T -> int, k: int)
    ensures WithKey(SortBy(s, key), key, k) == WithKey(s, key, k)
  {
    if |s| > 0 {
      SortByStable(s[1..], key, k);
      InsertKeepsTies(s[0], SortBy(s[1..], key), key, k);
    }
  }

  /** No two positions share an `f` value. */
  predicate DistinctBy<T>(s: seq<T>, f: T -> int) {
    forall i, j :: 0 <= i < j < |s| ==> f(s[i]) != f(s[j])
  }

  /** A head whose value of `f` differs from every other keeps the list distinct. */
  lemma ConsDistinct<T>(a: T, t: seq<T>, f: T -> int)
    requires DistinctBy(t, f)
    requires forall i :: 0 <= i < |t| ==> f(t[i]) != f(a)
    ensures DistinctBy([a] + t, f)
  {
  }

  /** A value of `f` that neither `x` nor `s` takes is not taken by a
      rearrangement of `s` with `x`. */
  lemma ValueAvoided<T>(t: seq<T>, s: seq<T>, x: T, f: T -> int, v: int)
    requires multiset(t) == multiset(s) + multiset{x}
    requires f(x) != v
    requires forall i :: 0 <= i < |s| ==> f(s[i]) != v
    ensures forall i :: 0 <= i < |t| ==> f(t[i]) != v
  {
    forall i | 0 <= i < |t| ensures f(t[i]) != v {
      assert t[i] in multiset(t);
      if t[i] != x {
        assert t[i] in multiset(s);
      }
    }
  }

  lemma {:induction false} InsertDistinct<T>(x: T, s: seq<T>, key: T -> int, f: T -> int)
    requires SortedBy(s, key) && DistinctBy(s, f)
    requires forall i :: 0 <= i < |s| ==> f(s[i]) != f(x)
    ensures DistinctBy(Insert(x, s, key), f)
  {
    if |s| == 0 {
    } else if key(x) <= key(s[0]) {
      ConsDistinct(x, s, f);
    } else {
      var tail := Insert(x, s[1..], key);
      InsertDistinct(x, s[1..], key, f);
      ValueAvoided(tail, s[1..], x, f, f(s[0]));
      ConsDistinct(s[0], tail, f);
    }
  }

  /** Sorting keeps values of `f` distinct. */
  lemma {:induction false} SortByDistinct<T>(s: seq<T>, key: T -> int, f: T -> int)
    requires DistinctBy(s, f)
    ensures DistinctBy(SortBy(s, key), f)
  {
    if |s| > 0 {
      SortByDistinct(s[1..], key, f);
      var sorted := SortBy(s[1..], key);
      forall i | 0 <= i < |sorted| ensures f(sorted[i]) != f(s[0]) {
        assert sorted[i] in multiset(sorted);
        assert sorted[i] in s[1..];
      }
      InsertDistinct(s[0], sorted, key, f);
    }
  }

  /** Filtering keeps values of `f` distinct. */
  lemma {:induction false} FilterDistinct<T>(s: seq<T>, p: T -> bool, f: T -> int)
    requires DistinctBy(s, f)
    ensures DistinctBy(Filter(s, p), f)
  {
    if |s| > 0 {
      FilterDistinct(s[1..], p, f);
      var rest := Filter(s[1..], p);
      forall i | 0 <= i < |rest| ensures f(rest[i]) != f(s[0]) {
        assert rest[i] in s[1..];
      }
    }
  }
}

=== FILE: session.dfy ===
/** The mock session store: the signed-in user, the in-memory list of known
    users it signs in from, and the `csm_user` slot of `localStorage`. */
module Session {
  import opened Outcomes
  import opened Text

  datatype Provider = Steam | Google | Telegram

  function ProviderName(p: Provider): string {
    match p
    case Steam => "steam"
    case Google => "google"
    case Telegram => "telegram"
  }

  datatype User = User(
    id: string, username: string, displayName: string, avatar: Option<string>,
    provider: Provider, providerId: string, tradeLink: Option<string>, memberSince: string)

  /** The URL of the bundled default avatar image. */
  const DefaultAvatar := "default-avatar.jpg"

  /** `MOCK_USERS` as the module is loaded: one user per provider. */
  const MockUsers: seq<User> := [
    User("1", "steam_user", "Steam Player", Some(DefaultAvatar), Steam, "76561198030327391",
         Some("https://steamcommunity.com/tradeoffer/new/?partner=12345678&token=abcdef"), "2023-01-15T00:00:00.000Z"),
    User("2", "google_user", "Google User", Some(DefaultAvatar), Google, "google123456", None, "2023-02-20T00:00:00.000Z"),
    User("3", "telegram_user", "Telegram User", Some(DefaultAvatar), Telegram, "telegram987654", None, "2023-03-10T00:00:00.000Z")
  ]

  /** The `csm_user` entry: a user that parses, or text that does not. */
  datatype Saved = Parsed(user: User) | Corrupt

  datatype Store = Store(users: seq<User>, current: Option<User>, saved: Option<Saved>, loading: bool)

  /** The provider state before the mount effect has run. */
  function Boot(users: seq<User>, saved: Option<Saved>): (s: Store)
    ensures s.current.None? && s.loading && s.users == users && s.saved == saved
  {
    Store(users, None, saved, true)
  }

  /** The mount effect: a saved user that parses becomes current, one that
      does not is removed. */
  function Restore(s: Store): (r: Store)
    ensures !r.loading && r.users == s.users
    ensures s.saved.Some? && s.saved.value.Parsed? ==> r.current == Some(s.saved.value.user) && r.saved == s.saved
    ensures s.saved == Some(Corrupt) ==> r.saved.None? && r.current == s.current
    ensures s.saved.None? ==> r == s.(loading := false)
  {
    match s.saved
    case None => s.(loading := false)
    case Some(Parsed(u)) => s.(current := Some(u), loading := false)
    case Some(Corrupt) => s.(saved := None, loading := false)
  }

  /** The first user signed in through the given provider, if any. */
  function FindByProvider(users: seq<User>, p: Provider): (r: Option<User>)
    ensures r.Some? ==> r.value in users && r.value.provider == p
    ensures r.None? <==> forall i :: 0 <= i < |users| ==> users[i].provider != p
  {
    if |users| == 0 then None
    else if users[0].provider == p then Some(users[0])
    else FindByProvider(users[1..], p)
  }

  /** The user found is the first of that provider. */
  lemma {:induction false} FindByProviderIsFirst(users: seq<User>, p: Provider)
    requires FindByProvider(users, p).Some?
    ensures exists i :: 0 <= i < |users| && users[i] == FindByProvider(users, p).value
                        && forall j :: 0 <= j < i ==> users[j].provider != p
  {
    if users[0].provider != p {
      FindByProviderIsFirst(users[1..], p);
      var i :| 0 <= i < |users[1..]| && users[1..][i] == FindByProvider(users[1..], p).value
               && forall j :: 0 <= j < i ==> users[1..][j].provider != p;
      assert users[i + 1] == FindByProvider(users, p).value;
      forall j | 0 <= j < i + 1 ensures users[j].provider != p {
        if j > 0 {
          assert users[j] == users[1..][j - 1];
        }
      }
    } else {
      assert users[0] == FindByProvider(users, p).value;
    }
  }

  /** The random and clock-dependent parts of a new user: the id, the
      username suffix, the provider id digits and the creation time. */
  datatype Fresh = Fresh(id: string, suffix: string, digits: string, now: string)

  /** The provider name with its first letter in upper case. */
  function Capitalized(s: string): (r: string)
    ensures |r| == |s|
    ensures |s| > 0 ==> r[0] == UpperChar(s[0]) && r[1..] == s[1..]
  {
    if |s| == 0 then "" else [UpperChar(s[0])] + s[1..]
  }

  /** The user created for a provider no known user signs in with. */
  function NewUser(p: Provider, f: Fresh): (u: User)
    ensures u.provider == p && u.avatar == Some(DefaultAvatar) && u.tradeLink.None?
    ensures u.displayName == Capitalized(ProviderName(p)) + " User"
    ensures u.username == ProviderName(p) + "_" + f.suffix
  {
    User(f.id, ProviderName(p) + "_" + f.suffix, Capitalized(ProviderName(p)) + " User", Some(DefaultAvatar),
         p, ProviderName(p) + f.digits, None, f.now)
  }

  /** The provider's name as it is written in a title. */
  function TitleName(p: Provider): string {
    match p
    case Steam => "Steam"
    case Google => "Google"
    case Telegram => "Telegram"
  }

  /** A new user is displayed as "Steam User", "Google User" or "Telegram User". */
  lemma NewUserDisplayName(p: Provider, f: Fresh)
    ensures NewUser(p, f).displayName == TitleName(p) + " User"
  {
    var name := ProviderName(p);
    assert Capitalized(name) == [UpperChar(name[0])] + name[1..];
    match p
    case Steam => assert UpperChar('s') == 'S';
    case Google => assert UpperChar('g') == 'G';
    case Telegram => assert UpperChar('t') == 'T';
  }

  /** `authWithProvider`, once its delay has passed: the first known user of
      the provider is signed in, or a new one is added and signed in; the
      user is saved either way. */
  function SignIn(s: Store, p: Provider, f: Fresh): (r: Store)
    ensures r.current.Some? && r.current.value.provider == p
    ensures r.saved == Some(Parsed(r.current.value)) && !r.loading
    ensures FindByProvider(s.users, p).Some? ==>
      r.users == s.users && r.current == FindByProvider(s.users, p)
    ensures FindByProvider(s.users, p).None? ==>
      r.users == s.users + [NewUser(p, f)] && r.current == Some(NewUser(p, f))
  {
    match FindByProvider(s.users, p)
    case Some(u) => s.(current := Some(u), saved := Some(Parsed(u)), loading := false)
    case None =>
      var u := NewUser(p, f);
      s.(users := s.users + [u], current := Some(u), saved := Some(Parsed(u)), loading := false)
  }

  /** `logout` */
  function Logout(s: Store): (r: Store)
    ensures r.current.None? && r.saved.None?
    ensures r.users == s.users && r.loading == s.loading
  {
    s.(current := None, saved := None)
  }

  /** The fields of a profile update; `None` is an absent property. Only
      `displayName` and `tradeLink` are read. */
  datatype Patch = Patch(displayName: Option<string>, tradeLink: Option<string>)

  /** `given || fallback` for a string property: `undefined` and `""` are falsy. */
  function OrElse(given: Option<string>, fallback: string): (r: string)
    ensures given.Some? && given.value != "" ==> r == given.value
    ensures given.None? || given.value == "" ==> r == fallback
  {
    if given.Some? && given.value != "" then given.value else fallback
  }

  /** `given || fallback` for an optional property, which may stay absent. */
  function OrElseOptional(given: Option<string>, fallback: Option<string>): (r: Option<string>)
    ensures given.Some? && given.value != "" ==> r == given
    ensures given.None? || given.value == "" ==> r == fallback
  {
    if given.Some? && given.value != "" then given else fallback
  }

  /** The position of the first user with the given id, if any. */
  function IndexOfId(users: seq<User>, id: string): (r: Option<nat>)
    ensures r.Some? ==> r.value < |users| && users[r.value].id == id
    ensures r.Some? ==> forall j :: 0 <= j < r.value ==> users[j].id != id
    ensures r.None? <==> forall j :: 0 <= j < |users| ==> users[j].id != id
  {
    if |users| == 0 then None
    else if users[0].id == id then Some(0)
    else match IndexOfId(users[1..], id)
      case None => None
      case Some(i) => Some(i + 1)
  }

  const NotAuthenticated := "Not authenticated"
  const UserNotFound := "User not found"

  /** The stored user with only the two editable fields replaced. */
  function Updated(u: User, patch: Patch): (v: User)
    ensures v.displayName == OrElse(patch.displayName, u.displayName)
    ensures v.tradeLink == OrElseOptional(patch.tradeLink, u.tradeLink)
    ensures v.id == u.id && v.username == u.username && v.avatar == u.avatar
    ensures v.provider == u.provider && v.providerId == u.providerId && v.memberSince == u.memberSince
  {
    u.(displayName := OrElse(patch.displayName, u.displayName),
       tradeLink := OrElseOptional(patch.tradeLink, u.tradeLink))
  }

  /** `updateUserProfile`, once its delay has passed. The update starts from
      the stored user with the current user's id, not from the current user. */
  function UpdateProfile(s: Store, patch: Patch): (res: (Store, Result<User, string>))
    ensures !res.0.loading
    ensures s.current.None? ==> res == (s.(loading := false), Err(NotAuthenticated))
    ensures s.current.Some? && IndexOfId(s.users, s.current.value.id).None? ==>
      res == (s.(loading := false), Err(UserNotFound))
    ensures res.1.Ok? ==>
      && s.current.Some?
      && IndexOfId(s.users, s.current.value.id).Some?
      && var i := IndexOfId(s.users, s.current.value.id).value;
      && res.1.value == Updated(s.users[i], patch)
      && |res.0.users| == |s.users| && res.0.users[i] == res.1.value
      && (forall j :: 0 <= j < |s.users| && j != i ==> res.0.users[j] == s.users[j])
      && res.0.current == Some(res.1.value) && res.0.saved == Some(Parsed(res.1.value))
    ensures res.1.Ok? <==> s.current.Some? && IndexOfId(s.users, s.current.value.id).Some?
  {
    match s.current
    case None => (s.(loading := false), Err(NotAuthenticated))
    case Some(cur) =>
      match IndexOfId(s.users, cur.id)
      case None => (s.(loading := false), Err(UserNotFound))
      case Some(i) =>
        var u := Updated(s.users[i], patch);
        (s.(users := s.users[i := u], current := Some(u), saved := Some(Parsed(u)), loading := false), Ok(u))
  }

  /** Neither editable field can be cleared: an empty or absent value keeps
      the old one, so a non-empty display name and a present trade link stay so. */
  lemma UpdateNeverClears(u: User, patch: Patch)
    ensures u.displayName != "" ==> Updated(u, patch).displayName != ""
    ensures u.tradeLink.Some? ==> Updated(u, patch).tradeLink.Some?
    ensures Updated(u, Patch(None, None)) == u && Updated(u, Patch(Some(""), Some(""))) == u
  {
  }

  /** Every provider has a known user. */
  predicate CoversProviders(users: seq<User>) {
    forall p: Provider :: FindByProvider(users, p).Some?
  }

  lemma MockUsersCoverProviders()
    ensures CoversProviders(MockUsers)
  {
    assert MockUsers[0].provider == Steam && MockUsers[1].provider == Google && MockUsers[2].provider == Telegram;
    forall p: Provider ensures FindByProvider(MockUsers, p).Some? {
      assert exists i :: 0 <= i < |MockUsers| && MockUsers[i].provider == p;
    }
  }

  /** The session operations, as they can follow one another. */
  datatype Action = SignInWith(provider: Provider, draws: Fresh) | SignOut | Edit(patch: Patch) | Reload

  /** One operation. A reload runs the module again: the in-memory list is
      the mock list once more, and only the saved slot survives. */
  function Apply(s: Store, a: Action): (r: Store)
    ensures a.Reload? ==> r.users == MockUsers && r.saved == (if s.saved == Some(Corrupt) then None else s.saved)
    ensures a.Reload? ==> r.current == if s.saved.Some? && s.saved.value.Parsed? then Some(s.saved.value.user) else None
    ensures !a.Reload? ==> |r.users| == |s.users|
                           || (a.SignInWith? && FindByProvider(s.users, a.provider).None? && |r.users| == |s.users| + 1)
  {
    match a
    case SignInWith(p, f) => SignIn(s, p, f)
    case SignOut => Logout(s)
    case Edit(patch) => UpdateProfile(s, patch).0
    case Reload => Restore(Boot(MockUsers, s.saved))
  }

  /** Covering every provider is kept by every operation: an update keeps
      each user's provider, sign-in only ever adds a user, and a reload
      brings back the mock list, which covers them all. */
  lemma ApplyKeepsCoverage(s: Store, a: Action)
    requires CoversProviders(s.users)
    ensures CoversProviders(Apply(s, a).users)
  {
    var r := Apply(s, a);
    if a.Reload? {
      MockUsersCoverProviders();
      return;
    }
    forall p: Provider ensures FindByProvider(r.users, p).Some? {
      var u := FindByProvider(s.users, p).value;
      var i :| 0 <= i < |s.users| && s.users[i] == u;
      assert r.users[i].provider == p by {
        if a.Edit? && UpdateProfile(s, a.patch).1.Ok? {
          var k := IndexOfId(s.users, s.current.value.id).value;
          if i == k {
            assert r.users[i] == Updated(s.users[k], a.patch);
          }
        }
      }
    }
  }

  /** From a list that covers every provider the list never grows: sign-in
      never takes the branch that creates a user, so the list keeps its
      length until a reload brings back the mock list. */
  lemma {:induction false} NeverCreatesUsers(s: Store, actions: seq<Action>)
    requires CoversProviders(s.users)
    ensures |Run(s, actions).users| == |s.users| || |Run(s, actions).users| == |MockUsers|
    ensures CoversProviders(Run(s, actions).users)
    decreases |actions|
  {
    if |actions| > 0 {
      ApplyKeepsCoverage(s, actions[0]);
      NeverCreatesUsers(Apply(s, actions[0]), actions[1..]);
    }
  }

  /** Starting from the mock list, as every visit does, the list of known
      users always has one user per mock entry. */
  lemma MockListNeverGrows(s: Store, actions: seq<Action>)
    requires s.users == MockUsers
    ensures |Run(s, actions).users| == |MockUsers|
  {
    MockUsersCoverProviders();
    NeverCreatesUsers(s, actions);
  }

  function Run(s: Store, actions: seq<Action>): Store
    decreases |actions|
  {
    if |actions| == 0 then s else Run(Apply(s, actions[0]), actions[1..])
  }

  /** The saved slot holds exactly the current user. */
  predicate Mirrored(s: Store) {
    s.saved == if s.current.Some? then Some(Parsed(s.current.value)) else None
  }

  /** Every operation keeps the saved slot in step with the current user. */
  lemma ApplyKeepsMirrored(s: Store, a: Action)
    requires Mirrored(s)
    ensures Mirrored(Apply(s, a))
  {
  }

  /** A saved user restored after a reload, whose id the fresh mock list
      does not know, can never update its profile. */
  lemma RestoredUnknownUserNotFound(users: seq<User>, u: User, patch: Patch)
    requires forall j :: 0 <= j < |users| ==> users[j].id != u.id
    ensures UpdateProfile(Restore(Boot(users, Some(Parsed(u)))), patch).1 == Err(UserNotFound)
  {
  }

  /** After a reload an update starts from the mock entry of the restored
      user, not from the restored user: what was edited before the reload is
      gone from the list. */
  lemma UpdateAfterReloadStartsFromMock(s: Store, u: User, i: nat, patch: Patch)
    requires s.saved == Some(Parsed(u)) && IndexOfId(MockUsers, u.id) == Some(i)
    ensures Apply(s, Reload).current == Some(u)
    ensures UpdateProfile(Apply(s, Reload), patch).1 == Ok(Updated(MockUsers[i], patch))
  {
  }

  /** A display name edited before a reload is still shown after it, and is
      lost by the first update after it, even one that changes nothing. */
  lemma ReloadedEditIsLost(f: Fresh)
    ensures var s1 := Run(Restore(Boot(MockUsers, None)), [SignInWith(Steam, f), Edit(Patch(Some("X"), None)), Reload]);
            var s2 := Apply(s1, Edit(Patch(None, None)));
            && s1.current.Some? && s1.current.value.displayName == "X"
            && s2.current.Some? && s2.current.value.displayName == "Steam Player"
  {
    var s0 := Restore(Boot(MockUsers, None));
    var a := SignInWith(Steam, f);
    var b := Edit(Patch(Some("X"), None));
    var sa := Apply(s0, a);
    assert sa.current == Some(MockUsers[0]);
    assert IndexOfId(sa.users, "1") == Some(0);
    var sb := Apply(sa, b);
    assert sb.current.value.displayName == "X";
    assert Run(s0, [a, b, Reload]) == Run(sa, [b, Reload]) == Run(sb, [Reload]);
  }
}

=== FILE: statistics_api.dfy ===
/** `getItemsStatistics`: default arguments, the request key under which the
    request is registered, and the request's life cycle in the registry. */
module StatisticsApi {
  import opened Outcomes
  import opened Text
  import opened Http
  import opened InFlight

  datatype SortBy = PriceNow | PerDay | PerWeek | PerMonth | PerYear
  datatype SortOrder = Asc | Desc

  function SortByName(s: SortBy): string {
    match s
    case PriceNow => "price_now"
    case PerDay => "per_day"
    case PerWeek => "per_week"
    case PerMonth => "per_month"
    case PerYear => "per_year"
  }

  function SortOrderName(o: SortOrder): string {
    match o
    case Asc => "asc"
    case Desc => "desc"
  }

  function ParseSortBy(s: string): (r: Option<SortBy>)
    ensures r.Some? ==> SortByName(r.value) == s
  {
    if s == "price_now" then Some(PriceNow)
    else if s == "per_day" then Some(PerDay)
    else if s == "per_week" then Some(PerWeek)
    else if s == "per_month" then Some(PerMonth)
    else if s == "per_year" then Some(PerYear)
    else None
  }

  function ParseSortOrder(s: string): (r: Option<SortOrder>)
    ensures r.Some? ==> SortOrderName(r.value) == s
  {
    if s == "asc" then Some(Asc) else if s == "desc" then Some(Desc) else None
  }

  /** The four arguments after defaulting. */
  datatype StatsQuery = StatsQuery(page: int, pageSize: int, sortBy: SortBy, sortOrder: SortOrder)

  /** JavaScript default parameters: an omitted argument takes its default. */
  function WithDefaults(page: Option<int>, pageSize: Option<int>, sortBy: Option<SortBy>, sortOrder: Option<SortOrder>): (q: StatsQuery)
    ensures page.None? ==> q.page == 1
    ensures pageSize.None? ==> q.pageSize == 10
    ensures sortBy.None? ==> q.sortBy == PerWeek
    ensures sortOrder.None? ==> q.sortOrder == Desc
    ensures page.Some? ==> q.page == page.value
    ensures pageSize.Some? ==> q.pageSize == pageSize.value
    ensures sortBy.Some? ==> q.sortBy == sortBy.value
    ensures sortOrder.Some? ==> q.sortOrder == sortOrder.value
  {
    StatsQuery(page.GetOr(1), pageSize.GetOr(10), sortBy.GetOr(PerWeek), sortOrder.GetOr(Desc))
  }

  /** The request key: the four arguments in decimal or by name, in order, joined by dashes. */
  function RequestKey(q: StatsQuery): string {
    IntToString(q.page) + "-" + IntToString(q.pageSize) + "-" + SortByName(q.sortBy) + "-" + SortOrderName(q.sortOrder)
  }

  /** The query part of the statistics URL. */
  function RequestPath(q: StatsQuery): string {
    "/api/v1/items/statistics?page=" + IntToString(q.page) + "&page_size=" + IntToString(q.pageSize)
    + "&sort_by=" + SortByName(q.sortBy) + "&sort_order=" + SortOrderName(q.sortOrder)
  }

  /** Reads a leading integer ended by `-`; a sign at position 0 is not an end. */
  function SplitInt(s: string): Option<(int, string)> {
    match IndexOf(s, '-', 1)
    case None => None
    case Some(i) =>
      match ParseInt(s[..i])
      case None => None
      case Some(n) => Some((n, s[i + 1..]))
  }

  /** Reads a request key back into its four arguments. */
  function ParseRequestKey(key: string): Option<StatsQuery> {
    match SplitInt(key)
    case None => None
    case Some((page, rest)) =>
      match SplitInt(rest)
      case None => None
      case Some((pageSize, tail)) =>
        match ParseSortPart(tail)
        case None => None
        case Some((field, direction)) => Some(StatsQuery(page, pageSize, field, direction))
  }

  /** Reads `<sortBy>-<sortOrder>`. */
  function ParseSortPart(tail: string): Option<(SortBy, SortOrder)> {
    match IndexOf(tail, '-', 0)
    case None => None
    case Some(i) =>
      match (ParseSortBy(tail[..i]), ParseSortOrder(tail[i + 1..]))
      case (Some(field), Some(direction)) => Some((field, direction))
      case _ => None
  }

  lemma ParseSortPartRoundTrip(field: SortBy, direction: SortOrder)
    ensures ParseSortPart(SortByName(field) + "-" + SortOrderName(direction)) == Some((field, direction))
  {
    var f, o := SortByName(field), SortOrderName(direction);
    var tail := f + "-" + o;
    SortNameHasNoDash(field);
    IndexOfSeparator(f, '-', o, 0);
    assert tail[..|f|] == f;
    assert tail[|f| + 1..] == o;
    SortByNames(field);
    assert ParseSortOrder(o) == Some(direction);
  }

  lemma SplitIntOfString(n: int, rest: string)
    ensures SplitInt(IntToString(n) + "-" + rest) == Some((n, rest))
  {
    var a := IntToString(n);
    var s := a + "-" + rest;
    IndexOfSeparator(a, '-', rest, 1);
    assert s[..|a|] == a;
    assert s[|a| + 1..] == rest;
    ParseIntToString(n);
  }

  lemma SortNameHasNoDash(field: SortBy)
    ensures Free(SortByName(field), '-')
  {
  }

  /** The key can be read back into the arguments that made it. */
  lemma ParseRequestKeyRoundTrip(q: StatsQuery)
    ensures ParseRequestKey(RequestKey(q)) == Some(q)
  {
    var a, b := IntToString(q.page), IntToString(q.pageSize);
    var tail := SortByName(q.sortBy) + "-" + SortOrderName(q.sortOrder);
    var rest := b + "-" + tail;
    assert RequestKey(q) == a + "-" + rest;
    SplitIntOfString(q.page, rest);
    SplitIntOfString(q.pageSize, tail);
    ParseSortPartRoundTrip(q.sortBy, q.sortOrder);
  }

  lemma SortByNames(field: SortBy)
    ensures ParseSortBy(SortByName(field)) == Some(field)
  {
  }

  /** Calls that differ in any argument get distinct keys. */
  lemma RequestKeyInjective(q1: StatsQuery, q2: StatsQuery)
    ensures RequestKey(q1) == RequestKey(q2) <==> q1 == q2
  {
    ParseRequestKeyRoundTrip(q1);
    ParseRequestKeyRoundTrip(q2);
  }

  const StatisticsFailure := "Failed to fetch items statistics"

  /** Two calls share a request key, and so cancel one another, exactly when
      their arguments agree once the omitted ones take their defaults: a call
      without arguments and `getItemsStatistics(1, 10, 'per_week', 'desc')`
      are the same request. */
  lemma DefaultsShareKey(page1: Option<int>, pageSize1: Option<int>, sortBy1: Option<SortBy>, sortOrder1: Option<SortOrder>,
                         page2: Option<int>, pageSize2: Option<int>, sortBy2: Option<SortBy>, sortOrder2: Option<SortOrder>)
    ensures (RequestKey(WithDefaults(page1, pageSize1, sortBy1, sortOrder1))
               == RequestKey(WithDefaults(page2, pageSize2, sortBy2, sortOrder2)))
            <==> (page1.GetOr(1) == page2.GetOr(1) && pageSize1.GetOr(10) == pageSize2.GetOr(10)
                  && sortBy1.GetOr(PerWeek) == sortBy2.GetOr(PerWeek) && sortOrder1.GetOr(Desc) == sortOrder2.GetOr(Desc))
    ensures RequestKey(WithDefaults(None, None, None, None))
              == RequestKey(WithDefaults(Some(1), Some(10), Some(PerWeek), Some(Desc)))
  {
    RequestKeyInjective(WithDefaults(page1, pageSize1, sortBy1, sortOrder1), WithDefaults(page2, pageSize2, sortBy2, sortOrder2));
  }

  /** The synchronous start of `getItemsStatistics(q)`. */
  function StartStatistics(r: Registry<string>, q: StatsQuery): (res: (Registry<string>, Controller))
    ensures res.0.active.Keys == r.active.Keys + {RequestKey(q)}
    ensures res.0.active[RequestKey(q)] == res.1
    ensures RequestKey(q) in r.active ==> r.active[RequestKey(q)].id in res.0.aborted
    ensures Valid(r) ==> Valid(res.0)
  {
    Issue(r, RequestKey(q))
  }

  /** The end of `getItemsStatistics(q)`, the call holding controller `c`,
      once its `fetch` has settled; `o` is what the server does. */
  function FinishStatistics<T>(r: Registry<string>, q: StatsQuery, c: Controller, o: FetchOutcome<T>): (res: (Registry<string>, Result<T, Thrown>))
    ensures c.id in r.aborted ==> res == (r, Err(NewError(CancelledMessage)))
    ensures c.id !in r.aborted && o.Responded? ==> res.0.active == r.active - {RequestKey(q)}
    ensures o.Rejected? ==> res.0 == r
    ensures c.id !in r.aborted && o.Responded? && !IsOk(o.status) ==> res.1 == Err(NewError(StatisticsFailure))
    ensures AbortReachesCatch(o) ==> res.1 == Err(NewError(CancelledMessage))
    ensures c.id !in r.aborted && o.Rejected? && !IsAbort(o.thrown) ==> res.1 == Err(o.thrown)
    ensures res.1.Ok? <==> c.id !in r.aborted && o.Responded? && IsOk(o.status) && o.body.Ok?
  {
    Complete(r, RequestKey(q), c, o, StatisticsFailure)
  }

  /** Calling again with the same arguments before the first call settles
      cancels the first call, whatever the server answers it, and leaves the
      second one registered. */
  lemma RepeatedCallCancelsEarlier<T>(r: Registry<string>, q: StatsQuery, o: FetchOutcome<T>)
    requires Valid(r)
    ensures var (r1, first) := StartStatistics(r, q);
            var (r2, second) := StartStatistics(r1, q);
            var (r3, e) := FinishStatistics(r2, q, first, o);
            && e == Err(NewError(CancelledMessage))
            && RequestKey(q) in r3.active && r3.active[RequestKey(q)] == second
  {
  }

  /** Requests for different arguments never abort or delete each other's entries. */
  lemma DistinctQueriesIndependent<T>(r: Registry<string>, q: StatsQuery, other: StatsQuery, c: Controller, o: FetchOutcome<T>)
    requires q != other
    ensures RequestKey(other) in StartStatistics(r, q).0.active <==> RequestKey(other) in r.active
    ensures RequestKey(other) in r.active ==>
              StartStatistics(r, q).0.active[RequestKey(other)] == r.active[RequestKey(other)]
    ensures Valid(r) && RequestKey(other) in r.active ==>
              r.active[RequestKey(other)].id !in StartStatistics(r, q).0.aborted
    ensures RequestKey(other) in FinishStatistics(r, q, c, o).0.active <==> RequestKey(other) in r.active
  {
    RequestKeyInjective(q, other);
    if RequestKey(other) in r.active && RequestKey(q) in r.active && Valid(r) {
      assert r.active[RequestKey(other)] != r.active[RequestKey(q)];
    }
  }
}

=== FILE: subcategory_page.dfy ===
/** The subcategory listing page: `generateSampleItems`, which tops every
    (category, subcategory) pair of the catalog up to five items, and the page
    that lists one pair's items, sorted and paginated. */
module SubcategoryPage {
  import opened Outcomes
  import opened Text
  import opened Sequences
  import opened CatalogData
  import opened Pagination
  import CategoryPage

  /** The random draws for one generated item: condition, price text, rarity. */
  datatype Traits = Traits(condition: ConditionIndex, price: string, rarity: RarityIndex)

  /** What the generator's filter compares: category key and subcategory id. */
  function KeyOf(it: Item): (string, string) {
    (it.category, it.subcategory)
  }

  /** How many of `items` belong to the given category key and subcategory id. */
  function Count(items: seq<Item>, key: (string, string)): nat {
    |Filter(items, (it: Item) => KeyOf(it) == key)|
  }

  /** How many items the pair still lacks to have five; none when it already has five or more. */
  function Needed(items: seq<Item>, p: Pair): (n: nat)
    ensures Count(items, PairKey(p)) < 5 ==> Count(items, PairKey(p)) + n == 5
    ensures Count(items, PairKey(p)) >= 5 ==> n == 0
  {
    if Count(items, PairKey(p)) >= 5 then 0 else 5 - Count(items, PairKey(p))
  }

  function GeneratedName(sub: Subcategory, i: nat): string {
    sub.name + " Item " + NatToString(i + 1)
  }

  /** Round `i` of the inner loop for pair `p`, with `id` at `start + i`;
      `traits` gives the random draws made for each id. */
  function Generated(p: Pair, start: int, i: nat, traits: int -> Traits): Item {
    var t := traits(start + i);
    Item(start + i, GeneratedName(p.1, i), Conditions[t.condition], t.price, Rarities[t.rarity], p.0, p.1.id)
  }

  /** The `n` items the inner loop pushes for pair `p`. */
  function Block(p: Pair, start: int, n: nat, traits: int -> Traits): (g: seq<Item>)
    ensures |g| == n
    ensures forall i :: 0 <= i < n ==> g[i] == Generated(p, start, i, traits)
  {
    seq(n, i requires 0 <= i < n => Generated(p, start, i, traits))
  }

  /** The nested `forEach` over `pairs`, appending to `items` with the id
      counter at `id`. */
  function Fill(items: seq<Item>, id: int, pairs: seq<Pair>, traits: int -> Traits): seq<Item>
    decreases |pairs|
  {
    if |pairs| == 0 then items
    else
      var n := Needed(items, pairs[0]);
      Fill(items + Block(pairs[0], id, n, traits), id + n, pairs[1..], traits)
  }

  /** The module-level `allItems`, generated over `catalog` (the page module
      uses `Categories`). */
  function AllItems(catalog: seq<Category>, traits: int -> Traits): seq<Item> {
    Fill(SeedItems, 5, PairsOf(catalog), traits)
  }

  /** The first pair of `pairs` with the given key. */
  function FirstWithKey(pairs: seq<Pair>, key: (string, string)): (r: Option<Pair>)
    ensures r.Some? ==> PairKey(r.value) == key && r.value in pairs
    ensures r.None? <==> forall i :: 0 <= i < |pairs| ==> PairKey(pairs[i]) != key
  {
    if |pairs| == 0 then None
    else if PairKey(pairs[0]) == key then Some(pairs[0])
    else FirstWithKey(pairs[1..], key)
  }

  // ---------------------------------------------------------------------
  // Counting
  // ---------------------------------------------------------------------

  lemma CountAppend(a: seq<Item>, b: seq<Item>, key: (string, string))
    ensures Count(a + b, key) == Count(a, key) + Count(b, key)
  {
    FilterAppend(a, b, (it: Item) => KeyOf(it) == key);
  }

  /** A block holds `n` items of its own pair and none of any other. */
  lemma {:induction false} CountBlock(p: Pair, start: int, n: nat, traits: int -> Traits, key: (string, string))
    ensures Count(Block(p, start, n, traits), key) == if key == PairKey(p) then n else 0
  {
    var isKey := (it: Item) => KeyOf(it) == key;
    var g := Block(p, start, n, traits);
    if key == PairKey(p) {
      FilterAll(g, isKey);
    } else {
      FilterNone(g, isKey);
    }
  }

  /** The first pair's block lifts its count to five, or adds nothing at five or more. */
  lemma FirstPairCount(items: seq<Item>, id: int, p: Pair, traits: int -> Traits)
    ensures var after := Count(items + Block(p, id, Needed(items, p), traits), PairKey(p));
      after == if Count(items, PairKey(p)) < 5 then 5 else Count(items, PairKey(p))
  {
    CountAppend(items, Block(p, id, Needed(items, p), traits), PairKey(p));
    CountBlock(p, id, Needed(items, p), traits, PairKey(p));
  }

  /** Topping up never lowers a count and lifts each listed pair to at least five:
      a pair with `k < 5` items ends with exactly 5, one with `k >= 5` keeps `k`. */
  lemma {:induction false} FillCount(items: seq<Item>, id: int, pairs: seq<Pair>, traits: int -> Traits, key: (string, string))
    ensures Count(Fill(items, id, pairs, traits), key)
      == if FirstWithKey(pairs, key).Some? && Count(items, key) < 5 then 5 else Count(items, key)
    decreases |pairs|
  {
    if |pairs| > 0 {
      var p := pairs[0];
      var n := Needed(items, p);
      var next := items + Block(p, id, n, traits);
      assert Fill(items, id, pairs, traits) == Fill(next, id + n, pairs[1..], traits);
      FillCount(next, id + n, pairs[1..], traits, key);
      if key == PairKey(p) {
        FirstPairCount(items, id, p, traits);
      } else {
        OtherPairUncounted(items, id, p, traits, key);
      }
    }
  }

  /** Generation only appends. */
  lemma {:induction false} FillExtends(items: seq<Item>, id: int, pairs: seq<Pair>, traits: int -> Traits)
    ensures |Fill(items, id, pairs, traits)| >= |items|
    ensures Fill(items, id, pairs, traits)[..|items|] == items
    decreases |pairs|
  {
    if |pairs| > 0 {
      var n := Needed(items, pairs[0]);
      var next := items + Block(pairs[0], id, n, traits);
      FillExtends(next, id + n, pairs[1..], traits);
      assert next[..|items|] == items;
    }
  }

  /** The ids of `g` run `id, id + 1, ...`. */
  predicate IdsFrom(g: seq<Item>, id: int) {
    forall j :: 0 <= j < |g| ==> g[j].id == id + j
  }

  lemma IdsFromAppend(a: seq<Item>, b: seq<Item>, id: int)
    requires IdsFrom(a, id) && IdsFrom(b, id + |a|)
    ensures IdsFrom(a + b, id)
  {
    forall j | 0 <= j < |a + b| ensures (a + b)[j].id == id + j {
      if j >= |a| {
        assert (a + b)[j] == b[j - |a|];
      }
    }
  }

  /** Generated ids are consecutive from the counter's start. */
  lemma {:induction false} FillIds(items: seq<Item>, id: int, pairs: seq<Pair>, traits: int -> Traits)
    ensures |Fill(items, id, pairs, traits)| >= |items|
    ensures IdsFrom(Fill(items, id, pairs, traits)[|items|..], id)
    decreases |pairs|
  {
    if |pairs| > 0 {
      var n := Needed(items, pairs[0]);
      var g := Block(pairs[0], id, n, traits);
      var next := items + g;
      var r := Fill(next, id + n, pairs[1..], traits);
      FillFirst(items, id, pairs, traits);
      FillIds(next, id + n, pairs[1..], traits);
      SplitAfterPrefix(r, items, g);
      IdsFromAppend(g, r[|next|..], id);
    }
  }

  /** A list that starts with `items + g` splits after `items` into `g` and the rest. */
  lemma SplitAfterPrefix(r: seq<Item>, items: seq<Item>, g: seq<Item>)
    requires |r| >= |items + g| && r[..|items + g|] == items + g
    ensures r[|items|..] == g + r[|items + g|..]
  {
    assert r[|items|..] == r[|items|..|items + g|] + r[|items + g|..];
    assert r[|items|..|items + g|] == r[..|items + g|][|items|..];
  }

  // ---------------------------------------------------------------------
  // Names
  // ---------------------------------------------------------------------

  /** The items of the first block are of the first pair. */
  lemma FirstBlockKey(items: seq<Item>, id: int, pairs: seq<Pair>, traits: int -> Traits, j: nat)
    requires |pairs| > 0
    requires |items| <= j < |items| + Needed(items, pairs[0])
    ensures |Fill(items, id, pairs, traits)| > j
    ensures KeyOf(Fill(items, id, pairs, traits)[j]) == PairKey(pairs[0])
  {
    var r := Fill(items, id, pairs, traits);
    var n := Needed(items, pairs[0]);
    FillFirst(items, id, pairs, traits);
    assert r[j] == r[..|items| + n][j];
  }

  /** Every generated item is of a pair that had fewer than five items to begin with. */
  lemma {:induction false} FillOnlyUnderfull(items: seq<Item>, id: int, pairs: seq<Pair>, traits: int -> Traits, j: nat)
    requires |items| <= j < |Fill(items, id, pairs, traits)|
    ensures Count(items, KeyOf(Fill(items, id, pairs, traits)[j])) < 5
    decreases |pairs|
  {
    var n := Needed(items, pairs[0]);
    if j < |items| + n {
      FirstBlockKey(items, id, pairs, traits, j);
    } else {
      var g := Block(pairs[0], id, n, traits);
      FillFirst(items, id, pairs, traits);
      FillOnlyUnderfull(items + g, id + n, pairs[1..], traits, j);
      CountAppend(items, g, KeyOf(Fill(items, id, pairs, traits)[j]));
    }
  }

  /** The name claim of `FillNames` for item `j` of `r`. */
  predicate NamedByPosition(r: seq<Item>, items: seq<Item>, pairs: seq<Pair>, j: nat)
    requires j < |r|
  {
    var key := KeyOf(r[j]);
    && FirstWithKey(pairs, key).Some?
    && Count(r[..j + 1], key) > Count(items, key)
    && r[j].name == GeneratedName(FirstWithKey(pairs, key).value.1, Count(r[..j + 1], key) - Count(items, key) - 1)
  }

  /** One step of the outer loop: the first pair's block is appended and
      the rest of the loop runs on the longer list. */
  lemma FillFirst(items: seq<Item>, id: int, pairs: seq<Pair>, traits: int -> Traits)
    requires |pairs| > 0
    ensures var n := Needed(items, pairs[0]);
      var next := items + Block(pairs[0], id, n, traits);
      && Fill(items, id, pairs, traits) == Fill(next, id + n, pairs[1..], traits)
      && |Fill(items, id, pairs, traits)| >= |next|
      && Fill(items, id, pairs, traits)[..|next|] == next
  {
    var n := Needed(items, pairs[0]);
    FillExtends(items + Block(pairs[0], id, n, traits), id + n, pairs[1..], traits);
  }

  /** The first `m` items of a block are all of its pair. */
  lemma CountBlockPrefix(p: Pair, start: int, n: nat, m: nat, traits: int -> Traits)
    requires m <= n
    ensures Count(Block(p, start, n, traits)[..m], PairKey(p)) == m
  {
    FilterAll(Block(p, start, n, traits)[..m], (it: Item) => KeyOf(it) == PairKey(p));
  }

  /** Item `i` of the first block is the `i`-th of its pair. */
  lemma NamesInFirstBlock(items: seq<Item>, id: int, pairs: seq<Pair>, traits: int -> Traits, j: nat)
    requires |pairs| > 0
    requires |items| <= j < |items| + Needed(items, pairs[0])
    ensures |Fill(items, id, pairs, traits)| > j
    ensures NamedByPosition(Fill(items, id, pairs, traits), items, pairs, j)
  {
    var p := pairs[0];
    var g := Block(p, id, Needed(items, p), traits);
    var i := j - |items|;
    FirstBlockView(items, id, pairs, traits, j);
    CountAppend(items, g[..i + 1], PairKey(p));
    CountBlockPrefix(p, id, Needed(items, p), i + 1, traits);
  }

  /** Up to item `j` of the first block, the result is `items` and that much of the block. */
  lemma FirstBlockView(items: seq<Item>, id: int, pairs: seq<Pair>, traits: int -> Traits, j: nat)
    requires |pairs| > 0
    requires |items| <= j < |items| + Needed(items, pairs[0])
    ensures var g := Block(pairs[0], id, Needed(items, pairs[0]), traits);
      var r := Fill(items, id, pairs, traits);
      && |r| > j
      && r[..j + 1] == items + g[..j - |items| + 1]
      && r[j] == g[j - |items|]
  {
    var r := Fill(items, id, pairs, traits);
    var n := Needed(items, pairs[0]);
    var g := Block(pairs[0], id, n, traits);
    FillFirst(items, id, pairs, traits);
    assert r[..j + 1] == r[..|items| + n][..j + 1];
    assert r[j] == r[..|items| + n][j];
  }

  /** The first block leaves every other pair's count as it was. */
  lemma OtherPairUncounted(items: seq<Item>, id: int, p: Pair, traits: int -> Traits, key: (string, string))
    requires key != PairKey(p)
    ensures Count(items + Block(p, id, Needed(items, p), traits), key) == Count(items, key)
  {
    CountAppend(items, Block(p, id, Needed(items, p), traits), key);
    CountBlock(p, id, Needed(items, p), traits, key);
  }

  /** Items after the first block are of other pairs, which the first block does not count. */
  lemma NamesAfterFirstBlock(items: seq<Item>, id: int, pairs: seq<Pair>, traits: int -> Traits, j: nat)
    requires |pairs| > 0
    requires |items| + Needed(items, pairs[0]) <= j < |Fill(items, id, pairs, traits)|
    requires var n := Needed(items, pairs[0]);
      NamedByPosition(Fill(items + Block(pairs[0], id, n, traits), id + n, pairs[1..], traits),
                      items + Block(pairs[0], id, n, traits), pairs[1..], j)
    ensures NamedByPosition(Fill(items, id, pairs, traits), items, pairs, j)
  {
    var n := Needed(items, pairs[0]);
    var next := items + Block(pairs[0], id, n, traits);
    LaterItemOfOtherPair(items, id, pairs, traits, j);
    NamedAcrossFirstPair(Fill(next, id + n, pairs[1..], traits), items, next, pairs, j);
  }

  /** An item after the first block is of another pair than the first (that
      one was topped up to five already), and the first block did not count its pair. */
  lemma LaterItemOfOtherPair(items: seq<Item>, id: int, pairs: seq<Pair>, traits: int -> Traits, j: nat)
    requires |pairs| > 0
    requires |items| + Needed(items, pairs[0]) <= j < |Fill(items, id, pairs, traits)|
    ensures var n := Needed(items, pairs[0]);
      var next := items + Block(pairs[0], id, n, traits);
      var r := Fill(next, id + n, pairs[1..], traits);
      && Fill(items, id, pairs, traits) == r
      && KeyOf(r[j]) != PairKey(pairs[0])
      && Count(next, KeyOf(r[j])) == Count(items, KeyOf(r[j]))
  {
    var p := pairs[0];
    var n := Needed(items, p);
    var next := items + Block(p, id, n, traits);
    FillFirst(items, id, pairs, traits);
    var key := KeyOf(Fill(next, id + n, pairs[1..], traits)[j]);
    FillOnlyUnderfull(next, id + n, pairs[1..], traits, j);
    FirstPairCount(items, id, p, traits);
    OtherPairUncounted(items, id, p, traits, key);
  }

  /** The name claim carries over from the rest of the loop when item `j`
      is of another pair than the first and the first block did not count it. */
  lemma NamedAcrossFirstPair(r: seq<Item>, items: seq<Item>, next: seq<Item>, pairs: seq<Pair>, j: nat)
    requires |pairs| > 0 && j < |r|
    requires NamedByPosition(r, next, pairs[1..], j)
    requires KeyOf(r[j]) != PairKey(pairs[0])
    requires Count(next, KeyOf(r[j])) == Count(items, KeyOf(r[j]))
    ensures NamedByPosition(r, items, pairs, j)
  {
  }

  /** The `i`-th generated item of its pair is named "<subcategory name> Item <i+1>":
      its position among its pair's generated items is read off by counting. */
  lemma {:induction false} FillNames(items: seq<Item>, id: int, pairs: seq<Pair>, traits: int -> Traits, j: nat)
    requires |items| <= j < |Fill(items, id, pairs, traits)|
    ensures NamedByPosition(Fill(items, id, pairs, traits), items, pairs, j)
    decreases |pairs|
  {
    var n := Needed(items, pairs[0]);
    if j < |items| + n {
      NamesInFirstBlock(items, id, pairs, traits, j);
    } else {
      FillNames(items + Block(pairs[0], id, n, traits), id + n, pairs[1..], traits, j);
      NamesAfterFirstBlock(items, id, pairs, traits, j);
    }
  }

  // ---------------------------------------------------------------------
  // The catalog's `allItems`
  // ---------------------------------------------------------------------

  lemma PairHasKey(pairs: seq<Pair>, i: nat)
    requires i < |pairs|
    ensures FirstWithKey(pairs, PairKey(pairs[i])).Some?
  {
  }

  /** Topping up `seeds` numbered from 1 gives every listed pair at least
      five items, keeps the seeds as a prefix, numbers the generated items on
      from `|seeds| + 1` and leaves no two items with one id. */
  lemma FillShape(seeds: seq<Item>, pairs: seq<Pair>, traits: int -> Traits)
    requires CategoryPage.NumberedFromOne(seeds)
    ensures var all := Fill(seeds, |seeds| + 1, pairs, traits);
      && |all| >= |seeds| && all[..|seeds|] == seeds
      && IdsFrom(all[|seeds|..], |seeds| + 1)
      && CategoryPage.DistinctIds(all)
      && forall i :: 0 <= i < |pairs| ==> Count(all, PairKey(pairs[i])) >= 5
  {
    var all := Fill(seeds, |seeds| + 1, pairs, traits);
    FillExtends(seeds, |seeds| + 1, pairs, traits);
    FillIds(seeds, |seeds| + 1, pairs, traits);
    forall i | 0 <= i < |pairs| ensures Count(all, PairKey(pairs[i])) >= 5 {
      PairHasKey(pairs, i);
      FillCount(seeds, |seeds| + 1, pairs, traits, PairKey(pairs[i]));
    }
    assert IdsFrom(seeds, 1);
    IdsFromAppend(seeds, all[|seeds|..], 1);
    assert all == seeds + all[|seeds|..];
    assert CategoryPage.NumberedFromOne(all);
    CategoryPage.NumberedIdsDistinct(all);
  }

  /** `allItems`: every (category, subcategory) pair of the catalog has at
      least five items, the four seed items are an unchanged prefix, generated
      ids count up from 5 and no two items share an id. */
  lemma AllItemsShape(catalog: seq<Category>, traits: int -> Traits)
    ensures var all := AllItems(catalog, traits);
      && |all| >= |SeedItems| && all[..|SeedItems|] == SeedItems
      && IdsFrom(all[|SeedItems|..], 5)
      && CategoryPage.DistinctIds(all)
      && forall i :: 0 <= i < |PairsOf(catalog)| ==> Count(all, PairKey(PairsOf(catalog)[i])) >= 5
  {
    CategoryPage.SeedItemsNumbered();
    FillShape(SeedItems, PairsOf(catalog), traits);
  }

  /** Every subcategory of every category of `catalog` ends up with at least
      five items in `allItems`, so no subcategory page of the catalog is empty. */
  lemma EverySubcategoryFilled(catalog: seq<Category>, traits: int -> Traits)
    ensures forall i, j :: 0 <= i < |catalog| && 0 <= j < |catalog[i].subcategories| ==>
      Count(AllItems(catalog, traits), (catalog[i].key, catalog[i].subcategories[j].id)) >= 5
  {
    var ps := PairsOf(catalog);
    AllItemsShape(catalog, traits);
    forall i, j | 0 <= i < |catalog| && 0 <= j < |catalog[i].subcategories|
      ensures Count(AllItems(catalog, traits), (catalog[i].key, catalog[i].subcategories[j].id)) >= 5
    {
      var k :| 0 <= k < |ps| && ps[k] == (catalog[i].key, catalog[i].subcategories[j]);
      assert PairKey(ps[k]) == (catalog[i].key, catalog[i].subcategories[j].id);
    }
  }

  // ---------------------------------------------------------------------
  // The page
  // ---------------------------------------------------------------------

  /** The filter of the page's effect: items of both the category and the subcategory. */
  function Matching(items: seq<Item>, categoryId: string, subcategoryId: string): (r: seq<Item>)
    ensures forall j :: 0 <= j < |r| ==> r[j] in items && r[j].category == categoryId && r[j].subcategory == subcategoryId
    ensures forall j :: 0 <= j < |items| ==>
      (items[j].category == categoryId && items[j].subcategory == subcategoryId ==> items[j] in r)
  {
    Filter(items, (it: Item) => it.category == categoryId && it.subcategory == subcategoryId)
  }

  /** The subcategory page lists what the category page lists with that
      subcategory active. */
  lemma MatchingIsCategoryPageWithSubcategory(items: seq<Item>, categoryId: string, subcategoryId: string)
    requires subcategoryId != ""
    ensures Matching(items, categoryId, subcategoryId) == CategoryPage.Filtered(items, categoryId, Some(subcategoryId))
  {
    FilterFilter(items, (it: Item) => it.category == categoryId, (it: Item) => it.subcategory == subcategoryId,
                 (it: Item) => it.category == categoryId && it.subcategory == subcategoryId);
  }

  /** What the page's effect stores in `filteredItems`. */
  function Listing(items: seq<Item>, categoryId: string, subcategoryId: string,
                   order: CategoryPage.SortOrder, priceRank: string -> int): (r: seq<Item>)
    ensures multiset(r) == multiset(Matching(items, categoryId, subcategoryId))
    ensures SortedBy(r, CategoryPage.SortKey(order, priceRank))
  {
    SortBy(Matching(items, categoryId, subcategoryId), CategoryPage.SortKey(order, priceRank))
  }

  /** The page's state: both route parameters, the sort menu, the page and `filteredItems`. */
  datatype View = View(categoryId: string, subcategoryId: string, order: CategoryPage.SortOrder,
                       page: int, filtered: seq<Item>)

  function Deps(v: View): (string, string, CategoryPage.SortOrder) {
    (v.categoryId, v.subcategoryId, v.order)
  }

  /** The filter effect: a falsy route parameter leaves `filteredItems` as it was. */
  function Refilter(v: View, items: seq<Item>, priceRank: string -> int): (r: View)
    ensures Deps(r) == Deps(v) && r.page == v.page
    ensures v.categoryId != "" && v.subcategoryId != "" ==>
      r.filtered == Listing(items, v.categoryId, v.subcategoryId, v.order, priceRank)
    ensures v.categoryId == "" || v.subcategoryId == "" ==> r == v
  {
    if v.categoryId == "" || v.subcategoryId == "" then v
    else v.(filtered := Listing(items, v.categoryId, v.subcategoryId, v.order, priceRank))
  }

  datatype Event =
    | ChooseOrder(order: CategoryPage.SortOrder)
    | Navigate(categoryId: string, subcategoryId: string)
    | Paginate(control: PageControl)

  /** One event and the effects of the render it causes. */
  function Step(v: View, e: Event, items: seq<Item>, priceRank: string -> int): View {
    match e
    case Paginate(c) => v.(page := Click(v.page, TotalPages(|v.filtered|), c))
    case _ =>
      var changed := match e
        case ChooseOrder(o) => v.(order := o)
        case Navigate(c, s) => v.(categoryId := c, subcategoryId := s);
      if Deps(changed) == Deps(v) then changed
      else Refilter(changed.(page := AfterDependencies(Deps(v), Deps(changed), v.page)), items, priceRank)
  }

  predicate Consistent(v: View, items: seq<Item>, priceRank: string -> int) {
    && InRange(v.page, TotalPages(|v.filtered|))
    && (v.categoryId != "" && v.subcategoryId != "" ==>
          v.filtered == Listing(items, v.categoryId, v.subcategoryId, v.order, priceRank))
  }

  function Open(categoryId: string, subcategoryId: string, items: seq<Item>, priceRank: string -> int): (v: View)
    ensures v.order == CategoryPage.Newest && v.page == 1
    ensures Consistent(v, items, priceRank)
  {
    Refilter(View(categoryId, subcategoryId, CategoryPage.Newest, 1, []), items, priceRank)
  }

  /** Every event keeps the view consistent; a change of route or sort order
      returns to page 1; a page click leaves the list alone. */
  lemma StepKeepsConsistent(v: View, e: Event, items: seq<Item>, priceRank: string -> int)
    requires Consistent(v, items, priceRank)
    ensures Consistent(Step(v, e, items, priceRank), items, priceRank)
    ensures var r := Step(v, e, items, priceRank);
      !e.Paginate? && Deps(r) != Deps(v) ==> r.page == 1
    ensures e.Paginate? ==> Step(v, e, items, priceRank).filtered == v.filtered
  {
  }

  /** What the page shows: "Subcategory not found" (`None`) unless the route
      names a category of the catalog and one of its subcategories; otherwise
      the current page, and the page buttons only when the list is non-empty. */
  datatype Screen = Screen(items: seq<Item>, showsPagination: bool)

  function Rendered(catalog: seq<Category>, v: View): (r: Option<Screen>)
    ensures r.None? <==> (FindCategoryIn(catalog, v.categoryId).None?
                          || FindSubcategory(FindCategoryIn(catalog, v.categoryId).value, v.subcategoryId).None?)
    ensures r.Some? ==> |r.value.items| <= ItemsPerPage
    ensures r.Some? ==> (r.value.showsPagination <==> |v.filtered| > 0)
    ensures r.Some? ==> forall j :: 0 <= j < |r.value.items| ==> r.value.items[j] in v.filtered
  {
    var category := FindCategoryIn(catalog, v.categoryId);
    if category.None? || FindSubcategory(category.value, v.subcategoryId).None? then None
    else Some(Screen(PageItems(v.filtered, v.page), |v.filtered| > 0))
  }
}

=== FILE: text.dfy ===
/** Decimal rendering of integers as JavaScript's `Number.prototype.toString`
    produces it for integral values, the parsers that invert it, and the few
    string utilities the client relies on (joining, splitting, ASCII case
    folding, `String.prototype.trim` blankness). */
module Text {
  import opened Outcomes

  predicate IsDigit(c: char) {
    '0' <= c <= '9'
  }

  predicate AllDigits(s: string) {
    forall i :: 0 <= i < |s| ==> IsDigit(s[i])
  }

  function DigitChar(d: nat): (c: char)
    requires d < 10
    ensures IsDigit(c) && c as int - '0' as int == d
  {
    ('0' as int + d) as char
  }

  function DigitValue(c: char): (d: nat)
    requires IsDigit(c)
    ensures d < 10 && DigitChar(d) == c
  {
    c as int - '0' as int
  }

  /** Decimal digits of `n`, most significant first, with no leading zero. */
  function NatToString(n: nat): (s: string)
    ensures |s| >= 1 && AllDigits(s)
    ensures |s| > 1 ==> s[0] != '0'
    ensures n < 10 <==> |s| == 1
  {
    if n < 10 then [DigitChar(n)] else NatToString(n / 10) + [DigitChar(n % 10)]
  }

  /** The value of a non-empty run of decimal digits. */
  function ParseNat(s: string): nat
    requires |s| >= 1 && AllDigits(s)
  {
    if |s| == 1 then DigitValue(s[0])
    else ParseNat(s[..|s| - 1]) * 10 + DigitValue(s[|s| - 1])
  }

  lemma {:induction false} ParseNatToString(n: nat)
    ensures ParseNat(NatToString(n)) == n
  {
    if n >= 10 {
      var s := NatToString(n);
      assert s[..|s| - 1] == NatToString(n / 10);
      ParseNatToString(n / 10);
    }
  }

  lemma NatToStringInjective(a: nat, b: nat)
    requires NatToString(a) == NatToString(b)
    ensures a == b
  {
    ParseNatToString(a);
    ParseNatToString(b);
  }

  /** `n.toString()` for an integral JavaScript number. */
  function IntToString(n: int): (s: string)
    ensures |s| >= 1
    ensures n < 0 <==> s[0] == '-'
    ensures forall i :: 1 <= i < |s| ==> IsDigit(s[i])
  {
    if n < 0 then "-" + NatToString(-n) else NatToString(n)
  }

  /** Reads an optionally signed run of decimal digits; anything else is None. */
  function ParseInt(s: string): Option<int> {
    if |s| >= 2 && s[0] == '-' && AllDigits(s[1..]) then Some(0 - ParseNat(s[1..]) as int)
    else if |s| >= 1 && AllDigits(s) then Some(ParseNat(s))
    else None
  }

  lemma ParseIntToString(n: int)
    ensures ParseInt(IntToString(n)) == Some(n)
  {
    var s := IntToString(n);
    if n < 0 {
      assert s[1..] == NatToString(-n);
      ParseNatToString(-n);
    } else {
      ParseNatToString(n);
    }
  }

  lemma IntToStringInjective(a: int, b: int)
    requires IntToString(a) == IntToString(b)
    ensures a == b
  {
    ParseIntToString(a);
    ParseIntToString(b);
  }

  /** The first index at or after `from` holding `c`, if any. */
  function IndexOf(s: string, c: char, from: nat): (r: Option<nat>)
    ensures r.Some? ==> from <= r.value < |s| && s[r.value] == c
                        && forall i :: from <= i < r.value ==> s[i] != c
    ensures r.None? ==> forall i :: from <= i < |s| ==> s[i] != c
    decreases |s| - from
  {
    if from >= |s| then None
    else if s[from] == c then Some(from)
    else IndexOf(s, c, from + 1)
  }

  lemma IndexOfSeparator(a: string, c: char, b: string, from: nat)
    requires from <= |a|
    requires forall i :: from <= i < |a| ==> a[i] != c
    ensures IndexOf(a + [c] + b, c, from) == Some(|a|)
  {
    var s := a + [c] + b;
    assert s[|a|] == c;
    assert forall i :: from <= i < |a| ==> s[i] == a[i];
  }

  /** Parts glued with a separator, as `Array.prototype.join` does. */
  function Join(parts: seq<string>, sep: char): string {
    if |parts| == 0 then ""
    else if |parts| == 1 then parts[0]
    else parts[0] + [sep] + Join(parts[1..], sep)
  }

  /** Cuts `s` at every `sep`, as `String.prototype.split` with a one-character separator. */
  function Split(s: string, sep: char): (parts: seq<string>)
    ensures |parts| >= 1
    decreases |s|
  {
    match IndexOf(s, sep, 0)
    case None => [s]
    case Some(i) => [s[..i]] + Split(s[i + 1..], sep)
  }

  predicate Free(s: string, c: char) {
    forall i :: 0 <= i < |s| ==> s[i] != c
  }

  lemma {:induction false} SplitJoin(parts: seq<string>, sep: char)
    requires |parts| >= 1
    requires forall j :: 0 <= j < |parts| ==> Free(parts[j], sep)
    ensures Split(Join(parts, sep), sep) == parts
  {
    if |parts| == 1 {
      assert IndexOf(parts[0], sep, 0) == None;
    } else {
      var rest := Join(parts[1..], sep);
      var s := parts[0] + [sep] + rest;
      IndexOfSeparator(parts[0], sep, rest, 0);
      assert s[..|parts[0]|] == parts[0];
      assert s[|parts[0]| + 1..] == rest;
      SplitJoin(parts[1..], sep);
      assert parts == [parts[0]] + parts[1..];
    }
  }

  /** ASCII lower-casing of one character. */
  function LowerChar(c: char): char {
    if 'A' <= c <= 'Z' then (c as int + 32) as char else c
  }

  /** `String.prototype.toLowerCase` restricted to ASCII letters. */
  function ToLower(s: string): (r: string)
    ensures |r| == |s|
    ensures forall i :: 0 <= i < |s| ==> r[i] == LowerChar(s[i])
  {
    if |s| == 0 then "" else [LowerChar(s[0])] + ToLower(s[1..])
  }

  /** Lower-casing twice is lower-casing once. */
  lemma ToLowerIdempotent(s: string)
    ensures ToLower(ToLower(s)) == ToLower(s)
  {
    assert forall i :: 0 <= i < |s| ==> LowerChar(LowerChar(s[i])) == LowerChar(s[i]);
  }

  /** ASCII upper-casing of one character. */
  function UpperChar(c: char): char {
    if 'a' <= c <= 'z' then (c as int - 32) as char else c
  }

  /** The characters `String.prototype.trim` removes: white space and line terminators. */
  predicate IsTrimmable(c: char) {
    c == ' ' || c == '\t' || c == '\n' || c == '\r' || c == '\U{B}' || c == '\U{C}'
    || c == '\U{A0}' || c == '\U{1680}' || ('\U{2000}' <= c <= '\U{200A}')
    || c == '\U{2028}' || c == '\U{2029}' || c == '\U{202F}' || c == '\U{205F}'
    || c == '\U{3000}' || c == '\U{FEFF}'
  }

  /** Whether `s.trim()` is the empty string, i.e. falsy. */
  function TrimIsEmpty(s: string): (blank: bool)
    ensures blank <==> forall i :: 0 <= i < |s| ==> IsTrimmable(s[i])
  {
    if |s| == 0 then true else IsTrimmable(s[0]) && TrimIsEmpty(s[1..])
  }
}
